=== FILE: README.md ===
# neko-sama-cli terminal toolkit, modelled in Dafny

This project models the pure core of the downloader's terminal toolkit
`anchor.py`:

- the ANSI encoder `_ansi`, the colour registry `COLOR` with `C256` and
  `get`, and the border presets `BORDER`;
- the `VALIDATOR` predicates;
- the justifier table and the text wrapper `_wrap`;
- the four-stage markup pipeline of `banner`: bold, italic, colour, then
  `str.format`;
- the `ansi_length` width compensation;
- the geometry of the header, body and footer rows;
- the prompt equalisation and prompt box shared by `entry`,
  `select_large` and `entry_large`;
- the `_input` retry loop;
- the option labels and answer of `select_large`;
- the glyph cycle of the `awaiter` loader.

It also models the pure helpers of the command-line front end `cli.py`:

- `no_brackets` and `thrust_chars`;
- the truncation of search-result titles;
- the slug taken from an episode URL;
- the episode-range parser `parse_range` and its `validate`.

The terminal is replaced by values:

- The terminal width is a `columns` parameter.
- `MAX_WIDTH`, `FONT_COLOR`, `BORDER_TYPE` and `BORDER_COLOR` form an explicit `Config`.
- The lines a user types are a sequence `inputs`.
- A printed row is a string.
- What the terminal shows of a row is `Visible`: the row with every match of `\x1b\[(.+?)m` removed.
- The awaiter's thread and clock become a count of loop passes.

Python's `str` is `seq<char>`. Raised exceptions become `Option`/`Result` values.

Modules, one per file, in dependency order:

| module | file |
|---|---|
| `Wrappers` | `wrappers.dfy` |
| `PyStr` | `pystr.dfy` |
| `Justifier` | `justify.dfy` |
| `Style` | `style.dfy` |
| `TextWrap` | `wrap.dfy` |
| `Scan` | `scan.dfy` |
| `Markup` | `markup.dfy` |
| `AnsiWidth` | `ansiwidth.dfy` |
| `Box` | `box.dfy` |
| `Widgets` | `widgets.dfy` |
| `Spinner` | `spinner.dfy` |
| `Cli` | `cli.dfy` |

`PyStr` holds the Python string built-ins the code relies on: `split`,
`strip`, `isdecimal`, `int()`, `str(int)`, `upper` and slicing.

## Model

| member | source | states |
|---|---|---|
| PyStr.Words | anchor.py:123 | `text.split()` gives words without whitespace, and gives none exactly when the text is all whitespace |
| PyStr.WordsCons | anchor.py:123 | a word followed by a whitespace character splits off as the first word of the rest |
| PyStr.WordsSkipSpace | anchor.py:123 | leading whitespace adds no words |
| PyStr.WordsOfWord | anchor.py:123 | a single word splits into itself |
| PyStr.WordsOfJoinSpaced | anchor.py:123-132 | splitting words that were joined by single spaces gives back the same words |
| PyStr.SplitOn | anchor.py:172 | `split(c)` gives at least one piece, and no piece contains `c` |
| PyStr.JoinOnSplitOn | anchor.py:172 | joining the pieces of `split(c)` with `c` gives back the original string |
| PyStr.StripBy | anchor.py:141 | `strip()` gives a contiguous piece of the input, starting where the leading whitespace ends, with no whitespace at either end |
| PyStr.Strip | anchor.py:141 | `strip()` is never longer than its input, has no whitespace at either end, and is empty exactly when the input is all whitespace |
| PyStr.StripByMaximal | anchor.py:141 | everything `strip()` removes, before and after the kept piece, is whitespace |
| PyStr.StripUnchanged | anchor.py:141 | stripping a string that has no whitespace at its ends changes nothing |
| PyStr.PyPrefix | anchor.py:126 | `s[:n]` has length `n` clamped to `[0, len(s)]` (negative `n` counts from the end), and is a prefix of `s` |
| PyStr.IntStrRoundTrip | anchor.py:67 | `int(str(i)) == i` for every integer |
| PyStr.PyIntOfDecimal | cli.py:81 | `int()` of a decimal string is the number its digits spell |
| PyStr.PyIntOfPadded | cli.py:81 | `int()` of a decimal string with `int()`'s own whitespace (` \t\n\v\f\r`) on either side is the number its digits spell |
| PyStr.PyIntHasDigit | anchor.py:67 | `int()` reads a number only from a string holding a digit, so an all-whitespace line always raises |
| Justifier.Offset | anchor.py:81-85 | the left margin: 0 for `ljust`; the whole margin for `rjust`; for `center`, the two margins differ by at most one, and the larger one is chosen by CPython's parity rule |
| Justifier.Justify | anchor.py:81-85 | the result is `max(len(s), width)` long, holds `s` unchanged at the offset, and is fill everywhere else |
| Justifier.JustifyKeepsChars | anchor.py:81-85 | justifying adds no character other than the fill |
| Style.Ansi | anchor.py:92-97 | a code whose text already contains ESC is returned as is; any other code becomes `ESC [ code m` |
| Style.AnsiOfNum | anchor.py:97 | an integer code always becomes `ESC [ digits m` |
| Style.AnsiIdempotent | anchor.py:94-95 | encoding an already encoded sequence changes nothing |
| Style.C256 | anchor.py:37-42 | the sequence is `ESC[38;5;<code>m` for mode `fg` and `ESC[48;5;<code>m` for any other mode |
| Style.AnsiOfC256 | anchor.py:37-42 | `_ansi` passes a 256-colour sequence through unchanged |
| Style.GetColor | anchor.py:44-49 | finds an attribute exactly when the upper-cased name is one of the integer colours or `C256`; a colour gives its integer value, and `C256` gives the 256-colour builder |
| Style.GetC256 | anchor.py:37-49 | `get('c256')` returns the `C256` builder, not `None` |
| Style.GetColorIgnoresCase | anchor.py:49 | the lookup gives the same answer for a name and its upper-case form |
| Style.PresetsArePlain | anchor.py:51-59 | no glyph of the eight border presets is an escape character |
| TextWrap.Truncate | anchor.py:125-126 | a word longer than `width - 1` becomes its first `width - 2` characters plus a hyphen, `width - 1` long; shorter words are kept |
| TextWrap.Wrap | anchor.py:113-134 | an empty text gives `['']`; a blank text gives no lines; the concatenated lines are the truncated words joined by single spaces; every line is at most `width` long and ends in exactly one space; a line is closed only when the next word does not fit on it; a word joins a line only while `len(line) + len(word) + 1 < width`, so a line holding two or more words is shorter than `width` |
| TextWrap.WrapKeepsWords | anchor.py:113-134 | splitting the wrapped lines again gives the input's words, truncated, in order |
| TextWrap.WrapKeepsChars | anchor.py:113-134 | a wrapped line holds only characters of the text, spaces, and hyphens |
| Scan.CloseScanFound | anchor.py:87-90 | the lazy scan stops at the first delimiter after the start, with no line feed before it |
| Scan.FindCloseIsLazy | anchor.py:87-90 | the scan finds a group exactly when the lazy pattern `(.+?)CLOSE` matches: the group is non-empty, has no line feed, and ends at the first delimiter |
| Scan.SubSpansPlain | anchor.py:189-190 | `re.sub` leaves text without the opening delimiter unchanged |
| Scan.SubSpansOne | anchor.py:189-190 | one span `OPEN x CLOSE` is replaced by `pre x post`, and the rest of the text is then rewritten the same way |
| Markup.StyleCodes | anchor.py:189-190 | the bold and italic on/off sequences are `_ansi(1)`, `_ansi(22)`, `_ansi(3)` and `_ansi(23)` |
| Markup.ColorOne | anchor.py:191 | one colour span `$NAME(x)` becomes `ESC[{NAME}m x ESC[0m`, and the rest of the text is rewritten the same way |
| Markup.FormatPlainPrefix | anchor.py:191 | `str.format` copies text without braces unchanged |
| Markup.Format | anchor.py:191 | `str.format` raises only on a text holding a brace, and gives back a text without braces unchanged |
| Markup.EscapeBraces | anchor.py:191 | doubling braces never shortens a text and leaves a brace-free text unchanged |
| Markup.FormatEscaped | anchor.py:191 | `str.format` undoes brace doubling: any text survives the format step once its braces are doubled |
| Markup.Transform | anchor.py:187-191 | a row without markup characters comes out as `' ' + line + ' '` |
| Markup.TransformBold | anchor.py:189 | `**x**` becomes bold-on, `x`, bold-off |
| Markup.TransformItalic | anchor.py:190 | `*x*` becomes italic-on, `x`, italic-off |
| Markup.TransformColor | anchor.py:191 | `$NAME(x)` with a known colour becomes `_ansi(code)`, `x`, reset |
| Markup.TransformUnknownColor | anchor.py:191 | `$NAME(x)` with an unknown name raises the format step's key error |
| Markup.FormatUnknownField | anchor.py:191 | a field `{f}` that is not an integer attribute of `COLOR` raises a key error |
| Markup.TransformStrayClose | anchor.py:191 | a lone `}` in an otherwise plain row raises the format step's value error |
| Markup.TransformUnclosedOpen | anchor.py:191 | an unclosed `{` in an otherwise plain row raises the format step's value error |
| Markup.TransformColorUnknownInside | anchor.py:191 | a known colour span whose text holds a field `{f}` that names no integer attribute raises a key error for `f` |
| Markup.EmptySpanIsText | anchor.py:189-191 | `$NAME()` is no colour span, because the lazy group needs a character: the row is shown as typed |
| AnsiWidth.EscLenIsMatch | anchor.py:87 | the escape found at the head of a string is exactly the leftmost match of `\x1b\[(.+?)m`, and its length is the group length plus 3 |
| AnsiWidth.AnsiLength | anchor.py:193 | the compensation is never more than the row's length, and is zero or at least 4, since every escape match is at least `ESC [ x m` |
| AnsiWidth.AnsiLengthPlainPrefix | anchor.py:193 | a prefix without escape characters adds nothing to `ansi_length` and is shown as typed; so a row without escapes needs no compensation |
| AnsiWidth.AnsiLengthExact | anchor.py:193 | `ansi_length` plus the visible length is the length of the row, so the `+ 3` compensation is exact |
| AnsiWidth.JustifyKeepsAnsiLength | anchor.py:195 | justifying with spaces does not change `ansi_length` |
| AnsiWidth.JustifyVisible | anchor.py:195 | justifying shows the margins as spaces around the visible text |
| AnsiWidth.BodyVisibleWidth | anchor.py:193-195 | a body justified to `w - 2 + ansi_length` shows `max(visible width, w - 2)` columns |
| AnsiWidth.RowsAlign | anchor.py:193-195 | any two bodies that fit show the same width, whatever their escape sequences and justification |
| AnsiWidth.C256Invisible | anchor.py:37-42 | a 256-colour sequence shows nothing on screen |
| Box.Width | anchor.py:99-104 | `width()` is the smaller of the configured maximum and the terminal's columns |
| Box.HeaderTitle | anchor.py:141 | a missing or empty title gives `''`; otherwise the result is the stripped title with one space on each side |
| Box.Header | anchor.py:136-148 | with colours that show nothing, the header shows its left corner, the title justified in `w - 2` columns over border glyphs, and its right corner |
| Box.HeaderWidth | anchor.py:136-148 | the header shows `max(len(title), w - 2) + 2` columns |
| Box.Footer | anchor.py:150-159 | with colours that show nothing, the footer shows a corner, `w - 2` border glyphs, and a corner |
| Box.BodyWidth | anchor.py:193-203 | a body row shows `max(visible width of the text, w - 2) + 2` columns |
| Box.Globs | anchor.py:170-172 | a string is split at line feeds, and joining the pieces gives the text back; a list is taken as is |
| Box.FormatAll | anchor.py:187-191 | every row is formatted, or the first row that raises gives its error |
| Box.Banner | anchor.py:161-205 | the banner renders exactly when every wrapped row formats; otherwise it gives the error of the first row that raises; on success it is the header, one body row per wrapped row with that row's formatted text, and the footer |
| Box.BannerAligned | anchor.py:161-205 | when the title and every formatted row fit, the banner has one row per line plus two, each showing `w` columns |
| Box.StyledRowVisible | anchor.py:189-191 | a row framed by two integer style codes shows only its text between the two spaces |
| Box.ColorSpanVisible | anchor.py:191-193 | a known colour span renders, and shows its text plus the two framing spaces |
| Box.BoldSpanVisible | anchor.py:189-193 | a bold span renders and shows its text plus the two framing spaces |
| Box.ItalicSpanVisible | anchor.py:190-193 | an italic span renders and shows its text plus the two framing spaces |
| Box.PlainBannerAligned | anchor.py:161-205 | a text of plain characters always renders, wrapped, as a box whose every row shows `w` columns |
| Widgets.IsIntAcceptsIntegers | anchor.py:66-67 | every integer's decimal form passes the corrected `is_int`; the validator as written refuses exactly zero |
| Widgets.IsIntRejectsZero | anchor.py:66-67 | the line `0` is an integer, but the validator as written refuses it |
| Widgets.IsIntAsWritten | anchor.py:66-67 | the validator as written accepts only lines holding a digit, and accepts the decimal form of an integer exactly when it is not zero |
| Widgets.IsBoolAsWritten | anchor.py:69-70 | the substring test `s in '01'` accepts exactly the empty line, `0`, `1` and `01` |
| Widgets.IsBoolAsWrittenTooWide | anchor.py:69-70 | the validator as written accepts every binary digit, but also the empty line and `01` |
| Widgets.IsBoolIsBinaryDigit | anchor.py:69-70 | the corrected `is_bool` accepts exactly the one-character lines that `int()` reads as 0 or 1 |
| Widgets.Equalise | anchor.py:236-243 | the error prompt defaults to `!`; both prompts end up as long as the longer one; the longer one is kept; the shorter one is centred, contents unchanged, with spaces on both sides |
| Widgets.EqualiseIdempotent | anchor.py:236-243 | equalising prompts that are already equalised changes nothing |
| Widgets.PromptTop | anchor.py:245-248 | with colours that show nothing, the box top shows a corner, `len(prompt) + 2` border glyphs, and a corner |
| Widgets.PromptLine | anchor.py:250-255 | with colours that show nothing, the prompt line shows a border glyph, ` prompt `, and a border glyph |
| Widgets.PromptBottom | anchor.py:257-261 | with colours that show nothing, the box bottom shows a corner, `len(prompt) + 2` border glyphs, and a corner |
| Widgets.ErrorLine | anchor.py:264-270 | with colours that show nothing, the error line shows a border glyph, ` error_prompt `, and a border glyph |
| Widgets.PromptBoxAligned | anchor.py:245-271 | the prompt box's top, prompt line and bottom, and the error line drawn over the prompt line, all show `len(prompt) + 4` columns |
| Widgets.PromptLineVisible | anchor.py:250-255 | the prompt line shows a border glyph, ` prompt `, and a border glyph; the cursor column `len(prompt) + 5` is just after it |
| Widgets.JoinRowAligned | anchor.py:314-320 | the joining row spans the banner width, and its corner sits right above the prompt line's right border |
| Widgets.JoinRow | anchor.py:314-320 | with colours that show nothing, the joining row shows a border glyph, `len(prompt) + 2` spaces, a corner, `w - len(prompt) - 5` border glyphs, and the closing corner |
| Widgets.FirstAccepted | anchor.py:214-227 | finds the first accepted line; every line before it is rejected; `None` only when every line is rejected |
| Widgets.Input | anchor.py:207-227 | answers exactly when some line is accepted; the answer is the first accepted line, after one error redraw per rejected line before it |
| Widgets.InputSkipsRejected | anchor.py:214-227 | rejected lines typed first only add error redraws |
| Widgets.OptionLabel | anchor.py:303-306 | the 1-based number is right-aligned in the width of the largest number, followed by `. ` and the option |
| Widgets.Labels | anchor.py:305-306 | there is one label per option, numbered in order |
| Widgets.SelectIndex | anchor.py:335-345 | an accepted answer gives a 0-based index below the number of options |
| Widgets.SelectAcceptsLabelNumbers | anchor.py:335 | the validator accepts exactly the lines worth one of the numbers shown on the labels |
| Widgets.SelectByLabel | anchor.py:303-345 | typing the number on option `i`'s label selects option `i` |
| Widgets.SelectAnswer | anchor.py:335-345 | the answer is the index of the first valid number typed, after only invalid lines; `None` when no line is valid |
| Widgets.EntryDefault | anchor.py:229-231 | with the default validator the answer is the first non-empty line, and there is none only when every line is empty |
| Widgets.EntryAnswer | anchor.py:263-271 | the answer is the first line the validator accepts, after only rejected lines |
| Widgets.SelectLarge | anchor.py:283-345 | the screen's answer is the first valid selection, and the cursor column comes from the equalised prompt |
| Widgets.Entry | anchor.py:229-271 | the box has three rows, and the answer is the first accepted line |
| Widgets.EntryLarge | anchor.py:347-406 | the answer is the first accepted line whenever the banner renders |
| Widgets.Joined | anchor.py:313-333 | every banner row but the last is kept; the last is replaced by the joining row, then come the prompt line and the box bottom |
| Spinner.Init | anchor.py:414-427 | a new loader is stopped, at glyph 0 |
| Spinner.Enter | anchor.py:429-438 | entering rewinds to glyph 0 and starts the loop |
| Spinner.Exit | anchor.py:440-446 | leaving stops the loop and keeps the index |
| Spinner.Glyph | anchor.py:455 | there is a glyph exactly when `chars` is non-empty, and it is one of `chars` |
| Spinner.Frame | anchor.py:457-459 | a frame starts with a carriage return, and with colours that show nothing it shows the description, a space and the glyph, so successive frames overwrite each other |
| Spinner.Tick | anchor.py:453-461 | a pass while running shows the current glyph and advances the index by one; otherwise nothing changes |
| Spinner.RunShows | anchor.py:453-461 | while running, pass `k` shows glyph `index + k` of the cycle |
| Spinner.EnterRun | anchor.py:429-461 | after entering, pass `k` shows `chars[k % len(chars)]`, whatever the earlier index |
| Spinner.EveryGlyphShown | anchor.py:429-461 | the first `len(chars)` passes after entering show every glyph once, in order |
| Spinner.DefaultSpin | anchor.py:414-461 | with the default glyphs, the first four passes after entering show the four glyphs in order |
| Spinner.GlyphPeriodic | anchor.py:455 | the glyphs repeat with period `len(chars)` |
| Spinner.ExitRun | anchor.py:440-453 | after leaving, no pass prints anything |
| Spinner.EmptyRun | anchor.py:455 | with no glyphs no frame is ever printed |
| Cli.Replace | cli.py:28 | `replace` of one character swaps every occurrence and keeps everything else in place |
| Cli.NoBrackets | cli.py:28 | the result has no parentheses; each `(` becomes `[` and each `)` becomes `]`; other characters are unchanged |
| Cli.NoBracketsIdempotent | cli.py:28 | a second pass changes nothing |
| Cli.Thrust | cli.py:29-30 | the result is no longer than the input and holds only allowed characters |
| Cli.ThrustAppend | cli.py:30 | filtering distributes over concatenation |
| Cli.ThrustOne | cli.py:30 | one character is kept exactly when it is allowed |
| Cli.ThrustIdempotent | cli.py:30 | filtering twice is filtering once |
| Cli.ThrustKeepsChars | cli.py:30 | every kept character comes from the input |
| Cli.Clean | cli.py:49 | a cleaned title holds only allowed characters and no parentheses |
| Cli.TitleLineWhite | cli.py:49-54 | a cleaned title without markup characters renders as the whole title in white |
| Cli.TitleLineUnknownField | cli.py:49-54 | a cleaned title holding a brace pair around a name that is not a colour makes the option line raise |
| Cli.BraceTitleFails | cli.py:49-54 | the title `Re{Zero}` survives cleaning unchanged and makes the option line raise a key error |
| Cli.TitleLine | cli.py:54 | a non-empty title of allowed characters without markup or `)` renders whole in white; an empty title gives `$WHITE()`, shown as typed |
| Cli.Unmark | cli.py:49 | the corrected cleaning is never longer than the title, holds no `*`, `$`, `{` or `}`, and keeps only characters of the title |
| Cli.UnmarkAppend | cli.py:49 | dropping markup distributes over concatenation |
| Cli.UnmarkOne | cli.py:49 | one character is dropped exactly when it is `*`, `$`, `{` or `}`; with `Cli.UnmarkAppend`, every other character is kept, in order |
| Cli.UnmarkOfPlain | cli.py:49 | a title without markup characters is kept whole |
| Cli.SafeClean | cli.py:49 | the corrected cleaning gives allowed characters only, no parentheses, no markup, and agrees with `thrust_chars(no_brackets(title))` whenever that has no markup |
| Cli.SafeTitleLine | cli.py:49-54 | with the corrected cleaning every title renders: in white when something is left, as typed when nothing is |
| Cli.TruncateAsWrittenGrows | cli.py:51-52 | a title `width - 13` long keeps every character and still gains `...` |
| Cli.TruncateAsWritten | cli.py:51-52 | titles up to `width - 14` long are kept; titles between `width - 13` and `width - 11` long are kept whole and gain `...`; titles at least `width - 11` long become their first `width - 11` characters plus `...`; no title up to `width - 8` long gets shorter |
| Cli.Truncate | cli.py:51-52 | titles up to `width - 8` long are kept; longer ones become their first `width - 11` characters plus `...`, exactly `width - 8` long; so the result is never longer than the title nor than `width - 8` |
| Cli.TruncateIdempotent | cli.py:51-52 | truncating again changes nothing, and the corrected truncation agrees with the one as written except on titles between `width - 13` and `width - 8` long |
| Cli.Range | cli.py:87 | `range(a, b + 1)` lists `a..b` in order, and is empty when `a > b` |
| Cli.RangeMembers | cli.py:87 | the range holds exactly the numbers from `a` to `b` |
| Cli.Bounds | cli.py:84-85 | a pair parses exactly when the `-` split gives two pieces that `int()` accepts |
| Cli.ParseRange | cli.py:79-87 | a decimal line is that one number; the empty line is every episode; any other line parses as a `start-stop` pair or raises |
| Cli.ParseRangeSingle | cli.py:81 | `str(n)` parses as `[n]` and validates exactly when `n` is in bounds |
| Cli.ParseRangeAll | cli.py:83 | the empty line selects every episode and always validates |
| Cli.ParseRangePair | cli.py:84-87 | `a-b` parses as `a..b` |
| Cli.ValidatePair | cli.py:89-94 | a well-ordered `a-b` validates exactly when `lo <= a` and `b <= hi` |
| Cli.Validate | cli.py:89-94 | the empty line always validates; a decimal line validates exactly when its number is in bounds; any other line validates exactly when it parses as a pair that is reversed or has both ends in bounds |
| Cli.ValidateReversed | cli.py:87-94 | a reversed pair selects nothing and always validates |
| Cli.ValidateRejectsNegative | cli.py:84-85 | `-n` splits into an empty piece, so it raises and is refused |
| Cli.ValidateRejectsTriple | cli.py:85 | three pieces do not unpack into two, so the line is refused |
| Cli.Slug | cli.py:37 | there is a slug exactly when the query contains `episode/`; it is the prefix of the text after the first `episode/` that has no `/`, has no `episode/` starting inside it, and ends at the end of that text, at a `/`, or where an `episode/` starts |
| Cli.SlugAfterUnique | cli.py:37 | those properties fix the slug: any string that has them is the slug |
| Cli.SlugOfUrlEnd | cli.py:37 | an episode URL that ends with its slug, as `.../episode/1234-name` does, reads back that slug |
| Cli.SlugOfUrl | cli.py:37 | an episode URL's slug is the path segment after `episode/` |
| Cli.SlugStopsAtSecondEpisode | cli.py:37 | the slug is cut at a second `episode/` |
| Cli.Url | cli.py:32-41 | there is no URL exactly when the query lacks `https://`; an episode URL leads to the info page of its slug; any other URL is kept |
| Cli.UrlOfEpisode | cli.py:34-38 | an `https://` episode URL leads to `root/anime/info/<slug>` |

## Left out

- Terminal output is not modelled: `print`, the cursor-movement escapes of `_input`, `clear` and the show/hide-cursor escapes of `awaiter`. Rows are returned as strings.
- `_input` on `KeyboardInterrupt`: printing and `exit()` are not modelled.
- A run of `_input` in which every line is rejected loops forever; the model returns `None` for it.
- `awaiter`'s thread, `time.sleep` and `speed` are not modelled. Time is a count of loop passes, and the interleaving of `__exit__` with a running pass is not modelled.
- `os.get_terminal_size()` is not called; the terminal's columns are a parameter.
- `separator` (anchor.py:273-281) is not modelled. No other member uses it.
- The rest of `cli.py` is not part of this model: the `nekosama` client, the search, the anime tree, the download loop, `ffmpeg` and the file system.
- `str.split()`, `strip()`, `isdecimal()` and `int()` are modelled for ASCII whitespace and digits only. `int()` strips only ` \t\n\v\f\r`, while `split()` and `strip()` also strip `\x1c`-`\x1f`; both are modelled. Non-ASCII spaces and digits are not.
- `Style.GetColor`: `str.upper()` is modelled for ASCII letters only. Python also upper-cases other letters, some onto ASCII names (`ı` becomes `I`), so a name such as `whıte` is not found by the model.
- The colour pattern's `\d` also matches non-ASCII digits; colour names are modelled as ASCII letters and digits only.
- The validators are applied through `assert` (anchor.py:218), and `validate` checks its bounds with one (cli.py:92). Under `python -O` the asserts are removed, so every line is accepted and every range validates; the model follows the normal run.
- `Cli.TitleLineWhite`: holds only for titles without markup characters. Titles that keep a brace pair or a lone brace make the option line raise instead (see Findings).
- `COLOR.__dict__` also holds `C256`, `get` and the dunder attributes. `str.format` of such a field inserts that attribute's text (a function's or a dictionary's representation, which depends on the running process); the model raises `UnknownField` for every name that is not an integer attribute. The four lemmas below therefore do not hold for those names.
- Markup.FormatUnknownField: for a field named `C256`, `get` or a dunder attribute, Python inserts the attribute's text instead of raising.
- Markup.TransformUnknownColor: for the colour name `C256`, `get` or a dunder attribute, Python inserts the attribute's text inside `\x1b[...m` instead of raising.
- Markup.TransformColorUnknownInside: for a field named `C256`, `get` or a dunder attribute, Python inserts the attribute's text instead of raising.
- Cli.TitleLineUnknownField: for a title whose braces hold `C256`, `get` or a dunder name, Python shows the attribute's text instead of raising.
- Markup.Format: a field name holding `{` (as in `{a{b}`) makes Python raise `ValueError`; the model reports it as `UnknownField`. Both are errors, but of different kinds.
- `str.format`'s conversions, format specs, attribute and index fields are not modelled. A field is a plain name.
- `Box.BannerAligned`: alignment is proved only for rows whose visible width is at most `w - 2`. Longer rows overflow the box in Python too.
- `Box.PlainBannerAligned`: stated for plain text with wrapping on. Markup and unwrapped rows are covered by `Box.BannerAligned` under its hypotheses.
- Spinner.EmptyRun: with an empty glyph string, the first pass raises `ZeroDivisionError` at anchor.py:455. The thread dies and Python's default thread exception hook prints a traceback to standard error; the model prints no frame and does not model the traceback.
- `Spinner.Frame`: what the frame shows is stated for colours that show nothing and a description and glyph without escape characters.
- Widgets.Joined: the joining row's leading `\x1b[1A\x1b[2K` (anchor.py:314, 377) moves the cursor up and erases the banner's footer. The model has no cursor, so it removes the footer from the returned rows and returns the joining row without the erase sequence.
- Box.Banner: Python prints the header and every row before the one whose format step raises; the model returns only the error.
- AnsiWidth.AnsiLength: its own contract gives only bounds; that a row without escape characters has compensation zero and the exact relation to the visible width are the separate lemmas `AnsiWidth.AnsiLengthExact` and `AnsiWidth.AnsiLengthPlainPrefix`.
- The slug is the text between the first and second `episode/`, cut at the first `/`. This follows `split('episode/')[1]`, not the plain "segment after `episode/`" reading (`Cli.SlugStopsAtSecondEpisode`).

## Findings

| source | as written | input that shows it | evidently intended | confidence | as-written member | corrected member |
|---|---|---|---|---|---|---|
| anchor.py:66-67 | `is_int` returns `int(s)`, which `assert` treats as false for zero | the line `0` | accept every line `int()` accepts | not executed | Widgets.IsIntRejectsZero | Widgets.IsIntAcceptsIntegers |
| anchor.py:69-70 | `is_bool` tests `s in '01'`, a substring test | the empty line, and the line `01` | accept exactly `0` and `1` | not executed | Widgets.IsBoolAsWrittenTooWide | Widgets.IsBoolIsBinaryDigit |
| cli.py:49-54 | `thrust_chars` keeps `{`, `}`, `*` and `$`, so the title's text goes through the markup and `str.format` | the title `Re{Zero}` raises a key error | drop the markup characters from titles, so every title renders | not executed | Cli.BraceTitleFails | Cli.SafeTitleLine |
| cli.py:51-52 | titles longer than `width - 14` are cut to `width - 11` characters plus `...` | a title `width - 13` long gains `...` with nothing removed | truncate only titles that the cut actually shortens, so the line never grows | not executed | Cli.TruncateAsWrittenGrows | Cli.Truncate |

=== FILE: ansiwidth.dfy ===
/** The width compensation of `banner`: `ansi_length` sums `len(inner) + 3`
    over every match of `\x1b\[(.+?)m`, which is exactly the number of
    characters those escape sequences occupy. The row is then justified to
    `w - 2 + ansi_length`, so its visible part is `w - 2` wide. */
module AnsiWidth {
  import opened Wrappers
  import opened PyStr
  import opened Style
  import opened Scan
  import opened Justifier

  // ---------------------------------------------------------------------
  // The matches of `\x1b\[(.+?)m`
  // ---------------------------------------------------------------------

  /** The lazy `(.+?)m` scan from group length `k`: the first `m` at index
      `k` or later, unless a line feed comes first. */
  function ScanM(r: string, k: nat): (res: Option<nat>)
    requires k >= 1
    ensures res.Some? ==> k <= res.value < |r|
    decreases |r| - k
  {
    if k + 1 > |r| then None
    else if r[k - 1] == '\n' then None
    else if r[k] == 'm' then Some(k)
    else ScanM(r, k + 1)
  }

  /** `ScanM` is the general delimiter scan specialised to `m`. */
  lemma {:induction false} ScanMIsCloseScan(r: string, k: nat)
    requires k >= 1
    ensures ScanM(r, k) == CloseScan(r, "m", k)
    decreases |r| - k
  {
    if k + 1 <= |r| && r[k - 1] != '\n' {
      assert r[k..k + 1] == "m" <==> r[k] == 'm' by {
        assert r[k..k + 1][0] == r[k];
      }
      if r[k] != 'm' {
        ScanMIsCloseScan(r, k + 1);
      }
    }
  }

  /** Length of the escape sequence `ESC [ inner m` at the head of `s`,
      which is `len(inner) + 3`, or 0 when none starts there. */
  function EscLen(s: string): (n: nat)
    ensures n <= |s|
    ensures n > 0 ==> n >= 4 && s[0] == ESC
  {
    if |s| >= 2 && s[0] == ESC && s[1] == '[' then
      match ScanM(s[2..], 1)
      case Some(k) => k + 3
      case None => 0
    else 0
  }

  /** `EscLen` finds exactly the leftmost match of the regular expression:
      the group is a `LazyClose` group of `s[2..]` and the length counts
      it plus the three delimiter characters. */
  lemma EscLenIsMatch(s: string)
    ensures EscLen(s) > 0 ==>
      |s| >= 2 && s[0] == ESC && s[1] == '[' && LazyClose(s[2..], "m", EscLen(s) - 3)
    ensures EscLen(s) == 0 && |s| >= 2 && s[0] == ESC && s[1] == '[' ==>
      forall k :: !LazyClose(s[2..], "m", k)
  {
    if |s| >= 2 {
      ScanMIsCloseScan(s[2..], 1);
      FindCloseIsLazy(s[2..], "m");
    }
  }

  /** What is left of `s` after its first match or its first character. */
  function Rest(s: string): (r: string)
    requires s != []
    ensures |r| < |s|
  {
    if EscLen(s) > 0 then s[EscLen(s)..] else s[1..]
  }

  /** `sum(len(m) + 3 for m in _re_ansi.findall(s))`. */
  function AnsiLength(s: string): (r: nat)
    ensures r <= |s|
    ensures r == 0 || r >= 4
    decreases |s|
  {
    if s == [] then 0 else EscLen(s) + AnsiLength(Rest(s))
  }

  /** `s` with every matched escape sequence removed: what the terminal
      shows. */
  function Visible(s: string): string
    decreases |s|
  {
    if s == [] then []
    else if EscLen(s) > 0 then Visible(Rest(s))
    else [s[0]] + Visible(Rest(s))
  }

  /** The `+ 3` of the compensation is exact: the matched sequences and the
      visible text together make up the whole string. */
  lemma {:induction false} AnsiLengthExact(s: string)
    ensures |Visible(s)| + AnsiLength(s) == |s|
    decreases |s|
  {
    if s != [] {
      AnsiLengthExact(Rest(s));
    }
  }

  /** The visible width of a string: its length minus its escape bytes. */
  function VisibleWidth(s: string): int {
    |s| - AnsiLength(s)
  }

  // ---------------------------------------------------------------------
  // Plain text around a string does not disturb the count
  // ---------------------------------------------------------------------

  lemma {:induction false} AnsiLengthPlainPrefix(x: string, y: string)
    requires ESC !in x
    ensures AnsiLength(x + y) == AnsiLength(y)
    ensures Visible(x + y) == x + Visible(y)
  {
    if x == [] {
      assert x + y == y;
    } else {
      var s := x + y;
      assert s[0] == x[0] && s[1..] == x[1..] + y;
      assert EscLen(s) == 0 && Rest(s) == s[1..];
      AnsiLengthPlainPrefix(x[1..], y);
      assert x == [x[0]] + x[1..];
    }
  }

  /** Appending text free of `m` and line feeds cannot complete a match. */
  lemma {:induction false} ScanMAppend(r: string, t: string, k: nat)
    requires k >= 1
    requires 'm' !in t && '\n' !in t
    ensures ScanM(r + t, k) == ScanM(r, k)
    decreases |r + t| - k
  {
    var rt := r + t;
    if k + 1 <= |rt| && rt[k - 1] != '\n' {
      if k + 1 > |r| {
        assert rt[k] == t[k - |r|];
        ScanMAppend(r, t, k + 1);
      } else {
        assert rt[k - 1] == r[k - 1] && rt[k] == r[k];
        if r[k] != 'm' {
          ScanMAppend(r, t, k + 1);
        }
      }
    }
  }

  /** A match found inside `r` is found again once text is appended. */
  lemma {:induction false} ScanMPrefix(r: string, t: string, k: nat)
    requires k >= 1 && ScanM(r, k).Some?
    ensures ScanM(r + t, k) == ScanM(r, k)
    decreases |r| - k
  {
    var rt := r + t;
    assert rt[k - 1] == r[k - 1] && rt[k] == r[k];
    if r[k] != 'm' {
      ScanMPrefix(r, t, k + 1);
    }
  }

  /** Plain text after `x` neither creates nor extends a match at its head. */
  lemma EscLenPlainSuffix(x: string, t: string)
    requires x != [] && 'm' !in t && '\n' !in t && ESC !in t
    ensures EscLen(x + t) == EscLen(x)
    ensures Rest(x + t) == Rest(x) + t
  {
    var s := x + t;
    if |x| == 1 {
      if |s| >= 2 && s[0] == ESC && s[1] == '[' {
        assert s[2..] == [] + t[1..];
        ScanMAppend([], t[1..], 1);
      }
    } else {
      assert s[2..] == x[2..] + t;
      ScanMAppend(x[2..], t, 1);
    }
    assert s[EscLen(x)..] == x[EscLen(x)..] + t;
    assert s[1..] == x[1..] + t;
  }

  lemma {:induction false} AnsiLengthPlainSuffix(x: string, t: string)
    requires 'm' !in t && '\n' !in t && ESC !in t
    ensures AnsiLength(x + t) == AnsiLength(x)
    decreases |x|
  {
    if x == [] {
      assert x + t == t;
      AnsiLengthPlainPrefix(t, []);
      assert t + [] == t;
    } else {
      EscLenPlainSuffix(x, t);
      AnsiLengthPlainSuffix(Rest(x), t);
    }
  }

  lemma SpacesArePlain(n: int)
    ensures ESC !in Repeat(' ', n) && 'm' !in Repeat(' ', n) && '\n' !in Repeat(' ', n)
  {
  }

  /** A string without escape characters has nothing to compensate. */
  lemma AnsiLengthOfPlain(x: string)
    requires ESC !in x
    ensures AnsiLength(x) == 0 && Visible(x) == x
  {
    AnsiLengthPlainPrefix(x, []);
    assert x + [] == x;
  }

  /** Plain padding around `f` adds no escape sequence. */
  lemma PaddedAnsiLength(left: string, f: string, right: string)
    requires ESC !in left && ESC !in right && 'm' !in right && '\n' !in right
    ensures AnsiLength(left + f + right) == AnsiLength(f)
  {
    assert left + f + right == left + (f + right);
    AnsiLengthPlainPrefix(left, f + right);
    AnsiLengthPlainSuffix(f, right);
  }

  /** Justifying with spaces adds no escape sequence. */
  lemma JustifyKeepsAnsiLength(mode: Mode, f: string, width: int)
    ensures AnsiLength(Justify(mode, f, width, ' ')) == AnsiLength(f)
  {
    var k := Offset(mode, |f|, width);
    var m := Trailing(mode, |f|, width);
    var r := Justify(mode, f, width, ' ');
    assert r == Repeat(' ', k) + f + Repeat(' ', m);
    SpacesArePlain(k);
    SpacesArePlain(m);
    PaddedAnsiLength(Repeat(' ', k), f, Repeat(' ', m));
    assert AnsiLength(r) == AnsiLength(f);
  }

  /** The text of one body row: the formatted row justified to
      `w - 2 + ansi_length(row)`, so that its escape sequences do not eat
      into the padding. */
  function Pad(mode: Mode, f: string, w: int): string {
    Justify(mode, f, PadWidth(f, w), ' ')
  }

  /** `w - 2 + ansi_length(f)`: the width a body row is justified to. */
  function PadWidth(f: string, w: int): int {
    w - 2 + AnsiLength(f)
  }

  /** A padded row shows exactly `w - 2` columns when its visible text
      fits, and its own text when not. */
  lemma BodyVisibleWidth(mode: Mode, f: string, w: int)
    ensures VisibleWidth(Pad(mode, f, w)) == Max(VisibleWidth(f), w - 2)
  {
    PadShape(mode, f, w);
    MaxShift(|f|, w - 2, AnsiLength(f), PadWidth(f, w));
  }

  /** A padded row is `max(len(f), w - 2 + ansi_length(f))` long and holds
      the escape bytes of `f`. */
  lemma PadShape(mode: Mode, f: string, w: int)
    ensures |Pad(mode, f, w)| == Max(|f|, PadWidth(f, w))
    ensures AnsiLength(Pad(mode, f, w)) == AnsiLength(f)
  {
    JustifyKeepsAnsiLength(mode, f, PadWidth(f, w));
  }

  lemma MaxShift(x: int, y: int, a: int, s: int)
    requires s == y + a
    ensures Max(x, s) - a == Max(x - a, y)
  {
  }

  /** Two rows whose visible text fits render equally wide, whatever
      markup they carry. */
  lemma RowsAlign(m1: Mode, f1: string, m2: Mode, f2: string, w: int)
    requires VisibleWidth(f1) <= w - 2 && VisibleWidth(f2) <= w - 2
    ensures VisibleWidth(Pad(m1, f1, w)) == VisibleWidth(Pad(m2, f2, w))
  {
    BodyVisibleWidth(m1, f1, w);
    BodyVisibleWidth(m2, f2, w);
  }

  // ---------------------------------------------------------------------
  // Composition: strings whose escapes are all complete
  // ---------------------------------------------------------------------

  /** Every escape character of `s` starts a complete `ESC [ inner m`
      sequence, so text appended to `s` cannot join one of its matches. */
  predicate WellEscaped(s: string)
    decreases |s|
  {
    s == [] || ((EscLen(s) > 0 || s[0] != ESC) && WellEscaped(Rest(s)))
  }

  /** An escape sequence at the head of `a` is still the head of `a + b`. */
  lemma EscapeHeadOfAppend(a: string, b: string)
    requires EscLen(a) > 0
    ensures EscLen(a + b) == EscLen(a)
    ensures Rest(a + b) == Rest(a) + b
  {
    var s := a + b;
    var n := EscLen(a);
    assert s[2..] == a[2..] + b;
    ScanMPrefix(a[2..], b, 1);
    assert EscLen(s) == n;
    assert s[n..] == a[n..] + b;
  }

  /** A character that starts no escape stays a single visible character
      in front of `b`. */
  lemma PlainHeadOfAppend(a: string, b: string)
    requires a != [] && a[0] != ESC
    ensures EscLen(a + b) == EscLen(a) == 0
    ensures Rest(a + b) == Rest(a) + b
  {
    assert (a + b)[0] == a[0];
    assert (a + b)[1..] == a[1..] + b;
  }

  /** After a well-escaped prefix, the head of `a + b` is the head of `a`. */
  lemma HeadOfAppend(a: string, b: string)
    requires a != [] && WellEscaped(a)
    ensures EscLen(a + b) == EscLen(a)
    ensures Rest(a + b) == Rest(a) + b
    ensures (a + b)[0] == a[0]
  {
    if EscLen(a) > 0 {
      EscapeHeadOfAppend(a, b);
    } else {
      PlainHeadOfAppend(a, b);
    }
  }

  /** Matching distributes over concatenation after a well-escaped prefix. */
  lemma VisibleAppend(a: string, b: string)
    requires WellEscaped(a)
    ensures Visible(a + b) == Visible(a) + Visible(b)
    ensures AnsiLength(a + b) == AnsiLength(a) + AnsiLength(b)
  {
    VisibleOfAppend(a, b);
    AnsiLengthOfAppend(a, b);
  }

  lemma {:induction false} VisibleOfAppend(a: string, b: string)
    requires WellEscaped(a)
    ensures Visible(a + b) == Visible(a) + Visible(b)
    decreases |a|
  {
    if a == [] {
      assert a + b == b;
    } else {
      HeadOfAppend(a, b);
      VisibleOfAppend(Rest(a), b);
    }
  }

  lemma {:induction false} AnsiLengthOfAppend(a: string, b: string)
    requires WellEscaped(a)
    ensures AnsiLength(a + b) == AnsiLength(a) + AnsiLength(b)
    decreases |a|
  {
    if a == [] {
      assert a + b == b;
    } else {
      HeadOfAppend(a, b);
      AnsiLengthOfAppend(Rest(a), b);
    }
  }

  /** Well-escaped strings concatenate to a well-escaped string. */
  lemma {:induction false} WellEscapedAppend(a: string, b: string)
    requires WellEscaped(a) && WellEscaped(b)
    ensures WellEscaped(a + b)
    decreases |a|
  {
    if a == [] {
      assert a + b == b;
    } else {
      HeadOfAppend(a, b);
      WellEscapedAppend(Rest(a), b);
    }
  }

  /** Text without escape characters is well escaped. */
  lemma {:induction false} WellEscapedPlain(x: string)
    requires ESC !in x
    ensures WellEscaped(x)
    decreases |x|
  {
    if x != [] {
      WellEscapedPlain(x[1..]);
    }
  }

  /** Plain padding around a well-escaped `f` keeps it well escaped and
      shows around its visible part. */
  lemma PaddedVisible(left: string, f: string, right: string)
    requires ESC !in left && ESC !in right && WellEscaped(f)
    ensures WellEscaped(left + f + right)
    ensures Visible(left + f + right) == left + Visible(f) + right
  {
    WellEscapedPlain(left);
    WellEscapedPlain(right);
    AnsiLengthOfPlain(left);
    AnsiLengthOfPlain(right);
    VisibleAppend(left, f);
    WellEscapedAppend(left, f);
    VisibleAppend(left + f, right);
    WellEscapedAppend(left + f, right);
  }

  /** Padding a well-escaped text with spaces keeps it well escaped. */
  lemma JustifyWellEscaped(mode: Mode, f: string, width: int)
    requires WellEscaped(f)
    ensures WellEscaped(Justify(mode, f, width, ' '))
  {
    var k := Offset(mode, |f|, width);
    assert Justify(mode, f, width, ' ') == Repeat(' ', k) + f + Repeat(' ', Trailing(mode, |f|, width));
    SpacedAs(Justify(mode, f, width, ' '), f, k, Trailing(mode, |f|, width));
  }

  /** What a justified text shows: its visible part padded with the same
      spaces on the same sides. */
  lemma JustifyVisible(mode: Mode, f: string, width: int)
    requires WellEscaped(f)
    ensures var k := Offset(mode, |f|, width);
      Visible(Justify(mode, f, width, ' '))
        == Repeat(' ', k) + Visible(f) + Repeat(' ', Trailing(mode, |f|, width))
  {
    var k := Offset(mode, |f|, width);
    var m := Trailing(mode, |f|, width);
    var spaced := Repeat(' ', k) + f + Repeat(' ', m);
    assert Justify(mode, f, width, ' ') == spaced;
    SpacedVisible(f, k, m);
    VisibleOfEqual(Justify(mode, f, width, ' '), spaced, Repeat(' ', k) + Visible(f) + Repeat(' ', m));
  }

  /** Equal strings show the same. */
  lemma VisibleOfEqual(x: string, y: string, v: string)
    requires x == y && Visible(y) == v
    ensures Visible(x) == v
  {
  }

  /** A string spelled as `f` between runs of spaces shows `f`'s visible
      part between the same runs. */
  lemma SpacedAs(r: string, f: string, k: int, m: int)
    requires WellEscaped(f) && r == Repeat(' ', k) + f + Repeat(' ', m)
    ensures WellEscaped(r) && Visible(r) == Repeat(' ', k) + Visible(f) + Repeat(' ', m)
  {
    SpacedVisible(f, k, m);
  }

  lemma SpacedVisible(f: string, k: int, m: int)
    requires WellEscaped(f)
    ensures var r := Repeat(' ', k) + f + Repeat(' ', m);
      WellEscaped(r) && Visible(r) == Repeat(' ', k) + Visible(f) + Repeat(' ', m)
  {
    SpacesArePlain(k);
    SpacesArePlain(m);
    PaddedVisible(Repeat(' ', k), f, Repeat(' ', m));
  }

  // ---------------------------------------------------------------------
  // Colour codes
  // ---------------------------------------------------------------------

  /** A padded body row of a well-escaped text is well escaped. */
  lemma PadWellEscaped(mode: Mode, f: string, w: int)
    requires WellEscaped(f)
    ensures WellEscaped(Pad(mode, f, w))
  {
    JustifyWellEscaped(mode, f, PadWidth(f, w));
  }

  /** The scan stops at the first `m` after a group free of `m` and line
      feeds. */
  lemma {:induction false} ScanMAt(d: string, y: string, k: nat)
    requires 1 <= k <= |d|
    requires 'm' !in d && '\n' !in d
    ensures ScanM(d + "m" + y, k) == Some(|d|)
    decreases |d| - k
  {
    var r := d + "m" + y;
    assert r[k - 1] == d[k - 1];
    if k < |d| {
      assert r[k] == d[k];
      ScanMAt(d, y, k + 1);
    } else {
      assert r[k] == 'm';
    }
  }

  /** `ESC [ d m` followed by anything is one match of length `|d| + 3`. */
  lemma EscLenOfCode(d: string, y: string)
    requires |d| >= 1 && 'm' !in d && '\n' !in d
    ensures var s := [ESC, '['] + d + "m" + y;
      EscLen(s) == |d| + 3 && Rest(s) == y
  {
    var s := [ESC, '['] + d + "m" + y;
    assert s[2..] == d + "m" + y;
    ScanMAt(d, y, 1);
    assert s[|d| + 3..] == y;
  }

  /** An integer code `ESC [ n m` in front of `y` counts with its full
      length and shows nothing. */
  lemma AnsiLengthOfCode(n: int, y: string)
    ensures AnsiLength(Ansi(Num(n)) + y) == |Ansi(Num(n))| + AnsiLength(y)
    ensures Visible(Ansi(Num(n)) + y) == Visible(y)
    ensures WellEscaped(y) ==> WellEscaped(Ansi(Num(n)) + y)
  {
    AnsiOfNum(n);
    var d := IntStr(n);
    assert 'm' !in d && '\n' !in d by {
      assert forall i :: 0 <= i < |d| ==> d[i] != 'm' && d[i] != '\n';
    }
    EscLenOfCode(d, y);
    assert Ansi(Num(n)) + y == [ESC, '['] + d + "m" + y;
  }

  /** The reset sequence `_ansi()` is the integer code 0. */
  lemma ResetIsCode()
    ensures Reset() == Ansi(Num(0))
  {
    AnsiOfNum(0);
    assert IntStr(0) == "0";
  }

  /** `_ansi(c)` is one complete escape sequence: it shows nothing and
      text appended to it keeps its own visible part. */
  predicate Invisible(c: Code) {
    WellEscaped(Ansi(c)) && Visible(Ansi(c)) == []
  }

  /** Every integer colour, as all `COLOR` attributes are, is invisible. */
  lemma IntCodeInvisible(n: int)
    ensures Invisible(Num(n))
  {
    AnsiLengthOfCode(n, []);
    assert Ansi(Num(n)) + [] == Ansi(Num(n));
  }

  /** Any `ESC [ ... m` sequence without `m` or a line feed inside is one
      whole escape and shows nothing. */
  lemma EscapeInvisible(s: string)
    requires |s| >= 4 && s[0] == ESC && s[1] == '[' && s[|s| - 1] == 'm'
    requires forall i :: 2 <= i < |s| - 1 ==> s[i] != 'm' && s[i] != '\n'
    ensures WellEscaped(s) && Visible(s) == []
  {
    var d := s[2..|s| - 1];
    forall j | 0 <= j < |d|
      ensures d[j] != 'm' && d[j] != '\n'
    {
      assert d[j] == s[j + 2];
    }
    assert s[..2] == [ESC, '['] && s[|s| - 1..] == "m";
    assert s == s[..2] + d + s[|s| - 1..];
    CodeAlone(d);
  }

  /** A lone `ESC [ d m` is one whole escape and shows nothing. */
  lemma CodeAlone(d: string)
    requires |d| >= 1 && 'm' !in d && '\n' !in d
    ensures WellEscaped([ESC, '['] + d + "m") && Visible([ESC, '['] + d + "m") == []
  {
    EscLenOfCode(d, []);
    assert [ESC, '['] + d + "m" + [] == [ESC, '['] + d + "m";
  }

  /** So is every 256-colour sequence of `COLOR.C256`. */
  lemma C256Invisible(code: int, mode: string)
    ensures Invisible(Raw(C256(code, mode)))
  {
    var s := C256(code, mode);
    AnsiOfC256(code, mode);
    C256Params(s, s[2..7], IntStr(code));
    EscapeInvisible(s);
  }

  /** The parameters of a 256-colour sequence hold no `m` and no newline. */
  lemma C256Params(s: string, p: string, e: string)
    requires |s| >= 9 && s[2..7] == p && s[7..|s| - 1] == e
    requires p == "38;5;" || p == "48;5;"
    requires forall k :: 0 <= k < |e| ==> IsDigit(e[k]) || e[k] == '-'
    ensures forall i :: 2 <= i < |s| - 1 ==> s[i] != 'm' && s[i] != '\n'
  {
    forall i | 2 <= i < |s| - 1
      ensures s[i] != 'm' && s[i] != '\n'
    {
      if i < 7 {
        assert s[i] == p[i - 2];
      } else {
        assert s[i] == e[i - 7];
      }
    }
  }

  /** An invisible code in front of `y` changes nothing that shows. */
  lemma InvisiblePrefix(c: Code, y: string)
    requires Invisible(c)
    ensures Visible(Ansi(c) + y) == Visible(y)
    ensures WellEscaped(y) ==> WellEscaped(Ansi(c) + y)
  {
    VisibleAppend(Ansi(c), y);
    if WellEscaped(y) {
      WellEscapedAppend(Ansi(c), y);
    }
  }
}

=== FILE: box.dfy ===
/** The box geometry of `banner`: a header row with an optional title, one
    body row per (wrapped) line of text, and a footer row, each framed by
    border glyphs and colour codes. The terminal width, the colours and the
    border set are an explicit configuration instead of module globals. */
module Box {
  import opened Wrappers
  import opened PyStr
  import opened Style
  import opened Justifier
  import opened TextWrap
  import opened Markup
  import opened AnsiWidth

  /** `MAX_WIDTH`, `FONT_COLOR`, `BORDER_TYPE` and `BORDER_COLOR`. */
  datatype Config = Config(maxWidth: int, fontColor: Code, border: Border, borderColor: Code)

  /** The defaults: 100 columns, normal font, thin border, grey frame. */
  const Default: Config := Config(100, Num(0), Normal, Num(90))

  /** `width()`: the configured maximum, capped by the terminal's columns. */
  function Width(cfg: Config, columns: int): (w: int)
    ensures w <= cfg.maxWidth && w <= columns
    ensures w == cfg.maxWidth || w == columns
  {
    if cfg.maxWidth <= columns then cfg.maxWidth else columns
  }

  /** Colours whose codes show nothing: integer codes, as every `COLOR`
      attribute is, or `COLOR.C256` sequences. */
  predicate QuietColors(cfg: Config) {
    Invisible(cfg.fontColor) && Invisible(cfg.borderColor)
  }

  // ---------------------------------------------------------------------
  // Header and footer
  // ---------------------------------------------------------------------

  /** `f' {title.strip()} ' if title else ''`. */
  function HeaderTitle(title: Option<string>): (t: string)
    ensures title.None? || title == Some([]) ==> t == []
    ensures title.Some? && title.value != [] ==>
      |t| == |Strip(title.value)| + 2 && t[0] == ' ' && t[|t| - 1] == ' '
      && t[1..|t| - 1] == Strip(title.value)
  {
    if title.Some? && title.value != [] then " " + Strip(title.value) + " " else []
  }

  /** `_ansi(color) + p + _ansi()`: glyphs drawn in a colour, then reset. */
  function Framed(color: Code, p: string): string {
    Ansi(color) + p + Reset()
  }

  /** The header row of `_header`: corner, the title justified over
      `w - 2` border glyphs, corner. */
  function Header(cfg: Config, w: int, title: Option<string>, mode: Mode): (r: string)
    ensures QuietColors(cfg) && PlainBorder(cfg.border) && (title.Some? ==> ESC !in title.value) ==>
      Visible(r) == [cfg.border[2]] + Justify(mode, HeaderTitle(title), w - 2, cfg.border[0]) + [cfg.border[3]]
  {
    var b := cfg.border;
    var t := HeaderTitle(title);
    var p := [b[2]] + Justify(mode, t, w - 2, b[0]) + [b[3]];
    assert QuietColors(cfg) && PlainBorder(b) && (title.Some? ==> ESC !in title.value) ==>
      Visible(Framed(cfg.borderColor, p)) == p
    by {
      if QuietColors(cfg) && PlainBorder(b) && (title.Some? ==> ESC !in title.value) {
        HeaderTitlePlain(title);
        JustifyPlain(mode, t, w - 2, b[0]);
        VisibleFramed(cfg.borderColor, p);
      }
    }
    Framed(cfg.borderColor, p)
  }

  /** The footer row of `_footer`: corner, `w - 2` border glyphs, corner. */
  function Footer(cfg: Config, w: int): (r: string)
    ensures QuietColors(cfg) && PlainBorder(cfg.border) ==>
      Visible(r) == [cfg.border[4]] + Repeat(cfg.border[0], w - 2) + [cfg.border[5]]
  {
    var b := cfg.border;
    var p := [b[4]] + Repeat(b[0], w - 2) + [b[5]];
    assert QuietColors(cfg) && PlainBorder(b) ==> Visible(Framed(cfg.borderColor, p)) == p by {
      if QuietColors(cfg) && PlainBorder(b) {
        assert ESC !in p;
        VisibleFramed(cfg.borderColor, p);
      }
    }
    Framed(cfg.borderColor, p)
  }

  /** The reset sequence shows nothing and is one whole escape. */
  lemma ResetInvisible()
    ensures WellEscaped(Reset()) && Visible(Reset()) == []
  {
    ResetIsCode();
    IntCodeInvisible(0);
  }

  /** Plain text followed by the reset shows the text. */
  lemma PlainReset(p: string)
    requires ESC !in p
    ensures WellEscaped(p + Reset()) && Visible(p + Reset()) == p
  {
    ResetInvisible();
    WellEscapedPlain(p);
    AnsiLengthOfPlain(p);
    VisibleAppend(p, Reset());
    WellEscapedAppend(p, Reset());
    assert p + [] == p;
  }

  /** What a row framed by an integer colour and the reset shows. */
  lemma VisibleFramed(c: Code, p: string)
    requires Invisible(c) && ESC !in p
    ensures Visible(Framed(c, p)) == p
    ensures WellEscaped(Framed(c, p))
  {
    PlainReset(p);
    InvisiblePrefix(c, p + Reset());
    ConcatAssoc(Ansi(c), p, Reset());
  }

  /** A title free of escape characters gives a header title free of them. */
  lemma HeaderTitlePlain(title: Option<string>)
    requires title.Some? ==> ESC !in title.value
    ensures ESC !in HeaderTitle(title)
  {
    if title.Some? && title.value != [] {
      var t := HeaderTitle(title);
      var ok := (c: char) => c != ESC;
      StripKeepsChars(title.value, ok);
      assert forall i :: 1 <= i < |t| - 1 ==> t[i] == Strip(title.value)[i - 1];
    }
  }

  /** Justifying escape-free text with an escape-free fill adds none. */
  lemma JustifyPlain(mode: Mode, t: string, width: int, fill: char)
    requires ESC !in t && fill != ESC
    ensures ESC !in Justify(mode, t, width, fill)
  {
    JustifyKeepsChars(mode, t, width, fill, ESC);
  }

  /** The header is as wide as the title or `w` columns, whichever is more. */
  lemma HeaderWidth(cfg: Config, w: int, title: Option<string>, mode: Mode)
    requires QuietColors(cfg) && PlainBorder(cfg.border)
    requires title.Some? ==> ESC !in title.value
    ensures |Visible(Header(cfg, w, title, mode))| == Max(|HeaderTitle(title)|, w - 2) + 2
  {
  }

  /** So the footer is `w` columns wide. */
  lemma FooterWidth(cfg: Config, w: int)
    requires QuietColors(cfg) && PlainBorder(cfg.border) && w >= 2
    ensures |Visible(Footer(cfg, w))| == w
  {
  }

  // ---------------------------------------------------------------------
  // Body rows
  // ---------------------------------------------------------------------

  /** One body row of `banner` for the formatted text `f`: border, font
      colour, `f` justified to `w - 2 + ansi_length`, border. */
  function BodyRow(cfg: Config, w: int, mode: Mode, f: string): string {
    Row(cfg.borderColor, cfg.fontColor, cfg.border[1], Pad(mode, f, w))
  }

  /** `g + _ansi(font) + body + _ansi(frame) + g + _ansi()`: a body between
      two vertical glyphs, the right one drawn in the frame colour. */
  function Cell(frame: Code, font: Code, g: char, body: string): string {
    [g] + (Ansi(font) + (body + Framed(frame, [g])))
  }

  /** `_ansi(frame)` in front of a cell: a row between two vertical glyphs
      that are both drawn in the frame colour. */
  function Row(frame: Code, font: Code, g: char, body: string): string {
    Ansi(frame) + Cell(frame, font, g, body)
  }

  /** What a cell shows: a glyph, the visible part of `body`, a glyph. */
  lemma VisibleCell(a: Code, c: Code, g: char, body: string)
    requires Invisible(a) && Invisible(c) && g != ESC && WellEscaped(body)
    ensures Visible(Cell(a, c, g, body)) == [g] + Visible(body) + [g]
  {
    VisibleFramed(a, [g]);
    GlyphCell(c, g, body, Framed(a, [g]));
  }

  /** A cell with any closing part that shows just the glyph. */
  lemma GlyphCell(c: Code, g: char, body: string, tail: string)
    requires Invisible(c) && g != ESC && WellEscaped(body) && WellEscaped(tail)
    requires Visible(tail) == [g]
    ensures Visible([g] + (Ansi(c) + (body + tail))) == [g] + Visible(body) + [g]
  {
    ColoredBody(c, body, tail);
    GlyphPrefix(g, Ansi(c) + (body + tail));
  }

  /** An invisible colour in front of two well-formed parts shows both. */
  lemma ColoredBody(c: Code, body: string, tail: string)
    requires Invisible(c) && WellEscaped(body) && WellEscaped(tail)
    ensures Visible(Ansi(c) + (body + tail)) == Visible(body) + Visible(tail)
  {
    VisibleAppend(body, tail);
    InvisiblePrefix(c, body + tail);
  }

  /** A glyph in front of a string shows in front of what it shows. */
  lemma GlyphPrefix(g: char, y: string)
    requires g != ESC
    ensures Visible([g] + y) == [g] + Visible(y)
  {
    AnsiLengthPlainPrefix([g], y);
  }

  /** What a row shows: a glyph, the visible part of `body`, a glyph. */
  lemma VisibleRow(a: Code, c: Code, g: char, body: string)
    requires Invisible(a) && Invisible(c) && g != ESC && WellEscaped(body)
    ensures Visible(Row(a, c, g, body)) == [g] + Visible(body) + [g]
  {
    VisibleCell(a, c, g, body);
    InvisiblePrefix(a, Cell(a, c, g, body));
  }

  /** A row shows the visible width of its body plus the two glyphs. */
  lemma RowWidth(a: Code, c: Code, g: char, body: string)
    requires Invisible(a) && Invisible(c) && g != ESC && WellEscaped(body)
    ensures |Visible(Row(a, c, g, body))| == VisibleWidth(body) + 2
  {
    VisibleRow(a, c, g, body);
    AnsiLengthExact(body);
  }

  /** A body row shows its padded visible text between two vertical
      glyphs. */
  lemma BodyVisible(cfg: Config, w: int, mode: Mode, f: string)
    requires QuietColors(cfg) && PlainBorder(cfg.border) && WellEscaped(f)
    ensures WellEscaped(Pad(mode, f, w))
    ensures Visible(BodyRow(cfg, w, mode, f))
         == [cfg.border[1]] + Visible(Pad(mode, f, w)) + [cfg.border[1]]
  {
    var body := Pad(mode, f, w);
    var g := cfg.border[1];
    PadWellEscaped(mode, f, w);
    assert BodyRow(cfg, w, mode, f) == Row(cfg.borderColor, cfg.fontColor, g, body);
    VisibleRow(cfg.borderColor, cfg.fontColor, g, body);
  }

  /** A body row shows its visible text padded to `w - 2` columns between
      two vertical glyphs, hence `w` columns when the text fits. */
  lemma BodyWidth(cfg: Config, w: int, mode: Mode, f: string)
    requires QuietColors(cfg) && PlainBorder(cfg.border) && WellEscaped(f)
    ensures |Visible(BodyRow(cfg, w, mode, f))| == Max(|Visible(f)|, w - 2) + 2
  {
    PadWellEscaped(mode, f, w);
    RowWidth(cfg.borderColor, cfg.fontColor, cfg.border[1], Pad(mode, f, w));
    BodyVisibleWidth(mode, f, w);
    VisibleWidthIsVisible(f);
  }

  /** The visible width is the length of what shows. */
  lemma VisibleWidthIsVisible(s: string)
    ensures VisibleWidth(s) == |Visible(s)|
  {
    AnsiLengthExact(s);
  }

  // ---------------------------------------------------------------------
  // The banner
  // ---------------------------------------------------------------------

  /** `banner` accepts one string, split at line feeds, or a list of lines. */
  datatype Text = Str(s: string) | Lines(lines: seq<string>)

  /** The lines of a text: `text.split('\n')` for a string. */
  function Globs(text: Text): (gs: seq<string>)
    ensures text.Lines? ==> gs == text.lines
    ensures text.Str? ==> |gs| >= 1 && JoinOn(gs, '\n') == text.s
    ensures text.Str? ==> forall i :: 0 <= i < |gs| ==> '\n' !in gs[i]
  {
    match text
    case Str(s) => JoinOnSplitOn(s, '\n'); SplitOn(s, '\n')
    case Lines(ls) => ls
  }

  /** The rows of one line: `_wrap(glob, w - 4)`, or the line itself when
      wrapping is off. */
  function SubLines(glob: string, w: int, wrapLines: bool): seq<string> {
    if wrapLines then Wrap(glob, w - 4) else [glob]
  }

  /** The rows of every line, in order. */
  function AllSubLines(gs: seq<string>, w: int, wrapLines: bool): seq<string> {
    if gs == [] then [] else SubLines(gs[0], w, wrapLines) + AllSubLines(gs[1..], w, wrapLines)
  }

  /** The markup pipeline accepts every row. */
  predicate AllRender(ls: seq<string>) {
    forall i :: 0 <= i < |ls| ==> Transform(ls[i]).Success?
  }

  /** `ls[i]` is the first row the markup pipeline rejects, with `e`. */
  predicate FirstFailure(ls: seq<string>, i: int, e: MarkupError) {
    && 0 <= i < |ls| && Transform(ls[i]) == Failure(e)
    && forall j :: 0 <= j < i ==> Transform(ls[j]).Success?
  }

  lemma FirstFailureShift(ls: seq<string>, e: MarkupError)
    requires ls != [] && Transform(ls[0]).Success?
    requires exists i :: FirstFailure(ls[1..], i, e)
    ensures exists i :: FirstFailure(ls, i, e)
  {
    var i :| FirstFailure(ls[1..], i, e);
    assert FirstFailure(ls, i + 1, e);
  }

  /** Each row through the markup pipeline; the first failure aborts. */
  function FormatAll(ls: seq<string>): (r: Result<seq<string>, MarkupError>)
    ensures r.Success? ==>
      && |r.value| == |ls|
      && forall i :: 0 <= i < |ls| ==> Transform(ls[i]) == Success(r.value[i])
    ensures r.Failure? ==> exists i :: FirstFailure(ls, i, r.error)
    ensures (forall i :: 0 <= i < |ls| ==> Transform(ls[i]).Success?) ==> r.Success?
  {
    if ls == [] then Success([])
    else
      match Transform(ls[0])
      case Failure(e) =>
        assert FirstFailure(ls, 0, e);
        Failure(e)
      case Success(f) =>
        match FormatAll(ls[1..])
        case Failure(e) =>
          FirstFailureShift(ls, e);
          Failure(e)
        case Success(fs) => Success([f] + fs)
  }

  /** The body rows for the formatted texts `fs`. */
  function Bodies(cfg: Config, w: int, mode: Mode, fs: seq<string>): (r: seq<string>)
    ensures |r| == |fs|
    ensures forall i :: 0 <= i < |fs| ==> r[i] == BodyRow(cfg, w, mode, fs[i])
  {
    seq(|fs|, i requires 0 <= i < |fs| => BodyRow(cfg, w, mode, fs[i]))
  }

  /** The printed box: header, one body row per formatted text, footer. */
  function Rows(cfg: Config, w: int, mode: Mode, title: Option<string>, titleMode: Mode,
                fs: seq<string>): (r: seq<string>)
    ensures |r| == |fs| + 2
    ensures r[0] == Header(cfg, w, title, titleMode) && r[|fs| + 1] == Footer(cfg, w)
    ensures forall i :: 0 <= i < |fs| ==> r[i + 1] == BodyRow(cfg, w, mode, fs[i])
  {
    var bs := Bodies(cfg, w, mode, fs);
    Framing(Header(cfg, w, title, titleMode), bs, Footer(cfg, w))
  }

  /** A first row, the middle rows, and a last row. */
  function Framing(h: string, bs: seq<string>, f: string): (r: seq<string>)
    ensures |r| == |bs| + 2 && r[0] == h && r[|bs| + 1] == f
    ensures forall i :: 0 <= i < |bs| ==> r[i + 1] == bs[i]
  {
    [h] + bs + [f]
  }

  /** `banner(text, justify, title, justify_title, wrap_lines)`: the rows it
      prints, or the error the format step raises. */
  function Banner(cfg: Config, columns: int, text: Text, mode: Mode,
                  title: Option<string>, titleMode: Mode, wrapLines: bool)
    : (r: Result<seq<string>, MarkupError>)
    ensures var w := Width(cfg, columns);
      var ls := AllSubLines(Globs(text), w, wrapLines);
      && (r.Success? <==> AllRender(ls))
      && (r.Failure? ==> exists i :: FirstFailure(ls, i, r.error))
      && (r.Success? ==>
          && |r.value| == |ls| + 2
          && r.value[0] == Header(cfg, w, title, titleMode)
          && r.value[|ls| + 1] == Footer(cfg, w)
          && forall i :: 0 <= i < |ls| ==>
               Transform(ls[i]).Success? && r.value[i + 1] == BodyRow(cfg, w, mode, Transform(ls[i]).value))
  {
    var w := Width(cfg, columns);
    Assemble(cfg, w, mode, title, titleMode, AllSubLines(Globs(text), w, wrapLines))
  }

  /** The rows of a box around the rows `ls`, once each has been formatted. */
  function Assemble(cfg: Config, w: int, mode: Mode, title: Option<string>, titleMode: Mode,
                    ls: seq<string>): (r: Result<seq<string>, MarkupError>)
    ensures r.Success? <==> AllRender(ls)
    ensures r.Failure? ==> exists i :: FirstFailure(ls, i, r.error)
    ensures r.Success? ==>
      && |r.value| == |ls| + 2
      && r.value[0] == Header(cfg, w, title, titleMode)
      && r.value[|ls| + 1] == Footer(cfg, w)
      && forall i :: 0 <= i < |ls| ==>
           Transform(ls[i]).Success? && r.value[i + 1] == BodyRow(cfg, w, mode, Transform(ls[i]).value)
  {
    match FormatAll(ls)
    case Failure(e) =>
      assert !AllRender(ls) by {
        var i :| FirstFailure(ls, i, e);
        assert !Transform(ls[i]).Success?;
      }
      Failure(e)
    case Success(fs) =>
      var rows := Rows(cfg, w, mode, title, titleMode, fs);
      assert |fs| == |ls|;
      assert forall i :: 0 <= i < |ls| ==>
        Transform(ls[i]) == Success(fs[i]) && rows[i + 1] == BodyRow(cfg, w, mode, fs[i]);
      Success(rows)
  }

  /** Every row shows `w` columns. */
  predicate AllWide(rows: seq<string>, w: int) {
    forall i :: 0 <= i < |rows| ==> |Visible(rows[i])| == w
  }

  lemma AllWideAppend(a: seq<string>, b: seq<string>, w: int)
    requires AllWide(a, w) && AllWide(b, w)
    ensures AllWide(a + b, w)
  {
    forall i | 0 <= i < |a + b|
      ensures |Visible((a + b)[i])| == w
    {
      if i < |a| {
        assert (a + b)[i] == a[i];
      } else {
        assert (a + b)[i] == b[i - |a|];
      }
    }
  }

  lemma HeaderFits(cfg: Config, w: int, title: Option<string>, mode: Mode)
    requires QuietColors(cfg) && PlainBorder(cfg.border)
    requires title.Some? ==> ESC !in title.value
    requires |HeaderTitle(title)| <= w - 2
    ensures AllWide([Header(cfg, w, title, mode)], w)
  {
    HeaderWidth(cfg, w, title, mode);
    WideOne(Header(cfg, w, title, mode), w);
  }

  lemma WideOne(h: string, w: int)
    requires |Visible(h)| == w
    ensures AllWide([h], w)
  {
  }

  lemma FooterFits(cfg: Config, w: int)
    requires QuietColors(cfg) && PlainBorder(cfg.border) && w >= 2
    ensures AllWide([Footer(cfg, w)], w)
  {
    FooterWidth(cfg, w);
    WideOne(Footer(cfg, w), w);
  }

  /** Body rows of texts that fit are all `w` columns wide. */
  lemma BodiesWide(cfg: Config, w: int, mode: Mode, fs: seq<string>)
    requires QuietColors(cfg) && PlainBorder(cfg.border)
    requires forall i :: 0 <= i < |fs| ==> WellEscaped(fs[i]) && |Visible(fs[i])| <= w - 2
    ensures AllWide(Bodies(cfg, w, mode, fs), w)
  {
    var bs := Bodies(cfg, w, mode, fs);
    forall i | 0 <= i < |bs|
      ensures |Visible(bs[i])| == w
    {
      BodyWidth(cfg, w, mode, fs[i]);
    }
  }

  /** Every row of a box whose title and texts fit shows `w` columns. */
  lemma RowsAligned(cfg: Config, w: int, mode: Mode, title: Option<string>, titleMode: Mode,
                    fs: seq<string>)
    requires QuietColors(cfg) && PlainBorder(cfg.border) && w >= 2
    requires title.Some? ==> ESC !in title.value
    requires |HeaderTitle(title)| <= w - 2
    requires forall i :: 0 <= i < |fs| ==> WellEscaped(fs[i]) && |Visible(fs[i])| <= w - 2
    ensures |Rows(cfg, w, mode, title, titleMode, fs)| == |fs| + 2
    ensures AllWide(Rows(cfg, w, mode, title, titleMode, fs), w)
  {
    var h := [Header(cfg, w, title, titleMode)];
    var bs := Bodies(cfg, w, mode, fs);
    var f := [Footer(cfg, w)];
    HeaderFits(cfg, w, title, titleMode);
    FooterFits(cfg, w);
    BodiesWide(cfg, w, mode, fs);
    AllWideAppend(h, bs, w);
    AllWideAppend(h + bs, f, w);
  }

  /** The box is rectangular: when the title and every formatted row fit,
      each printed row, header and footer included, shows `w` columns. */
  lemma BannerAligned(cfg: Config, columns: int, text: Text, mode: Mode,
                      title: Option<string>, titleMode: Mode, wrapLines: bool, fs: seq<string>)
    requires QuietColors(cfg) && PlainBorder(cfg.border)
    requires Width(cfg, columns) >= 2
    requires title.Some? ==> ESC !in title.value
    requires |HeaderTitle(title)| <= Width(cfg, columns) - 2
    requires FormatAll(AllSubLines(Globs(text), Width(cfg, columns), wrapLines)) == Success(fs)
    requires forall i :: 0 <= i < |fs| ==>
      WellEscaped(fs[i]) && |Visible(fs[i])| <= Width(cfg, columns) - 2
    ensures var r := Banner(cfg, columns, text, mode, title, titleMode, wrapLines);
      && r.Success? && |r.value| == |fs| + 2
      && forall i :: 0 <= i < |r.value| ==> |Visible(r.value[i])| == Width(cfg, columns)
  {
    var w := Width(cfg, columns);
    assert Banner(cfg, columns, text, mode, title, titleMode, wrapLines)
        == Success(Rows(cfg, w, mode, title, titleMode, fs));
    RowsAligned(cfg, w, mode, title, titleMode, fs);
  }

  // ---------------------------------------------------------------------
  // Markup rows: what a styled span shows
  // ---------------------------------------------------------------------

  /** Plain text between two integer codes, inside the two framing spaces,
      is well escaped and shows the text and the spaces only. */
  lemma StyledRowVisible(on: int, off: int, x: string)
    requires ESC !in x
    ensures var f := " " + Ansi(Num(on)) + x + Ansi(Num(off)) + " ";
      WellEscaped(f) && Visible(f) == " " + x + " "
  {
    IntCodeInvisible(on);
    IntCodeInvisible(off);
    FramedTextVisible(Ansi(Num(on)), x, Ansi(Num(off)));
  }

  /** Text between two invisible, whole escapes and two spaces. */
  lemma FramedTextVisible(a: string, x: string, b: string)
    requires ESC !in x
    requires WellEscaped(a) && Visible(a) == [] && WellEscaped(b) && Visible(b) == []
    ensures WellEscaped(" " + a + x + b + " ") && Visible(" " + a + x + b + " ") == " " + x + " "
  {
    var t1 := x + b + " ";
    TailVisible(x, b);
    var t2 := a + t1;
    InvisibleHead(a, t1, x + " ");
    var t3 := " " + t2;
    WellEscapedPlain(" ");
    AnsiLengthOfPlain(" ");
    AppendShows(" ", t2, " ", x + " ");
    Regroup(" ", a, x, b, " ");
    ConcatAssoc(" ", x, " ");
    WellEscapedOfEqual(" " + a + x + b + " ", t3);
    VisibleOfEqual(" " + a + x + b + " ", t3, " " + x + " ");
  }

  lemma WellEscapedOfEqual(x: string, y: string)
    requires x == y && WellEscaped(y)
    ensures WellEscaped(x)
  {
  }

  /** An invisible escape in front changes nothing that shows. */
  lemma InvisibleHead(a: string, t: string, v: string)
    requires WellEscaped(a) && Visible(a) == [] && WellEscaped(t) && Visible(t) == v
    ensures WellEscaped(a + t) && Visible(a + t) == v
  {
    AppendShows(a, t, [], v);
    assert [] + v == v;
  }

  lemma Regroup(p: string, a: string, x: string, b: string, q: string)
    ensures p + a + x + b + q == p + (a + (x + b + q))
  {
  }

  /** Two well-escaped strings side by side show one after the other. */
  lemma AppendShows(a: string, b: string, va: string, vb: string)
    requires WellEscaped(a) && WellEscaped(b) && Visible(a) == va && Visible(b) == vb
    ensures WellEscaped(a + b) && Visible(a + b) == va + vb
  {
    VisibleAppend(a, b);
    WellEscapedAppend(a, b);
  }

  /** Plain text, an invisible escape and a space show the text and the
      space. */
  lemma TailVisible(x: string, b: string)
    requires ESC !in x && WellEscaped(b) && Visible(b) == []
    ensures WellEscaped(x + b + " ") && Visible(x + b + " ") == x + " "
  {
    AnsiLengthOfPlain(" ");
    WellEscapedPlain(" ");
    AppendShows(b, " ", [], " ");
    assert [] + " " == " ";
    WellEscapedPlain(x);
    AnsiLengthOfPlain(x);
    AppendShows(x, b + " ", x, " ");
    ConcatAssoc(x, b, " ");
  }

  /** A colour span of plain text comes out of the markup pipeline well
      escaped, showing its text between the framing spaces: `|x| + 2`
      columns, as the body justification assumes. */
  lemma ColorSpanVisible(name: string, x: string)
    requires IsName(name) && name in Colors
    requires |x| >= 1 && Plain(x) && '\n' !in x && ')' !in x && ESC !in x
    ensures var r := Transform("$" + name + "(" + x + ")");
      && r.Success? && WellEscaped(r.value) && Visible(r.value) == " " + x + " "
      && |Visible(r.value)| == |x| + 2
  {
    TransformColor(name, x);
    ResetIsCode();
    StyledRowVisible(Colors[name], 0, x);
  }

  /** The same for a bold span. */
  lemma BoldSpanVisible(x: string)
    requires |x| >= 1 && Plain(x) && '\n' !in x && ESC !in x
    ensures var r := Transform("**" + x + "**");
      && r.Success? && WellEscaped(r.value) && Visible(r.value) == " " + x + " "
  {
    TransformBold(x);
    StyleCodes();
    StyledRowVisible(1, 22, x);
  }

  /** The same for an italic span. */
  lemma ItalicSpanVisible(x: string)
    requires |x| >= 1 && Plain(x) && '\n' !in x && ESC !in x
    ensures var r := Transform("*" + x + "*");
      && r.Success? && WellEscaped(r.value) && Visible(r.value) == " " + x + " "
  {
    TransformItalic(x);
    StyleCodes();
    StyledRowVisible(3, 23, x);
  }

  // ---------------------------------------------------------------------
  // Plain text
  // ---------------------------------------------------------------------

  /** A character that neither starts an escape sequence nor means
      anything to the markup pipeline. */
  predicate SafeChar(c: char) {
    c != ESC && c != '*' && c != '$' && c != '{' && c != '}'
  }

  /** Safe rows that leave room for the two spaces the pipeline adds and
      the two border glyphs. */
  predicate Fits(ls: seq<string>, w: int) {
    forall i :: 0 <= i < |ls| ==> AllChars(ls[i], SafeChar) && |ls[i]| <= w - 4
  }

  lemma FitsAppend(a: seq<string>, b: seq<string>, w: int)
    requires Fits(a, w) && Fits(b, w)
    ensures Fits(a + b, w)
  {
    forall i | 0 <= i < |a + b|
      ensures AllChars((a + b)[i], SafeChar) && |(a + b)[i]| <= w - 4
    {
      if i < |a| {
        assert (a + b)[i] == a[i];
      } else {
        assert (a + b)[i] == b[i - |a|];
      }
    }
  }

  /** The rows a safe line wraps into fit. */
  lemma SubLinesFit(glob: string, w: int)
    requires w >= 6 && AllChars(glob, SafeChar)
    ensures Fits(SubLines(glob, w, true), w)
  {
    var r := Wrap(glob, w - 4);
    WrapKeepsChars(glob, w - 4, SafeChar);
    assert LinesChars(r, SafeChar);
    assert forall i :: 0 <= i < |r| ==> |r[i]| <= w - 4;
  }

  lemma {:induction false} AllSubLinesFit(gs: seq<string>, w: int)
    requires w >= 6
    requires forall i :: 0 <= i < |gs| ==> AllChars(gs[i], SafeChar)
    ensures Fits(AllSubLines(gs, w, true), w)
  {
    if gs != [] {
      var a := SubLines(gs[0], w, true);
      var b := AllSubLines(gs[1..], w, true);
      SubLinesFit(gs[0], w);
      AllSubLinesFit(gs[1..], w);
      assert AllSubLines(gs, w, true) == a + b;
      FitsAppend(a, b, w);
    }
  }

  /** A safe row comes out of the pipeline as itself between two spaces,
      one escape-free stretch of `|l| + 2` columns. */
  lemma SafeRow(l: string)
    requires AllChars(l, SafeChar)
    ensures Transform(l) == Success(" " + l + " ")
    ensures WellEscaped(" " + l + " ") && |Visible(" " + l + " ")| == |l| + 2
  {
    assert forall i :: 0 <= i < |l| ==> SafeChar(l[i]);
    assert Plain(l);
    SpacedSafeVisible(l);
  }

  /** A safe row between two spaces is escape-free, so it shows in full. */
  lemma SpacedSafeVisible(l: string)
    requires AllChars(l, SafeChar)
    ensures WellEscaped(" " + l + " ") && |Visible(" " + l + " ")| == |l| + 2
  {
    var r := " " + l + " ";
    assert ESC !in r by {
      assert forall i :: 1 <= i < |r| - 1 ==> r[i] == l[i - 1];
    }
    WellEscapedPlain(r);
    AnsiLengthOfPlain(r);
  }

  /** A text made of safe characters always renders, wrapped, as a box
      whose every row shows exactly `w` columns, once the terminal leaves
      room for a two-character row. */
  lemma PlainBannerAligned(cfg: Config, columns: int, text: Text, mode: Mode,
                           title: Option<string>, titleMode: Mode)
    requires QuietColors(cfg) && PlainBorder(cfg.border)
    requires Width(cfg, columns) >= 6
    requires title.Some? ==> ESC !in title.value
    requires |HeaderTitle(title)| <= Width(cfg, columns) - 2
    requires text.Str? ==> AllChars(text.s, SafeChar)
    requires text.Lines? ==> forall i :: 0 <= i < |text.lines| ==> AllChars(text.lines[i], SafeChar)
    ensures var r := Banner(cfg, columns, text, mode, title, titleMode, true);
      r.Success? && |r.value| >= 2 && AllWide(r.value, Width(cfg, columns))
  {
    var w := Width(cfg, columns);
    var gs := Globs(text);
    if text.Str? {
      SplitOnKeepsChars(text.s, '\n', SafeChar);
    }
    var ls := AllSubLines(gs, w, true);
    AllSubLinesFit(gs, w);
    forall i | 0 <= i < |ls|
      ensures Transform(ls[i]).Success?
    {
      SafeRow(ls[i]);
    }
    var fs := FormatAll(ls).value;
    forall i | 0 <= i < |fs|
      ensures WellEscaped(fs[i]) && |Visible(fs[i])| <= w - 2
    {
      SafeRow(ls[i]);
    }
    BannerAligned(cfg, columns, text, mode, title, titleMode, true, fs);
  }
}

=== FILE: cli.dfy ===
/** The pure helpers of the downloader's command-line front end: the
    clean-up and truncation of search-result titles, the slug taken from an
    episode URL, and the episode-range parser and its validator. The
    anime client, the downloads and the terminal stay outside. */
module Cli {
  import opened Wrappers
  import opened PyStr
  import opened Style
  import opened Markup

  // ---------------------------------------------------------------------
  // no_brackets
  // ---------------------------------------------------------------------

  /** The character `c` becomes when `a` is replaced by `b`. */
  function Swap(c: char, a: char, b: char): char {
    if c == a then b else c
  }

  /** Joining the pieces of a split on `a` with `b` swaps every `a` for a
      `b` and keeps every other character in place. */
  lemma {:induction false} JoinSplitSwaps(s: string, a: char, b: char)
    ensures var r := JoinOn(SplitOn(s, a), b);
      |r| == |s| && forall i :: 0 <= i < |s| ==> r[i] == Swap(s[i], a, b)
    decreases |s|
  {
    match IndexOf(s, a)
    case None =>
    case Some(k) =>
      var t := s[k + 1..];
      var tail := SplitOn(t, a);
      var ps := SplitOn(s, a);
      assert ps == [s[..k]] + tail;
      assert ps[1..] == tail;
      JoinSplitSwaps(t, a, b);
      var jt := JoinOn(tail, b);
      var r := JoinOn(ps, b);
      assert r == s[..k] + [b] + jt;
      forall i | 0 <= i < |s|
        ensures r[i] == Swap(s[i], a, b)
      {
        if i < k {
          assert a !in s[..k] && s[..k][i] == s[i];
        } else if i > k {
          assert r[i] == jt[i - k - 1] && t[i - k - 1] == s[i];
        }
      }
  }

  /** `s.replace(a, b)` for single characters, as `b.join(s.split(a))`. */
  function Replace(s: string, a: char, b: char): (r: string)
    ensures |r| == |s|
    ensures forall i :: 0 <= i < |s| ==> r[i] == Swap(s[i], a, b)
  {
    JoinSplitSwaps(s, a, b);
    JoinOn(SplitOn(s, a), b)
  }

  /** `no_brackets(s)`: `s.replace('(', '[').replace(')', ']')`. */
  function NoBrackets(s: string): (r: string)
    ensures |r| == |s|
    ensures '(' !in r && ')' !in r
    ensures forall i :: 0 <= i < |s| ==>
      r[i] == (if s[i] == '(' then '[' else if s[i] == ')' then ']' else s[i])
  {
    var r := Replace(Replace(s, '(', '['), ')', ']');
    assert forall i :: 0 <= i < |r| ==> r[i] != '(' && r[i] != ')';
    r
  }

  /** A string without parentheses is left as it is, so a second pass
      changes nothing. */
  lemma NoBracketsIdempotent(s: string)
    ensures '(' !in s && ')' !in s ==> NoBrackets(s) == s
    ensures NoBrackets(NoBrackets(s)) == NoBrackets(s)
  {
  }

  // ---------------------------------------------------------------------
  // thrust_chars
  // ---------------------------------------------------------------------

  /** `string.punctuation`. */
  const Punctuation: string := "!\"#$%&'()*+,-./:;<=>?@[\\]^_`{|}~"

  /** `allowed_chars`: ASCII letters and digits, punctuation, the space
      and the accented letters `éèàûâêî`. */
  predicate Allowed(c: char) {
    || ('a' <= c <= 'z') || ('A' <= c <= 'Z') || IsDigit(c)
    || c in Punctuation || c in " éèàûâêî"
  }

  /** `thrust_chars(s)`: the allowed characters of `s`, in order. */
  function Thrust(s: string): (r: string)
    ensures |r| <= |s|
    ensures forall i :: 0 <= i < |r| ==> Allowed(r[i])
  {
    if s == [] then [] else (if Allowed(s[0]) then [s[0]] else []) + Thrust(s[1..])
  }

  /** Filtering distributes over concatenation. */
  lemma {:induction false} ThrustAppend(a: string, b: string)
    ensures Thrust(a + b) == Thrust(a) + Thrust(b)
  {
    if a != [] {
      assert (a + b)[0] == a[0];
      assert (a + b)[1..] == a[1..] + b;
      ThrustAppend(a[1..], b);
      var h := if Allowed(a[0]) then [a[0]] else [];
      assert Thrust(a + b) == h + Thrust(a[1..] + b);
      assert Thrust(a) == h + Thrust(a[1..]);
      ConcatAssoc(h, Thrust(a[1..]), Thrust(b));
    } else {
      assert a + b == b;
    }
  }

  /** A single character is kept exactly when it is allowed. Together with
      `ThrustAppend` this pins the filter down: the allowed characters,
      none dropped, none added, in their original order. */
  lemma ThrustOne(c: char)
    ensures Thrust([c]) == if Allowed(c) then [c] else []
  {
    assert [c][1..] == [];
  }

  /** A string of allowed characters passes through unchanged; hence the
      filter is idempotent. */
  lemma {:induction false} ThrustOfAllowed(s: string)
    requires forall i :: 0 <= i < |s| ==> Allowed(s[i])
    ensures Thrust(s) == s
  {
    if s != [] {
      ThrustOfAllowed(s[1..]);
    }
  }

  lemma ThrustIdempotent(s: string)
    ensures Thrust(Thrust(s)) == Thrust(s)
  {
    ThrustOfAllowed(Thrust(s));
  }

  // ---------------------------------------------------------------------
  // Search-result titles
  // ---------------------------------------------------------------------

  /** `thrust_chars(no_brackets(title))`. */
  function Clean(title: string): (r: string)
    ensures forall i :: 0 <= i < |r| ==> Allowed(r[i]) && r[i] != '(' && r[i] != ')'
  {
    var nb := NoBrackets(title);
    var r := Thrust(nb);
    assert forall i :: 0 <= i < |r| ==> r[i] in nb by {
      ThrustKeepsChars(nb);
    }
    r
  }

  /** Every character the filter keeps comes from its input. */
  lemma {:induction false} ThrustKeepsChars(s: string)
    ensures forall i :: 0 <= i < |Thrust(s)| ==> Thrust(s)[i] in s
  {
    if s != [] {
      ThrustKeepsChars(s[1..]);
      var t := Thrust(s[1..]);
      forall i | 0 <= i < |t|
        ensures t[i] in s
      {
        assert t[i] in s[1..];
      }
    }
  }

  /** Every character is allowed in a title and none closes a colour span. */
  predicate TitleChars(raw: string) {
    forall i :: 0 <= i < |raw| ==> Allowed(raw[i]) && raw[i] != ')'
  }

  /** The option line of a search result, `f'$WHITE({raw})'`. A title of
      allowed characters without `)` or other markup comes out whole in
      white, because the lazy colour span stops at the line's own closing
      parenthesis; an empty title leaves `$WHITE()`, which is no colour
      span (the lazy group needs a character) and is shown as typed. */
  function TitleLine(raw: string): (r: string)
    ensures raw != [] && Plain(raw) && TitleChars(raw) ==>
      Transform(r) == Success(" " + Ansi(Num(97)) + raw + Reset() + " ")
    ensures raw == [] ==> Transform(r) == Success(" $WHITE() ")
  {
    var r := "$WHITE(" + raw + ")";
    assert raw != [] && Plain(raw) && TitleChars(raw) ==>
      Transform(r) == Success(" " + Ansi(Num(97)) + raw + Reset() + " ")
    by {
      if raw != [] && Plain(raw) && TitleChars(raw) {
        WhiteSpan(raw, r);
      }
    }
    assert raw == [] ==> Transform(r) == Success(" $WHITE() ") by {
      if raw == [] {
        EmptyWhiteSpan(r);
      }
    }
    r
  }

  lemma WhiteSpan(raw: string, line: string)
    requires line == "$WHITE(" + raw + ")"
    requires raw != [] && Plain(raw)
    requires TitleChars(raw)
    ensures Transform(line) == Success(" " + Ansi(Num(97)) + raw + Reset() + " ")
  {
    AllowedSingleLine(raw);
    White();
    assert line == "$" + "WHITE" + "(" + raw + ")";
    TransformColor("WHITE", raw);
  }

  lemma EmptyWhiteSpan(line: string)
    requires line == "$WHITE()"
    ensures Transform(line) == Success(" $WHITE() ")
  {
    White();
    EmptySpanIsText("WHITE");
    LiteralWhite();
  }

  lemma LiteralWhite()
    ensures "$" + "WHITE" + "()" == "$WHITE()"
    ensures " $" + "WHITE" + "() " == " $WHITE() "
  {
  }

  lemma White()
    ensures IsName("WHITE") && "WHITE" in Colors && Colors["WHITE"] == 97
  {
    assert forall i :: 0 <= i < 5 ==> IsNameChar("WHITE"[i]);
  }

  lemma AllowedSingleLine(raw: string)
    requires forall i :: 0 <= i < |raw| ==> Allowed(raw[i])
    ensures '\n' !in raw
  {
    assert !Allowed('\n');
  }

  /** Because `no_brackets` removed every `)`, the colour span of a cleaned
      title's option line covers the whole title. */
  lemma TitleLineWhite(title: string)
    requires Clean(title) != [] && Plain(Clean(title))
    ensures Transform(TitleLine(Clean(title)))
         == Success(" " + Ansi(Num(97)) + Clean(title) + Reset() + " ")
  {
  }

  /** The option line as written, for a title whose cleaned text holds a
      brace pair: `allowed_chars` keeps `{` and `}` (they are punctuation),
      so the braces reach `str.format`, and a field naming no integer
      attribute of `COLOR` makes the whole listing raise. */
  lemma TitleLineUnknownField(title: string, a: string, f: string, b: string)
    requires Clean(title) == a + "{" + f + "}" + b
    requires '*' !in a + f + b && '$' !in a + f + b
    requires '{' !in a && '}' !in a && '{' !in f && '}' !in f && f !in Colors
    ensures Transform(TitleLine(Clean(title))) == Failure(UnknownField(f))
  {
    var raw := Clean(title);
    assert TitleLine(raw) == "$WHITE(" + raw + ")";
    UnknownInWhite(raw, a, f, b);
  }

  /** A white span around allowed text holding an unknown field fails on it. */
  lemma UnknownInWhite(raw: string, a: string, f: string, b: string)
    requires raw == a + "{" + f + "}" + b
    requires TitleChars(raw)
    requires '*' !in a + f + b && '$' !in a + f + b
    requires '{' !in a && '}' !in a && '{' !in f && '}' !in f && f !in Colors
    ensures Transform("$WHITE(" + raw + ")") == Failure(UnknownField(f))
  {
    AllowedSingleLine(raw);
    assert ')' !in raw;
    assert '\n' !in a + f + b && ')' !in a + f + b by {
      assert forall i :: 0 <= i < |a| ==> a[i] == raw[i];
      assert forall i :: 0 <= i < |f| ==> f[i] == raw[|a| + 1 + i];
      assert forall i :: 0 <= i < |b| ==> b[i] == raw[|a| + |f| + 2 + i];
    }
    White();
    assert "$WHITE(" + raw + ")" == "$" + "WHITE" + "(" + (a + "{" + f + "}" + b) + ")";
    TransformColorUnknownInside("WHITE", a, f, b);
  }

  /** A search result titled `Re{Zero}` keeps its braces through cleaning,
      and its option line raises on the unknown field `Zero`. */
  lemma BraceTitleFails(t: string)
    requires t == "Re{Zero}"
    ensures Clean(t) == t
    ensures Transform(TitleLine(Clean(t))) == Failure(UnknownField("Zero"))
  {
    ReZeroAllowed(t);
    CleanOfClean(t);
    var a, f, b := "Re", "Zero", "";
    ReZeroParts(t, a, f, b);
    TitleLineUnknownField(t, a, f, b);
  }

  /** `Re{Zero}` cut around its field. */
  lemma ReZeroParts(t: string, a: string, f: string, b: string)
    requires t == "Re{Zero}" && a == "Re" && f == "Zero" && b == ""
    ensures t == a + "{" + f + "}" + b
    ensures '*' !in a + f + b && '$' !in a + f + b
    ensures '{' !in a && '}' !in a && '{' !in f && '}' !in f && f !in Colors
  {
    assert a + f + b == "ReZero";
  }

  /** A title of allowed characters without parentheses is already clean. */
  lemma CleanOfClean(t: string)
    requires forall i :: 0 <= i < |t| ==> Allowed(t[i]) && t[i] != '(' && t[i] != ')'
    ensures Clean(t) == t
  {
    NoBracketsIdempotent(t);
    ThrustOfAllowed(t);
  }

  lemma ReZeroAllowed(t: string)
    requires t == "Re{Zero}"
    ensures forall i :: 0 <= i < |t| ==> Allowed(t[i]) && t[i] != '(' && t[i] != ')'
  {
    assert Allowed('{') by {
      assert Punctuation[28] == '{';
    }
    assert Allowed('}') by {
      assert Punctuation[30] == '}';
    }
    forall i | 0 <= i < |t|
      ensures Allowed(t[i]) && t[i] != '(' && t[i] != ')'
    {
      assert t[i] == '{' || t[i] == '}' || 'a' <= t[i] <= 'z' || 'A' <= t[i] <= 'Z';
    }
  }

  /** The characters the markup stages react to, dropped in order. */
  function Unmark(s: string): (r: string)
    ensures |r| <= |s| && Plain(r)
    ensures forall i :: 0 <= i < |r| ==> r[i] in s
  {
    if s == [] then []
    else
      var rest := Unmark(s[1..]);
      assert forall i :: 0 <= i < |rest| ==> rest[i] in s;
      (if s[0] in "*${}" then [] else [s[0]]) + rest
  }

  /** Dropping markup distributes over concatenation. */
  lemma {:induction false} UnmarkAppend(a: string, b: string)
    ensures Unmark(a + b) == Unmark(a) + Unmark(b)
  {
    if a != [] {
      assert (a + b)[0] == a[0];
      assert (a + b)[1..] == a[1..] + b;
      UnmarkAppend(a[1..], b);
      var h := if a[0] in "*${}" then [] else [a[0]];
      assert Unmark(a + b) == h + Unmark(a[1..] + b);
      assert Unmark(a) == h + Unmark(a[1..]);
      ConcatAssoc(h, Unmark(a[1..]), Unmark(b));
    } else {
      assert a + b == b;
    }
  }

  /** A single character is dropped exactly when it is `*`, `$`, `{` or
      `}`. Together with `UnmarkAppend` this pins the corrected cleaning
      down: every other character, in its original order. */
  lemma UnmarkOne(c: char)
    ensures Unmark([c]) == if c in "*${}" then [] else [c]
  {
    assert [c][1..] == [];
  }

  /** Text without markup characters is kept as it is. */
  lemma {:induction false} UnmarkOfPlain(s: string)
    requires Plain(s)
    ensures Unmark(s) == s
  {
    if s != [] {
      UnmarkOfPlain(s[1..]);
    }
  }

  /** The cleaning the option line needs: `thrust_chars(no_brackets(title))`
      with the markup characters removed as well, so that the title is
      shown as text and never read as markup. */
  function SafeClean(title: string): (r: string)
    ensures Plain(r)
    ensures forall i :: 0 <= i < |r| ==> Allowed(r[i]) && r[i] != '(' && r[i] != ')'
    ensures Plain(Clean(title)) ==> r == Clean(title)
  {
    var c := Clean(title);
    var r := Unmark(c);
    assert Plain(c) ==> r == c by {
      if Plain(c) {
        UnmarkOfPlain(c);
      }
    }
    assert forall i :: 0 <= i < |r| ==> r[i] in c;
    r
  }

  /** With the corrected cleaning every search result renders: the whole
      title in white, or the literal `$WHITE()` when nothing is left. */
  lemma SafeTitleLine(title: string)
    ensures var raw := SafeClean(title);
      && (raw != [] ==>
            Transform(TitleLine(raw)) == Success(" " + Ansi(Num(97)) + raw + Reset() + " "))
      && (raw == [] ==> Transform(TitleLine(raw)) == Success(" $WHITE() "))
  {
    var raw := SafeClean(title);
  }

  /** The truncation as written: a title longer than `width - 14` becomes
      `raw[:width - 11] + '...'`. */
  function TruncateAsWritten(raw: string, width: int): (r: string)
    ensures |raw| <= width - 14 ==> r == raw
    ensures |raw| > width - 8 ==> r == Truncate(raw, width)
    ensures width >= 11 && width - 14 < |raw| <= width - 11 ==> r == raw + "..."
    ensures width >= 11 && width - 11 <= |raw| ==> r == raw[..width - 11] + "..."
    ensures width >= 11 && width - 14 < |raw| <= width - 8 ==> |r| >= |raw|
  {
    var r := if |raw| > width - 14 then PyPrefix(raw, width - 11) + "..." else raw;
    assert width >= 11 && width - 14 < |raw| <= width - 11 ==> PyPrefix(raw, width - 11) == raw;
    r
  }

  /** A title between `width - 13` and `width - 11` characters long keeps
      every character and still gets the ellipsis: the line grows by three
      and the ellipsis marks nothing removed. */
  lemma TruncateAsWrittenGrows(width: int)
    requires width >= 14
    ensures var raw := Repeat('a', width - 13);
      TruncateAsWritten(raw, width) == raw + "..."
  {
    var raw := Repeat('a', width - 13);
    assert PyPrefix(raw, width - 11) == raw;
  }

  /** The truncation with the threshold matching the cut: a title longer
      than `width - 8` becomes `raw[:width - 11] + '...'`. */
  function Truncate(raw: string, width: int): (r: string)
    ensures width >= 11 ==> |r| <= width - 8 && |r| <= |raw|
    ensures width >= 11 && r != raw ==>
      |r| >= 3 && r[..|r| - 3] < raw && r[|r| - 3..] == "..."
    ensures |raw| <= width - 8 ==> r == raw
    ensures width >= 11 && |raw| > width - 8 ==> r == raw[..width - 11] + "..." && |r| == width - 8
  {
    if |raw| > width - 8 then PyPrefix(raw, width - 11) + "..." else raw
  }

  /** Truncating a truncated title changes nothing, and the corrected
      truncation agrees with the one as written except on titles between
      `width - 13` and `width - 8` characters long. */
  lemma TruncateIdempotent(raw: string, width: int)
    requires width >= 11
    ensures Truncate(Truncate(raw, width), width) == Truncate(raw, width)
    ensures |raw| <= width - 14 || |raw| > width - 8 ==> TruncateAsWritten(raw, width) == Truncate(raw, width)
  {
  }

  // ---------------------------------------------------------------------
  // parse_range and validate
  // ---------------------------------------------------------------------

  /** `list(range(a, b + 1))`. */
  function Range(a: int, b: int): (r: seq<int>)
    ensures |r| == if a <= b then b - a + 1 else 0
    ensures forall k :: 0 <= k < |r| ==> r[k] == a + k
  {
    seq(if a <= b then b - a + 1 else 0, k => a + k)
  }

  /** The range holds exactly the numbers from `a` to `b`. */
  lemma RangeMembers(a: int, b: int, x: int)
    ensures x in Range(a, b) <==> a <= x <= b
  {
    if a <= x <= b {
      assert Range(a, b)[x - a] == x;
    }
  }

  /** The two bounds of `start, stop = map(int, s.split('-'))`: exactly two
      pieces, each accepted by `int()`. */
  function Bounds(s: string): (r: Option<(int, int)>)
    ensures r.Some? ==>
      && |SplitOn(s, '-')| == 2
      && PyInt(SplitOn(s, '-')[0]) == Some(r.value.0)
      && PyInt(SplitOn(s, '-')[1]) == Some(r.value.1)
    ensures r.None? ==>
      || |SplitOn(s, '-')| != 2
      || PyInt(SplitOn(s, '-')[0]).None?
      || PyInt(SplitOn(s, '-')[1]).None?
  {
    var ps := SplitOn(s, '-');
    if |ps| != 2 then None
    else match (PyInt(ps[0]), PyInt(ps[1]))
      case (Some(a), Some(b)) => Some((a, b))
      case _ => None
  }

  /** `parse_range(s)` for episodes `lo..hi`: a decimal line is the one
      number it spells; the empty line is every episode; anything else is
      a `start-stop` pair. `None` is the `ValueError` of a malformed line. */
  function ParseRange(s: string, lo: int, hi: int): (r: Option<seq<int>>)
    ensures IsDecimal(s) ==> r == Some([DigitsValue(s)])
    ensures s == [] ==> r == Some(Range(lo, hi))
    ensures !IsDecimal(s) && s != [] ==>
      (r.Some? <==> Bounds(s).Some?)
      && (r.Some? ==> r.value == Range(Bounds(s).value.0, Bounds(s).value.1))
  {
    if IsDecimal(s) then Some([DigitsValue(s)])
    else if s == [] then Some(Range(lo, hi))
    else match Bounds(s)
      case None => None
      case Some((a, b)) => Some(Range(a, b))
  }

  /** `validate(s)`: the line parses and every episode it names is between
      `lo` and `hi`. */
  predicate Validate(s: string, lo: int, hi: int): (r: bool)
    ensures s == [] ==> r
    ensures IsDecimal(s) ==> (r <==> lo <= DigitsValue(s) <= hi)
    ensures !IsDecimal(s) && s != [] ==> (r <==> Bounds(s).Some? && PairWithin(Bounds(s).value, lo, hi))
  {
    var p := ParseRange(s, lo, hi);
    assert s == [] ==> p.Some? && AllWithin(p.value, lo, hi) by {
      if s == [] {
        var xs := Range(lo, hi);
        assert forall k :: 0 <= k < |xs| ==> lo <= xs[k] <= hi;
      }
    }
    assert IsDecimal(s) ==> p.Some? && (AllWithin(p.value, lo, hi) <==> lo <= DigitsValue(s) <= hi) by {
      if IsDecimal(s) {
        var xs := p.value;
        assert xs == [DigitsValue(s)];
        assert AllWithin(xs, lo, hi) ==> lo <= xs[0] <= hi;
      }
    }
    assert !IsDecimal(s) && s != [] && p.Some? ==>
      (AllWithin(p.value, lo, hi) <==> PairWithin(Bounds(s).value, lo, hi))
    by {
      if !IsDecimal(s) && s != [] && p.Some? {
        var a, b := Bounds(s).value.0, Bounds(s).value.1;
        if a <= b {
          RangeWithin(a, b, lo, hi);
        }
      }
    }
    match p
    case None => false
    case Some(xs) => AllWithin(xs, lo, hi)
  }

  /** The pair `a-b` selects only episodes between `lo` and `hi`: it is
      reversed, and selects nothing, or both ends are in bounds. */
  predicate PairWithin(ab: (int, int), lo: int, hi: int) {
    ab.0 > ab.1 || (lo <= ab.0 && ab.1 <= hi)
  }

  /** Every episode of `xs` lies between `lo` and `hi`. */
  predicate AllWithin(xs: seq<int>, lo: int, hi: int) {
    forall k :: 0 <= k < |xs| ==> lo <= xs[k] <= hi
  }

  /** `str(n)` parses as the single episode `n`. */
  lemma ParseRangeSingle(n: nat, lo: int, hi: int)
    ensures ParseRange(NatStr(n), lo, hi) == Some([n])
    ensures Validate(NatStr(n), lo, hi) <==> lo <= n <= hi
  {
    DigitsValueOfNatStr(n);
    var xs := [n];
    assert (forall k :: 0 <= k < |xs| ==> lo <= xs[k] <= hi) <==> lo <= xs[0] <= hi;
  }

  /** The empty line selects every episode, and is always valid. */
  lemma ParseRangeAll(lo: int, hi: int)
    ensures ParseRange("", lo, hi) == Some(Range(lo, hi))
    ensures Validate("", lo, hi)
  {
    var xs := Range(lo, hi);
    assert forall k :: 0 <= k < |xs| ==> lo <= xs[k] <= hi;
  }

  /** Splitting `x + '-' + y` on `'-'` gives back `x` and `y` when neither
      holds a `'-'`. */
  lemma SplitPair(x: string, y: string)
    requires '-' !in x && '-' !in y
    ensures SplitOn(x + "-" + y, '-') == [x, y]
  {
    var s := x + "-" + y;
    IndexOfAfter(x, '-', y);
    assert s[..|x|] == x;
    assert s[|x| + 1..] == y;
    assert SplitOn(y, '-') == [y];
  }

  lemma NatStrNoDash(n: nat)
    ensures '-' !in NatStr(n)
  {
    var s := NatStr(n);
    assert forall i :: 0 <= i < |s| ==> IsDigit(s[i]);
  }

  /** `'a-b'` for naturals `a` and `b` parses as the episodes from `a` to
      `b`, none when `a > b`. */
  lemma ParseRangePair(a: nat, b: nat, lo: int, hi: int)
    ensures ParseRange(NatStr(a) + "-" + NatStr(b), lo, hi) == Some(Range(a, b))
  {
    var s := NatStr(a) + "-" + NatStr(b);
    assert s[|NatStr(a)|] == '-';
    assert !IsDecimal(s) && s != [];
    BoundsPair(a, b);
  }

  /** Both halves of `'a-b'` read back as the naturals they spell. */
  lemma BoundsPair(a: nat, b: nat)
    ensures Bounds(NatStr(a) + "-" + NatStr(b)) == Some((a, b))
  {
    var x, y := NatStr(a), NatStr(b);
    NatStrNoDash(a);
    NatStrNoDash(b);
    SplitPair(x, y);
    IntStrRoundTrip(a);
    IntStrRoundTrip(b);
    assert IntStr(a) == x && IntStr(b) == y;
  }

  /** An ascending pair is valid exactly when both ends are episodes. */
  lemma ValidatePair(a: nat, b: nat, lo: int, hi: int)
    requires a <= b
    ensures Validate(NatStr(a) + "-" + NatStr(b), lo, hi) <==> lo <= a && b <= hi
  {
    ParseRangePair(a, b, lo, hi);
    ValidateParsed(NatStr(a) + "-" + NatStr(b), lo, hi, Range(a, b));
    RangeWithin(a, b, lo, hi);
  }

  /** A line that parses is valid exactly when what it names is in bounds. */
  lemma ValidateParsed(s: string, lo: int, hi: int, xs: seq<int>)
    requires ParseRange(s, lo, hi) == Some(xs)
    ensures Validate(s, lo, hi) <==> forall k :: 0 <= k < |xs| ==> lo <= xs[k] <= hi
  {
  }

  /** A non-empty range lies between two bounds exactly when its ends do. */
  lemma RangeWithin(a: int, b: int, lo: int, hi: int)
    requires a <= b
    ensures (forall k :: 0 <= k < |Range(a, b)| ==> lo <= Range(a, b)[k] <= hi)
      <==> lo <= a && b <= hi
  {
    var xs := Range(a, b);
    assert xs[0] == a && xs[|xs| - 1] == b;
  }

  /** A descending pair such as `5-3` names no episode and is accepted,
      whatever the bounds. */
  lemma ValidateReversed(a: nat, b: nat, lo: int, hi: int)
    requires a > b
    ensures ParseRange(NatStr(a) + "-" + NatStr(b), lo, hi) == Some([])
    ensures Validate(NatStr(a) + "-" + NatStr(b), lo, hi)
  {
    ParseRangePair(a, b, lo, hi);
  }

  /** A negative number splits into an empty first piece, which `int()`
      refuses: it is rejected. */
  lemma ValidateRejectsNegative(n: nat, lo: int, hi: int)
    ensures ParseRange("-" + NatStr(n), lo, hi) == None
    ensures !Validate("-" + NatStr(n), lo, hi)
  {
    NatStrNoDash(n);
    NegativeBounds(NatStr(n));
    assert ("-" + NatStr(n))[0] == '-';
  }

  /** A line starting with its only dash has an empty first bound. */
  lemma NegativeBounds(x: string)
    requires '-' !in x
    ensures Bounds("-" + x) == None
  {
    SplitPair([], x);
    assert [] + "-" + x == "-" + x;
    EmptyNotInt();
  }

  /** `int('')` raises. */
  lemma EmptyNotInt()
    ensures PyInt([]) == None
  {
    assert StripBy([], IntBlanks) == [];
  }

  lemma SplitTriple(x: string)
    requires '-' !in x
    ensures |SplitOn(x + "-" + x + "-" + x, '-')| == 3
  {
    var t := x + "-" + x + "-" + x;
    var u := x + "-" + x;
    assert t == x + "-" + u;
    IndexOfAfter(x, '-', u);
    assert t[..|x|] == x;
    assert t[|x| + 1..] == u;
    SplitPair(x, x);
  }

  /** A line with two dashes splits into three pieces: it is rejected. */
  lemma ValidateRejectsTriple(n: nat, lo: int, hi: int)
    ensures ParseRange(NatStr(n) + "-" + NatStr(n) + "-" + NatStr(n), lo, hi) == None
    ensures !Validate(NatStr(n) + "-" + NatStr(n) + "-" + NatStr(n), lo, hi)
  {
    var x := NatStr(n);
    var t := x + "-" + x + "-" + x;
    NatStrNoDash(n);
    SplitTriple(x);
    assert t[|x|] == '-';
  }

  // ---------------------------------------------------------------------
  // The slug of an episode URL
  // ---------------------------------------------------------------------

  const Episode: string := "episode/"

  /** `query.split('episode/')[1].split('/')[0]`: the text after the first
      `episode/`, cut at the next `episode/` and then at the next `/`.
      `None` is the `IndexError` of a query without `episode/`. */
  function Slug(query: string): (r: Option<string>)
    ensures r.Some? <==> Contains(query, Episode)
    ensures r.Some? ==> '/' !in r.value
    ensures r.Some? ==>
      var rest := query[FindFrom(query, Episode, 0).value + |Episode|..];
      && r.value <= rest
      && (forall j :: 0 <= j < |r.value| ==> !OccursAt(rest, Episode, j))
      && (|r.value| == |rest| || rest[|r.value|] == '/' || OccursAt(rest, Episode, |r.value|))
  {
    match FindFrom(query, Episode, 0)
    case None => None
    case Some(i) => Some(SlugAfter(query[i + |Episode|..]))
  }

  /** The slug read from the text after the first `episode/`: that text up
      to the next `episode/`, then up to the next `/`. */
  function SlugAfter(rest: string): (r: string)
    ensures '/' !in r && r <= rest
    ensures forall j :: 0 <= j < |r| ==> !OccursAt(rest, Episode, j)
    ensures |r| == |rest| || rest[|r|] == '/' || OccursAt(rest, Episode, |r|)
  {
    var piece := match FindFrom(rest, Episode, 0)
      case None => rest
      case Some(j) => rest[..j];
    var r := SplitOn(piece, '/')[0];
    SlugCut(rest, piece, r);
    r
  }

  /** The first `/`-piece of the text before the first `episode/` stops at
      that `/` or that `episode/`, and holds neither. */
  lemma SlugCut(rest: string, piece: string, r: string)
    requires FindFrom(rest, Episode, 0).None? ==> piece == rest
    requires FindFrom(rest, Episode, 0).Some? ==>
      FindFrom(rest, Episode, 0).value <= |rest| && piece == rest[..FindFrom(rest, Episode, 0).value]
    requires r == SplitOn(piece, '/')[0]
    ensures '/' !in r && r <= rest
    ensures forall j :: 0 <= j < |r| ==> !OccursAt(rest, Episode, j)
    ensures |r| == |rest| || rest[|r|] == '/' || OccursAt(rest, Episode, |r|)
  {
    SplitOnHead(piece, '/');
    assert piece <= rest;
    if |r| < |piece| {
      assert rest[|r|] == piece[|r|];
    }
  }

  /** The first piece of a split is a prefix of the string that stops at
      its end or at the first separator. */
  lemma SplitOnHead(s: string, c: char)
    ensures SplitOn(s, c)[0] <= s
    ensures |SplitOn(s, c)[0]| == |s| || s[|SplitOn(s, c)[0]|] == c
  {
  }

  /** The slug is determined by its contract: a `/`-free prefix of the text
      after `episode/`, with no `episode/` starting inside it, that ends at
      the end of that text, at a `/` or at an `episode/`, is the slug. */
  lemma SlugAfterUnique(rest: string, s: string)
    requires '/' !in s && s <= rest
    requires forall j :: 0 <= j < |s| ==> !OccursAt(rest, Episode, j)
    requires |s| == |rest| || rest[|s|] == '/' || OccursAt(rest, Episode, |s|)
    ensures s == SlugAfter(rest)
  {
    var r := SlugAfter(rest);
    assert |s| == |r|;
    assert s == rest[..|s|] && r == rest[..|r|];
  }

  /** A URL that ends with its slug: `prefix + 'episode/' + slug` with no
      `/` in the slug reads back `slug`. */
  lemma SlugOfUrlEnd(prefix: string, slug: string)
    requires !Contains(prefix + "episode", Episode)
    requires '/' !in slug
    ensures Slug(prefix + Episode + slug) == Some(slug)
  {
    SlugAfterFirst(prefix, slug);
    SlashFreeNoEpisode(slug);
    SlugAfterUnique(slug, slug);
  }

  /** `episode/` ends in `/`, so it occurs in no `/`-free text. */
  lemma SlashFreeNoEpisode(s: string)
    requires '/' !in s
    ensures forall j :: 0 <= j < |s| ==> !OccursAt(s, Episode, j)
  {
    forall j | 0 <= j < |s|
      ensures !OccursAt(s, Episode, j)
    {
      assert j + 8 <= |s| ==> s[j..j + 8][7] == s[j + 7] && s[j + 7] in s;
    }
  }

  /** An occurrence with none before it is the one `find` reports. */
  lemma FindFirst(s: string, sub: string, i: nat)
    requires OccursAt(s, sub, i)
    requires forall j :: 0 <= j < i ==> !OccursAt(s, sub, j)
    ensures FindFrom(s, sub, 0) == Some(i)
  {
  }

  /** With no `episode/` in `prefix + 'episode'`, the first `episode/` of
      the URL is the one right after `prefix`. */
  lemma FirstEpisode(prefix: string, tail: string)
    requires !Contains(prefix + "episode", Episode)
    ensures FindFrom(prefix + Episode + tail, Episode, 0) == Some(|prefix|)
  {
    var q := prefix + Episode + tail;
    var p := prefix + "episode";
    assert q[|prefix|..|prefix| + 8] == Episode;
    forall j | 0 <= j < |prefix|
      ensures !OccursAt(q, Episode, j)
    {
      assert q[j..j + 8] == p[j..j + 8];
      assert !OccursAt(p, Episode, j);
    }
    FindFirst(q, Episode, |prefix|);
  }

  /** No `episode/` starts inside `slug + '/'` when that string holds
      none: one that began there would have to end at that `/`, and
      `episode/` has no other `/`. */
  lemma NoEpisodeInSlug(slug: string, suffix: string)
    requires '/' !in slug && !Contains(slug + "/", Episode)
    ensures forall j :: 0 <= j <= |slug| ==> !OccursAt(slug + "/" + suffix, Episode, j)
  {
    var rest := slug + "/" + suffix;
    var head := slug + "/";
    assert rest[|slug|] == '/';
    assert forall k :: 0 <= k < 7 ==> Episode[k] != '/';
    forall j | 0 <= j <= |slug|
      ensures !OccursAt(rest, Episode, j)
    {
      if j + 8 <= |slug| + 1 {
        assert rest[j..j + 8] == head[j..j + 8];
        assert !OccursAt(head, Episode, j);
      }
    }
  }

  /** The first `/`-piece of `slug + '/' + w` is `slug`. */
  lemma SlugPiece(slug: string, w: string)
    requires '/' !in slug
    ensures SplitOn(slug + "/" + w, '/')[0] == slug
  {
    IndexOfAfter(slug, '/', w);
    assert (slug + "/" + w)[..|slug|] == slug;
  }

  /** The slug of `prefix + 'episode/' + slug + '/' + suffix` is `slug`,
      when no `episode/` comes earlier and the slug neither holds a `/` nor
      ends in `episode`. */
  lemma SlugOfUrl(prefix: string, slug: string, suffix: string)
    requires !Contains(prefix + "episode", Episode)
    requires '/' !in slug && !Contains(slug + "/", Episode)
    ensures Slug(prefix + Episode + slug + "/" + suffix) == Some(slug)
  {
    var rest := slug + "/" + suffix;
    assert prefix + Episode + slug + "/" + suffix == prefix + Episode + rest;
    SlugAfterFirst(prefix, rest);
    SlugAfterSlash(slug, suffix);
  }

  /** The slug of `prefix + 'episode/' + rest` is read from `rest` when no
      `episode/` comes earlier. */
  lemma SlugAfterFirst(prefix: string, rest: string)
    requires !Contains(prefix + "episode", Episode)
    ensures Slug(prefix + Episode + rest) == Some(SlugAfter(rest))
  {
    var q := prefix + Episode + rest;
    FirstEpisode(prefix, rest);
    assert q[|prefix| + |Episode|..] == rest;
  }

  /** After the first `episode/`, a slash-free slug followed by `/` is read
      whole when it holds no `episode/`. */
  lemma SlugAfterSlash(slug: string, suffix: string)
    requires '/' !in slug && !Contains(slug + "/", Episode)
    ensures SlugAfter(slug + "/" + suffix) == slug
  {
    var rest := slug + "/" + suffix;
    NoEpisodeInSlug(slug, suffix);
    match FindFrom(rest, Episode, 0)
    case None =>
      SlugPiece(slug, suffix);
    case Some(j) =>
      SlugPieceCut(slug, suffix, j);
  }

  /** Cutting `slug + '/' + suffix` anywhere past the `/` keeps `slug` as
      the first `/`-piece. */
  lemma SlugPieceCut(slug: string, suffix: string, j: nat)
    requires '/' !in slug && |slug| < j <= |slug| + 1 + |suffix|
    ensures SplitOn((slug + "/" + suffix)[..j], '/')[0] == slug
  {
    var rest := slug + "/" + suffix;
    assert rest[..j] == slug + "/" + rest[|slug| + 1..j];
    SlugPiece(slug, rest[|slug| + 1..j]);
  }

  /** A second `episode/` ends the slug before any `/`: the slug of
      `prefix + 'episode/' + a + 'episode/' + suffix` is `a` whatever
      follows, so `.../episode/abcepisode/1` gives `abc`, not
      `abcepisode`. */
  lemma SlugStopsAtSecondEpisode(prefix: string, a: string, suffix: string)
    requires !Contains(prefix + "episode", Episode)
    requires '/' !in a && !Contains(a + "episode", Episode)
    ensures Slug(prefix + Episode + a + Episode + suffix) == Some(a)
  {
    var rest := a + Episode + suffix;
    assert prefix + Episode + a + Episode + suffix == prefix + Episode + rest;
    SlugAfterFirst(prefix, rest);
    FirstEpisode(a, suffix);
    assert rest[..|a|] == a;
    SplitOnFree(a, '/');
  }

  /** A string free of `c` splits into itself alone. */
  lemma SplitOnFree(s: string, c: char)
    requires c !in s
    ensures SplitOn(s, c) == [s]
  {
  }

  /** `Contains` survives adding text on either side. */
  lemma ContainsGrow(x: string, s: string, y: string, sub: string)
    requires Contains(s, sub)
    ensures Contains(x + s + y, sub)
  {
    var i :| 0 <= i <= |s| && OccursAt(s, sub, i);
    assert (x + s + y)[|x| + i..|x| + i + |sub|] == s[i..i + |sub|];
    assert OccursAt(x + s + y, sub, |x| + i);
  }

  /** The page the downloader opens for a query: `None` when the query is
      not an `https://` URL, which sends it to the search instead; an
      episode URL leads to its anime's info page; any other URL is used as
      it is. */
  function Url(root: string, query: string): (r: Option<string>)
    ensures r.None? <==> !Contains(query, "https://")
    ensures r.Some? && !Contains(query, "/episode/") ==> r.value == query
    ensures r.Some? && Contains(query, "/episode/") ==>
      exists slug :: Slug(query) == Some(slug) && r.value == root + "/anime/info/" + slug
  {
    if !Contains(query, "https://") then None
    else if !Contains(query, "/episode/") then Some(query)
    else
      assert Contains(query, Episode) by {
        var i :| 0 <= i <= |query| && OccursAt(query, "/episode/", i);
        assert query[i + 1..i + 9] == Episode;
        assert OccursAt(query, Episode, i + 1);
      }
      Some(root + "/anime/info/" + Slug(query).value)
  }

  /** An `https://` episode URL whose `episode/` follows a `/` leads to the
      info page of its slug. */
  lemma UrlOfEpisode(root: string, prefix: string, slug: string, suffix: string)
    requires Contains(prefix, "https://") && prefix != [] && prefix[|prefix| - 1] == '/'
    requires !Contains(prefix + "episode", Episode)
    requires '/' !in slug && !Contains(slug + "/", Episode)
    ensures Url(root, prefix + Episode + slug + "/" + suffix) == Some(root + "/anime/info/" + slug)
  {
    var q := prefix + Episode + slug + "/" + suffix;
    ContainsGrow([], prefix, Episode + slug + "/" + suffix, "https://");
    assert [] + prefix + (Episode + slug + "/" + suffix) == q;
    var k := |prefix| - 1;
    assert q[k..k + 9] == "/episode/";
    assert OccursAt(q, "/episode/", k);
    SlugOfUrl(prefix, slug, suffix);
  }
}

=== FILE: justify.dfy ===
/** The justifier table of the toolkit: `str.ljust`, `str.rjust` and
    `str.center`, each padding a string to a width with a fill character,
    selected by an enumerated mode instead of a name lookup. */
module Justifier {
  import opened PyStr

  /** The three justification names `'left'`, `'right'`, `'center'`. */
  datatype Mode = Left | Right | Center

  function Max(a: int, b: int): int {
    if a >= b then a else b
  }

  /** How many fill characters precede the text. For `center` this is
      CPython's rule: half the margin, plus one when both the margin and
      the target width are odd. */
  function Offset(mode: Mode, n: nat, width: int): (k: nat)
    ensures k + n <= Max(n, width)
    ensures mode == Left ==> k == 0
    ensures mode == Right ==> k + n == Max(n, width)
    ensures mode == Center ==>
      var right := Max(n, width) - n - k;
      && (k == right || k == right + 1 || k + 1 == right)
      && (k > right <==> (Max(n, width) - n) % 2 == 1 && width % 2 != 0)
      && (k < right <==> (Max(n, width) - n) % 2 == 1 && width % 2 == 0)
  {
    if n >= width then 0
    else
      var marg := width - n;
      match mode
      case Left => 0
      case Right => marg
      case Center => marg / 2 + (if marg % 2 == 1 && width % 2 != 0 then 1 else 0)
  }

  /** How many fill characters follow the text: the rest of the margin. */
  function Trailing(mode: Mode, n: nat, width: int): (m: nat)
    ensures Offset(mode, n, width) + n + m == Max(n, width)
  {
    Max(n, width) - n - Offset(mode, n, width)
  }

  /** `s.ljust(width, fill)`, `s.rjust(width, fill)` or `s.center(width, fill)`:
      the text, unchanged and contiguous, padded with `fill` to `width`
      columns; a text already that wide is returned as it is. */
  function Justify(mode: Mode, s: string, width: int, fill: char): (r: string)
    ensures |r| == Max(|s|, width)
    ensures var k := Offset(mode, |s|, width);
      && r[k..k + |s|] == s
      && (forall i :: 0 <= i < k ==> r[i] == fill)
      && (forall i :: k + |s| <= i < |r| ==> r[i] == fill)
    ensures |s| >= width ==> r == s
  {
    var k := Offset(mode, |s|, width);
    var r := Repeat(fill, k) + s + Repeat(fill, Trailing(mode, |s|, width));
    assert r[k..k + |s|] == s;
    r
  }

  /** Justifying adds no character but the fill: a character that is
      neither the fill nor in the text is not in the result. */
  lemma JustifyKeepsChars(mode: Mode, s: string, width: int, fill: char, c: char)
    requires c != fill && c !in s
    ensures c !in Justify(mode, s, width, fill)
  {
    var a := Repeat(fill, Offset(mode, |s|, width));
    var b := Repeat(fill, Trailing(mode, |s|, width));
    assert c !in a && c !in b;
    assert Justify(mode, s, width, fill) == a + s + b;
  }
}

=== FILE: markup.dfy ===
/** The markup transformer of `banner`: a fixed three-stage rewrite of one
    row, bold `**x**`, then italic `*x*`, then colour `$NAME(x)`, followed
    by `str.format(**COLOR.__dict__)`, which resolves the `{NAME}` fields
    the colour stage leaves behind. */
module Markup {
  import opened Wrappers
  import opened PyStr
  import opened Style
  import opened Scan

  /** Why the format step raises. */
  datatype MarkupError =
    | UnknownField(name: string)  // `KeyError`/`IndexError`: no such colour attribute
    | SingleBrace                 // `ValueError`: a lone `{` or `}`

  // ---------------------------------------------------------------------
  // Stages 1 and 2: bold and italic
  // ---------------------------------------------------------------------

  /** `_ansi(1)`, `_ansi(22)`, `_ansi(3)` and `_ansi(23)`: bold on and
      off, italic on and off. */
  const BoldOn: string := [ESC] + "[1m"
  const BoldOff: string := [ESC] + "[22m"
  const ItalicOn: string := [ESC] + "[3m"
  const ItalicOff: string := [ESC] + "[23m"

  lemma StyleCodes()
    ensures BoldOn == Ansi(Num(1)) && BoldOff == Ansi(Num(22))
    ensures ItalicOn == Ansi(Num(3)) && ItalicOff == Ansi(Num(23))
  {
    AnsiOfNum(1);
    AnsiOfNum(22);
    AnsiOfNum(3);
    AnsiOfNum(23);
  }

  /** `_re_bold.sub(_ansi(1) + group + _ansi(22), s)`. */
  function Bold(s: string): string {
    SubSpans(s, "**", "**", BoldOn, BoldOff)
  }

  /** `_re_italic.sub(_ansi(3) + group + _ansi(23), s)`. */
  function Italic(s: string): string {
    SubSpans(s, "*", "*", ItalicOn, ItalicOff)
  }

  // ---------------------------------------------------------------------
  // Stage 3: colour, `\$([A-Z\d]+)\((.+?)\)`
  // ---------------------------------------------------------------------

  predicate IsNameChar(c: char) {
    'A' <= c <= 'Z' || IsDigit(c)
  }

  /** A colour name the pattern can capture: upper-case letters and digits. */
  predicate IsName(name: string) {
    |name| > 0 && forall i :: 0 <= i < |name| ==> IsNameChar(name[i])
  }

  /** Length of the longest prefix made of name characters. Since `(` is
      not one, the greedy `[A-Z\d]+` group can only end there. */
  function NameLen(s: string): (n: nat)
    ensures n <= |s|
    ensures forall i :: 0 <= i < n ==> IsNameChar(s[i])
    ensures n < |s| ==> !IsNameChar(s[n])
  {
    if s != [] && IsNameChar(s[0]) then 1 + NameLen(s[1..]) else 0
  }

  /** Does a whole colour span `$NAME(group)` start at the head of `s`? */
  predicate ColorAtHead(s: string) {
    && |s| >= 1 && s[0] == '$'
    && var n := NameLen(s[1..]);
    && n >= 1 && 2 + n <= |s| && s[1 + n] == '('
    && FindClose(s[2 + n..], ")").Some?
  }

  /** The colour-on text of the replacement, a format field inside an
      escape sequence: `ESC [ {NAME} m`. */
  function ColorOn(name: string): string {
    [ESC] + "[{" + name + "}m"
  }

  /** The reset sequence that closes a colour span. */
  function ColorOff(): string {
    [ESC] + "[0m"
  }

  /** `_re_color.sub('\x1b[{NAME}m' + group + '\x1b[0m', s)`. */
  function Color(s: string): string
    decreases |s|
  {
    if s == [] then []
    else if ColorAtHead(s) then
      var n := NameLen(s[1..]);
      var name := s[1..1 + n];
      var r := s[2 + n..];
      var k := FindClose(r, ")").value;
      ColorOn(name) + r[..k] + ColorOff() + Color(r[k + 1..])
    else
      [s[0]] + Color(s[1..])
  }

  // ---------------------------------------------------------------------
  // Stage 4: str.format(**COLOR.__dict__)
  // ---------------------------------------------------------------------

  function Prepend(p: string, r: Result<string, MarkupError>): (o: Result<string, MarkupError>)
    ensures o.Success? <==> r.Success?
  {
    match r
    case Success(v) => Success(p + v)
    case Failure(e) => Failure(e)
  }

  /** `s.format(**COLOR.__dict__)`: `{{` and `}}` stand for single braces,
      `{NAME}` is replaced by the decimal code of the integer attribute
      `NAME` of `COLOR`, and anything else with a brace raises. */
  function Format(s: string): (r: Result<string, MarkupError>)
    ensures r.Failure? ==> '{' in s || '}' in s
    ensures '{' !in s && '}' !in s ==> r == Success(s)
    decreases |s|
  {
    if s == [] then Success([])
    else if s[0] == '{' then
      if |s| >= 2 && s[1] == '{' then Prepend("{", Format(s[2..]))
      else
        match IndexOf(s[1..], '}')
        case None => Failure(SingleBrace)
        case Some(i) =>
          var name := s[1..1 + i];
          if name in Colors then Prepend(IntStr(Colors[name]), Format(s[2 + i..]))
          else Failure(UnknownField(name))
    else if s[0] == '}' then
      if |s| >= 2 && s[1] == '}' then Prepend("}", Format(s[2..])) else Failure(SingleBrace)
    else assert s == [s[0]] + s[1..]; Prepend([s[0]], Format(s[1..]))
  }

  /** The text that `str.format` turns back into `x`: every brace doubled. */
  function EscapeBraces(x: string): (e: string)
    ensures |e| >= |x|
    ensures '{' !in x && '}' !in x ==> e == x
  {
    if x == [] then []
    else
      var h := if x[0] == '{' then "{{" else if x[0] == '}' then "}}" else [x[0]];
      assert '{' !in x && '}' !in x ==> h + x[1..] == x;
      h + EscapeBraces(x[1..])
  }

  /** Doubling the braces is a left inverse of `Format`: any text at all
      survives the format stage once its braces are doubled. */
  lemma {:induction false} FormatEscaped(x: string)
    ensures Format(EscapeBraces(x)) == Success(x)
    decreases |x|
  {
    if x != [] {
      var e := EscapeBraces(x);
      var rest := EscapeBraces(x[1..]);
      FormatEscaped(x[1..]);
      if x[0] == '{' {
        assert e == "{{" + rest && e[2..] == rest;
      } else if x[0] == '}' {
        assert e == "}}" + rest && e[2..] == rest;
      } else {
        assert e == [x[0]] + rest && e[1..] == rest;
      }
      assert x == [x[0]] + x[1..];
    }
  }

  // ---------------------------------------------------------------------
  // The pipeline
  // ---------------------------------------------------------------------

  /** The formatted row: `' ' + line + ' '`, then bold, italic, colour and
      format, in that order. */
  function Transform(line: string): (r: Result<string, MarkupError>)
    ensures Plain(line) ==> r == Success(" " + line + " ")
  {
    var s := " " + line + " ";
    assert Plain(line) ==> Format(Color(Italic(Bold(s)))) == Success(s) by {
      if Plain(line) {
        assert Plain(s);
        PipelinePlain(s);
      }
    }
    Format(Color(Italic(Bold(s))))
  }

  /** Characters that mean something to one of the four stages. */
  predicate Plain(x: string) {
    '*' !in x && '$' !in x && '{' !in x && '}' !in x
  }

  // ---------------------------------------------------------------------
  // Plain text is copied through every stage
  // ---------------------------------------------------------------------

  lemma {:induction false} ColorPlainPrefix(x: string, y: string)
    requires '$' !in x
    ensures Color(x + y) == x + Color(y)
  {
    if x == [] {
      assert x + y == y;
    } else {
      var s := x + y;
      assert s[0] == x[0] && s[1..] == x[1..] + y;
      assert !ColorAtHead(s);
      assert Color(s) == [s[0]] + Color(s[1..]);
      ColorPlainPrefix(x[1..], y);
      assert x == [x[0]] + x[1..];
    }
  }

  lemma PrependPrepend(a: string, b: string, r: Result<string, MarkupError>)
    ensures Prepend(a, Prepend(b, r)) == Prepend(a + b, r)
  {
    match r
    case Success(v) => assert a + (b + v) == a + b + v;
    case Failure(e) =>
  }

  lemma {:induction false} FormatPlainPrefix(x: string, y: string)
    requires '{' !in x && '}' !in x
    ensures Format(x + y) == Prepend(x, Format(y))
  {
    if x == [] {
      assert x + y == y;
      match Format(y)
      case Success(v) => assert x + v == v;
      case Failure(e) =>
    } else {
      var s := x + y;
      assert s[0] == x[0] && s[1..] == x[1..] + y;
      FormatPlainPrefix(x[1..], y);
      PrependPrepend([x[0]], x[1..], Format(y));
      assert x == [x[0]] + x[1..];
    }
  }

  /** A row without markup characters is only framed by two spaces. */
  lemma PipelinePlain(s: string)
    requires Plain(s)
    ensures Format(Color(Italic(Bold(s)))) == Success(s)
  {
    SubSpansPlain(s, "**", "**", BoldOn, BoldOff);
    SubSpansPlain(s, "*", "*", ItalicOn, ItalicOff);
    ColorPlainPrefix(s, []);
    assert s + [] == s;
  }

  // ---------------------------------------------------------------------
  // One colour span
  // ---------------------------------------------------------------------

  lemma NameLenOfName(name: string, rest: string)
    requires IsName(name)
    requires rest == [] || !IsNameChar(rest[0])
    ensures NameLen(name + rest) == |name|
    decreases |name|
  {
    if |name| > 1 {
      assert (name + rest)[1..] == name[1..] + rest;
      NameLenOfName(name[1..], rest);
    } else {
      assert (name + rest)[1..] == rest;
    }
  }

  /** `$NAME(x)` followed by `y` becomes the colour-on field, `x`, and the
      reset sequence, and scanning resumes at `y`. */
  lemma ColorOne(name: string, x: string, y: string)
    requires IsName(name)
    requires |x| >= 1 && '\n' !in x && ')' !in x
    ensures Color("$" + name + "(" + x + ")" + y)
         == ColorOn(name) + x + ColorOff() + Color(y)
  {
    var s := "$" + name + "(" + x + ")" + y;
    NameLenOfName(name, "(" + x + ")" + y);
    assert s[1..] == name + ("(" + x + ")" + y);
    var n := |name|;
    assert s[1..1 + n] == name;
    var r := s[2 + n..];
    assert r == x + ")" + y;
    FindCloseAt(x, ")", y);
    assert ColorAtHead(s);
    assert r[..|x|] == x;
    assert r[|x| + 1..] == y;
  }

  /** A registered colour field is replaced by its code. */
  lemma FormatField(name: string, y: string)
    requires IsName(name)
    ensures name in Colors ==>
      Format("{" + name + "}" + y) == Prepend(IntStr(Colors[name]), Format(y))
    ensures name !in Colors ==>
      Format("{" + name + "}" + y) == Failure(UnknownField(name))
  {
    var s := "{" + name + "}" + y;
    assert s[1] == name[0];
    assert s[1..] == name + "}" + y;
    assert '}' !in name by {
      assert forall i :: 0 <= i < |name| ==> name[i] != '}';
    }
    IndexOfAfter(name, '}', y);
    assert IndexOf(s[1..], '}') == Some(|name|);
    assert s[1..1 + |name|] == name;
    assert s[2 + |name|..] == y;
  }

  lemma StarFree(s: string)
    requires '*' !in s
    ensures Italic(Bold(s)) == s
  {
    SubSpansPlain(s, "**", "**", BoldOn, BoldOff);
    SubSpansPlain(s, "*", "*", ItalicOn, ItalicOff);
  }

  lemma ColorRow(name: string, x: string)
    requires IsName(name)
    requires |x| >= 1 && '\n' !in x && ')' !in x
    ensures Color(" " + ("$" + name + "(" + x + ")") + " ")
         == " " + (ColorOn(name) + x + ColorOff() + " ")
  {
    var y := "$" + name + "(" + x + ")" + " ";
    assert " " + ("$" + name + "(" + x + ")") + " " == " " + y;
    ColorPlainPrefix(" ", y);
    ColorOne(name, x, " ");
    assert Color(" ") == " " by {
      ColorPlainPrefix(" ", []);
      assert " " + [] == " ";
    }
  }

  lemma StarFreeColorRow(name: string, x: string)
    requires IsName(name) && Plain(x)
    ensures '*' !in " " + ("$" + name + "(" + x + ")") + " "
  {
    assert forall i :: 0 <= i < |name| ==> name[i] != '*';
  }

  lemma ColorRowShape(name: string, x: string)
    ensures " " + (ColorOn(name) + x + ColorOff() + " ")
         == [' ', ESC, '['] + ("{" + name + "}" + ("m" + x + ColorOff() + " "))
  {
  }

  lemma FormatColorTail(x: string)
    requires Plain(x)
    ensures Format("m" + x + ColorOff() + " ") == Success("m" + x + ColorOff() + " ")
  {
    var tail := "m" + x + ColorOff() + " ";
    assert '{' !in tail && '}' !in tail;
    FormatPlainPrefix(tail, []);
    assert tail + [] == tail;
  }

  /** A known field between brace-free text is replaced by its code. */
  lemma FormatOneField(head: string, name: string, tail: string)
    requires IsName(name) && name in Colors
    requires '{' !in head && '}' !in head && '{' !in tail && '}' !in tail
    ensures Format(head + ("{" + name + "}" + tail)) == Success(head + (IntStr(Colors[name]) + tail))
  {
    var code := IntStr(Colors[name]);
    FormatPlainPrefix(head, "{" + name + "}" + tail);
    FormatField(name, tail);
    FormatPlainPrefix(tail, []);
    assert tail + [] == tail;
  }

  lemma ColorTailPlain(x: string)
    requires Plain(x)
    ensures var tail := "m" + x + ColorOff() + " ";
      '{' !in tail && '}' !in tail
  {
  }

  lemma KnownRowShape(code: string, x: string)
    ensures [' ', ESC, '['] + (code + ("m" + x + ColorOff() + " "))
         == " " + ([ESC, '['] + code + "m" + x + ColorOff() + " ")
  {
  }

  lemma FormatColorRowKnown(name: string, x: string)
    requires IsName(name) && Plain(x) && name in Colors
    ensures Format(" " + (ColorOn(name) + x + ColorOff() + " "))
         == Success(" " + ([ESC, '['] + IntStr(Colors[name]) + "m" + x + ColorOff() + " "))
  {
    ColorRowShape(name, x);
    ColorTailPlain(x);
    FormatOneField([' ', ESC, '['], name, "m" + x + ColorOff() + " ");
    KnownRowShape(IntStr(Colors[name]), x);
  }

  lemma FormatColorRowUnknown(name: string, x: string)
    requires IsName(name) && Plain(x) && name !in Colors
    ensures Format(" " + (ColorOn(name) + x + ColorOff() + " ")) == Failure(UnknownField(name))
  {
    var tail := "m" + x + ColorOff() + " ";
    var head := [' ', ESC, '['];
    ColorRowShape(name, x);
    FormatPlainPrefix(head, "{" + name + "}" + tail);
    FormatField(name, tail);
  }

  /** A span `$NAME(x)` with a registered colour renders as the colour's
      escape sequence, `x`, and the reset sequence. */
  lemma TransformColor(name: string, x: string)
    requires IsName(name) && name in Colors
    requires |x| >= 1 && Plain(x) && '\n' !in x && ')' !in x
    ensures Transform("$" + name + "(" + x + ")")
         == Success(" " + Ansi(Num(Colors[name])) + x + Reset() + " ")
  {
    var s := " " + ("$" + name + "(" + x + ")") + " ";
    StarFreeColorRow(name, x);
    StarFree(s);
    ColorRow(name, x);
    FormatColorRowKnown(name, x);
    KnownRowAnsi(Colors[name], x);
  }

  lemma KnownRowAnsi(c: int, x: string)
    ensures " " + Ansi(Num(c)) + x + Reset() + " "
         == " " + ([ESC, '['] + IntStr(c) + "m" + x + ColorOff() + " ")
  {
    AnsiOfNum(c);
    AnsiOfNum(0);
    assert Reset() == ColorOff();
  }

  /** A span naming no registered colour makes the row fail to format. */
  lemma TransformUnknownColor(name: string, x: string)
    requires IsName(name) && name !in Colors
    requires |x| >= 1 && Plain(x) && '\n' !in x && ')' !in x
    ensures Transform("$" + name + "(" + x + ")") == Failure(UnknownField(name))
  {
    var s := " " + ("$" + name + "(" + x + ")") + " ";
    StarFreeColorRow(name, x);
    StarFree(s);
    ColorRow(name, x);
    FormatColorRowUnknown(name, x);
  }

  // ---------------------------------------------------------------------
  // Braces that are not colour fields
  // ---------------------------------------------------------------------

  /** Any field that is not an integer attribute of `COLOR` raises, whatever
      its name, including the empty field `{}`. */
  lemma FormatUnknownField(f: string, y: string)
    requires '{' !in f && '}' !in f && f !in Colors
    ensures Format("{" + f + "}" + y) == Failure(UnknownField(f))
  {
    var s := "{" + f + "}" + y;
    assert s[1] != '{' by {
      if f != [] {
        assert s[1] == f[0];
      }
    }
    assert s[1..] == f + "}" + y;
    IndexOfAfter(f, '}', y);
    assert s[1..1 + |f|] == f;
  }

  /** A row with no asterisk and no dollar sign reaches the format stage
      unchanged. */
  lemma BeforeFormatPlain(s: string)
    requires '*' !in s && '$' !in s
    ensures Color(Italic(Bold(s))) == s
  {
    StarFree(s);
    ColorPlainPrefix(s, []);
    assert s + [] == s;
  }

  /** A stray `}` raises `ValueError`: a row with plain text around one
      closing brace fails to format. */
  lemma TransformStrayClose(x: string, y: string)
    requires Plain(x) && Plain(y)
    ensures Transform(x + "}" + y) == Failure(SingleBrace)
  {
    var t := "}" + y + " ";
    var s := " " + x + t;
    assert " " + (x + "}" + y) + " " == s;
    BeforeFormatPlain(s);
    FormatPlainPrefix(" " + x, t);
    assert t[1] != '}' by {
      if y != [] {
        assert t[1] == y[0];
      }
    }
    assert Format(t) == Failure(SingleBrace);
  }

  /** A `{` that no `}` closes raises `ValueError` too. */
  lemma TransformUnclosedOpen(x: string, y: string)
    requires Plain(x) && Plain(y)
    ensures Transform(x + "{" + y) == Failure(SingleBrace)
  {
    var t := "{" + y + " ";
    var s := " " + x + t;
    assert " " + (x + "{" + y) + " " == s;
    BeforeFormatPlain(s);
    FormatPlainPrefix(" " + x, t);
    UnclosedFormat(y, t);
  }

  lemma UnclosedFormat(y: string, t: string)
    requires Plain(y) && t == "{" + y + " "
    ensures Format(t) == Failure(SingleBrace)
  {
    assert t[1] != '{' by {
      if y != [] {
        assert t[1] == y[0];
      }
    }
    assert t[1..] == y + " ";
    assert IndexOf(t[1..], '}') == None;
  }

  lemma AvoidsJoin(c: char, a: string, f: string, b: string)
    requires c !in a + f + b && c != '{' && c != '}'
    ensures c !in a + "{" + f + "}" + b
  {
    assert c !in a && c !in f && c !in b by {
      assert forall i :: 0 <= i < |a| ==> (a + f + b)[i] == a[i];
      assert forall i :: 0 <= i < |f| ==> (a + f + b)[|a| + i] == f[i];
      assert forall i :: 0 <= i < |b| ==> (a + f + b)[|a| + |f| + i] == b[i];
    }
  }

  /** The format stage of a colour row whose text holds an unknown field. */
  lemma FormatColorRowInside(name: string, a: string, f: string, b: string)
    requires IsName(name) && name in Colors
    requires '{' !in a && '}' !in a && '{' !in f && '}' !in f && f !in Colors
    ensures Format(" " + (ColorOn(name) + (a + "{" + f + "}" + b) + ColorOff() + " "))
         == Failure(UnknownField(f))
  {
    var x := a + "{" + f + "}" + b;
    var tail := "m" + x + ColorOff() + " ";
    ColorRowShape(name, x);
    FormatPlainPrefix([' ', ESC, '['], "{" + name + "}" + tail);
    FormatField(name, tail);
    FormatTailInside(a, f, b);
  }

  /** After the colour code, the row text fails on its unknown field. */
  lemma FormatTailInside(a: string, f: string, b: string)
    requires '{' !in a && '}' !in a && '{' !in f && '}' !in f && f !in Colors
    ensures Format("m" + (a + "{" + f + "}" + b) + ColorOff() + " ") == Failure(UnknownField(f))
  {
    var rest := b + ColorOff() + " ";
    assert "m" + (a + "{" + f + "}" + b) + ColorOff() + " " == ("m" + a) + ("{" + f + "}" + rest);
    FormatPlainPrefix("m" + a, "{" + f + "}" + rest);
    FormatUnknownField(f, rest);
  }

  lemma NoGroupBeforeClose()
    ensures FindClose(") ", ")") == None
  {
    assert CloseScan(") ", ")", 2) == None;
  }

  /** The colour stage leaves `$NAME()` alone. */
  lemma ColorEmptySpan(name: string)
    requires IsName(name)
    ensures Color("$" + name + "() ") == "$" + name + "() "
  {
    var u := "$" + name + "() ";
    NameLenOfName(name, "() ");
    assert u[1..] == name + "() ";
    assert u[2 + |name|..] == ") ";
    NoGroupBeforeClose();
    assert !ColorAtHead(u);
    assert '$' !in u[1..] by {
      assert forall i :: 0 <= i < |name| ==> name[i] != '$';
    }
    ColorPlainPrefix(u[1..], []);
    assert u[1..] + [] == u[1..];
    assert [u[0]] + u[1..] == u;
  }

  /** `$NAME()` is no colour span, because the lazy group needs at least
      one character: the row is shown as typed. */
  lemma EmptySpanIsText(name: string)
    requires IsName(name)
    ensures Transform("$" + name + "()") == Success(" $" + name + "() ")
  {
    var u := "$" + name + "() ";
    var s := " " + u;
    EmptySpanRow(name);
    StarFree(s);
    ColorPlainPrefix(" ", u);
    ColorEmptySpan(name);
    assert Format(s) == Success(s);
  }

  /** The framed row of `$NAME()`, and the markup characters it lacks. */
  lemma EmptySpanRow(name: string)
    requires IsName(name)
    ensures var s := " " + ("$" + name + "() ");
      && " " + ("$" + name + "()") + " " == s
      && s == " $" + name + "() "
      && '*' !in s && '{' !in s && '}' !in s
  {
    assert forall i :: 0 <= i < |name| ==> name[i] != '*' && name[i] != '{' && name[i] != '}';
  }

  /** A colour span whose text carries a field `{f}` that names no integer
      attribute: the colour stage leaves the braces in place and the format
      stage raises on them. */
  lemma TransformColorUnknownInside(name: string, a: string, f: string, b: string)
    requires IsName(name) && name in Colors
    requires '*' !in a + f + b && '$' !in a + f + b
    requires '\n' !in a + f + b && ')' !in a + f + b
    requires '{' !in a && '}' !in a && '{' !in f && '}' !in f && f !in Colors
    ensures Transform("$" + name + "(" + (a + "{" + f + "}" + b) + ")") == Failure(UnknownField(f))
  {
    var x := a + "{" + f + "}" + b;
    AvoidsJoin('*', a, f, b);
    AvoidsJoin('$', a, f, b);
    AvoidsJoin('\n', a, f, b);
    AvoidsJoin(')', a, f, b);
    var s := " " + ("$" + name + "(" + x + ")") + " ";
    assert '*' !in s by {
      assert forall i :: 0 <= i < |name| ==> name[i] != '*';
    }
    StarFree(s);
    ColorRow(name, x);
    FormatColorRowInside(name, a, f, b);
  }

  // ---------------------------------------------------------------------
  // One bold span and one italic span
  // ---------------------------------------------------------------------

  /** Everything after the bold stage is the identity on a row that holds
      no markup characters. */
  lemma AfterBoldPlain(b: string)
    requires Plain(b)
    ensures Format(Color(Italic(b))) == Success(b)
  {
    SubSpansPlain(b, "*", "*", ItalicOn, ItalicOff);
    AfterItalicPlain(b);
  }

  /** The colour and format stages are the identity on a row that holds
      no markup characters. */
  lemma AfterItalicPlain(b: string)
    requires Plain(b)
    ensures Format(Color(b)) == Success(b)
  {
    ColorPlainPrefix(b, []);
    assert b + [] == b;
    FormatPlainPrefix(b, []);
  }

  lemma BoldRow(x: string)
    requires |x| >= 1 && Plain(x) && '\n' !in x
    ensures Bold(" " + ("**" + x + "**") + " ") == " " + BoldOn + x + BoldOff + " "
  {
    var y := "**" + x + "**" + " ";
    assert " " + ("**" + x + "**") + " " == " " + y;
    SubSpansPlainPrefix(" ", y, "**", "**", BoldOn, BoldOff);
    SubSpansOne(x, " ", "**", "**", BoldOn, BoldOff);
    SubSpansPlain(" ", "**", "**", BoldOn, BoldOff);
  }

  /** `**x**` renders as bold-on, `x`, bold-off. */
  lemma TransformBold(x: string)
    requires |x| >= 1 && Plain(x) && '\n' !in x
    ensures Transform("**" + x + "**") == Success(" " + BoldOn + x + BoldOff + " ")
  {
    BoldRow(x);
    AfterBoldPlain(" " + BoldOn + x + BoldOff + " ");
  }

  lemma ItalicRow(x: string)
    requires |x| >= 1 && Plain(x) && '\n' !in x
    ensures Italic(" " + ("*" + x + "*") + " ") == " " + ItalicOn + x + ItalicOff + " "
  {
    var y := "*" + x + "*" + " ";
    assert " " + ("*" + x + "*") + " " == " " + y;
    SubSpansPlainPrefix(" ", y, "*", "*", ItalicOn, ItalicOff);
    SubSpansOne(x, " ", "*", "*", ItalicOn, ItalicOff);
    SubSpansPlain(" ", "*", "*", ItalicOn, ItalicOff);
  }

  lemma ItalicRowHasNoBold(x: string)
    requires |x| >= 1 && Plain(x)
    ensures Bold(" " + ("*" + x + "*") + " ") == " " + ("*" + x + "*") + " "
  {
    var s := " " + ("*" + x + "*") + " ";
    assert forall i :: 0 <= i < |s| - 1 ==> !(s[i] == '*' && s[i + 1] == '*') by {
      assert s[1] == '*' && s[|s| - 2] == '*';
      assert forall i :: 2 <= i < |s| - 2 ==> s[i] == x[i - 2] && x[i - 2] != '*';
    }
    BoldSkipsSingles(s);
  }

  /** `*x*` renders as italic-on, `x`, italic-off. */
  lemma TransformItalic(x: string)
    requires |x| >= 1 && Plain(x) && '\n' !in x
    ensures Transform("*" + x + "*") == Success(" " + ItalicOn + x + ItalicOff + " ")
  {
    var it := " " + ItalicOn + x + ItalicOff + " ";
    ItalicRowHasNoBold(x);
    ItalicRow(x);
    AfterItalicPlain(it);
  }

  /** Text where no two asterisks are adjacent holds no bold span. */
  lemma {:induction false} BoldSkipsSingles(s: string)
    requires forall i :: 0 <= i < |s| - 1 ==> !(s[i] == '*' && s[i + 1] == '*')
    ensures Bold(s) == s
    decreases |s|
  {
    if s != [] {
      assert !SpanAtHead(s, "**", "**") by {
        if |s| >= 2 {
          assert s[..2] != "**" by {
            assert !(s[0] == '*' && s[1] == '*');
          }
        }
      }
      BoldSkipsSingles(s[1..]);
      assert s == [s[0]] + s[1..];
    }
  }
}

=== FILE: pystr.dfy ===
/** The few Python `str`/`int` built-ins the toolkit leans on, restricted to
    ASCII: `str.split()`, `str.split(sep)`, `str.strip()`, `str.isdecimal()`,
    `str.upper()`, `str(int)`, `int(str)`, slicing `s[:n]` and `c * n`. */
module PyStr {
  import opened Wrappers

  // ---------------------------------------------------------------------
  // Characters
  // ---------------------------------------------------------------------

  /** ASCII whitespace as `str.split()` and `str.strip()` see it:
      tab, line feed, vertical tab, form feed, carriage return,
      the four ASCII separators 0x1C..0x1F, and space. */
  predicate IsSpace(c: char) {
    c == ' ' || ('\t' <= c <= '\r') || ('\U{001C}' <= c <= '\U{001F}')
  }

  /** The whitespace `int()` strips around its argument: tab, line feed,
      vertical tab, form feed, carriage return and space. Unlike
      `str.strip()` it keeps the separators 0x1C..0x1F. */
  predicate IsIntSpace(c: char) {
    c == ' ' || ('\t' <= c <= '\r')
  }

  /** The two whitespace classes in play: the one of `str.split()` and
      `str.strip()`, and the narrower one of `int()`. */
  datatype Blanks = StrBlanks | IntBlanks

  predicate IsBlank(k: Blanks, c: char) {
    match k
    case StrBlanks => IsSpace(c)
    case IntBlanks => IsIntSpace(c)
  }

  predicate IsDigit(c: char) {
    '0' <= c <= '9'
  }

  predicate NoSpace(s: string) {
    forall i :: 0 <= i < |s| ==> !IsSpace(s[i])
  }

  /** `str.isdecimal()`: non-empty and made of decimal digits only. */
  predicate IsDecimal(s: string) {
    |s| > 0 && forall i :: 0 <= i < |s| ==> IsDigit(s[i])
  }

  /** `str.upper()` on ASCII letters; every other character is kept. */
  function Upper(s: string): (r: string)
    ensures |r| == |s|
    ensures forall i :: 0 <= i < |s| ==>
      r[i] == (if 'a' <= s[i] <= 'z' then (s[i] as int - 32) as char else s[i])
  {
    if s == [] then []
    else [if 'a' <= s[0] <= 'z' then (s[0] as int - 32) as char else s[0]] + Upper(s[1..])
  }

  /** Concatenation regroups freely. */
  lemma ConcatAssoc(a: string, b: string, c: string)
    ensures a + b + c == a + (b + c)
  {
  }

  // ---------------------------------------------------------------------
  // Repetition and slicing
  // ---------------------------------------------------------------------

  /** `c * n`: `n` copies of `c`, and the empty string when `n <= 0`. */
  function Repeat(c: char, n: int): (r: string)
    ensures |r| == if n <= 0 then 0 else n
    ensures forall i :: 0 <= i < |r| ==> r[i] == c
  {
    if n <= 0 then [] else [c] + Repeat(c, n - 1)
  }

  /** `s[:n]` with Python's meaning of a negative stop: it counts back from
      the end of the string. */
  function PyPrefix(s: string, n: int): (r: string)
    ensures |r| == if n >= 0 then (if n <= |s| then n else |s|)
                   else (if |s| + n >= 0 then |s| + n else 0)
    ensures r <= s
  {
    if n >= 0 then (if n <= |s| then s[..n] else s)
    else (if |s| + n >= 0 then s[..|s| + n] else [])
  }

  // ---------------------------------------------------------------------
  // str.split() on whitespace
  // ---------------------------------------------------------------------

  /** Length of the longest prefix of `s` free of whitespace. */
  function WordLen(s: string): (k: nat)
    ensures k <= |s|
    ensures NoSpace(s[..k])
    ensures k < |s| ==> IsSpace(s[k])
  {
    if s == [] || IsSpace(s[0]) then 0
    else
      var k := 1 + WordLen(s[1..]);
      assert s[..k] == [s[0]] + s[1..][..k - 1];
      k
  }

  /** A word as `str.split()` produces it: non-empty, no whitespace. */
  predicate IsWord(w: string) {
    |w| > 0 && NoSpace(w)
  }

  /** `str.split()` with no argument: the maximal runs of non-whitespace. */
  function Words(s: string): (ws: seq<string>)
    ensures forall i :: 0 <= i < |ws| ==> IsWord(ws[i])
    ensures ws == [] <==> forall i :: 0 <= i < |s| ==> IsSpace(s[i])
    decreases |s|
  {
    if s == [] then []
    else if IsSpace(s[0]) then Words(s[1..])
    else
      var k := WordLen(s);
      [s[..k]] + Words(s[k..])
  }

  /** Every word followed by one space, concatenated. */
  function JoinSpaced(ws: seq<string>): string {
    if ws == [] then [] else ws[0] + " " + JoinSpaced(ws[1..])
  }

  /** A word ends at the first whitespace character after it. */
  lemma WordLenOfWord(w: string, c: char, rest: string)
    requires IsWord(w) && IsSpace(c)
    ensures WordLen(w + [c] + rest) == |w|
    decreases |w|
  {
    var s := w + [c] + rest;
    if |w| > 1 {
      assert s[1..] == w[1..] + [c] + rest;
      WordLenOfWord(w[1..], c, rest);
    } else {
      assert s[1..] == [c] + rest;
    }
  }

  /** `str.split()` on a word, one whitespace character and more text: the
      word comes first, then the words of the rest. */
  lemma WordsCons(w: string, c: char, rest: string)
    requires IsWord(w) && IsSpace(c)
    ensures Words(w + [c] + rest) == [w] + Words(rest)
  {
    var s := w + [c] + rest;
    WordLenOfWord(w, c, rest);
    assert s[..|w|] == w;
    assert s[|w|..] == [c] + rest;
    assert ([c] + rest)[1..] == rest;
  }

  /** A lone word splits into itself, so the last word of a text needs no
      whitespace after it. */
  lemma WordsOfWord(w: string)
    requires IsWord(w)
    ensures Words(w) == [w]
  {
    assert WordLen(w) == |w|;
    assert w[..|w|] == w && w[|w|..] == [];
  }

  /** Leading whitespace, however long, does not change the words. */
  lemma {:induction false} WordsSkipSpace(sp: string, s: string)
    requires forall i :: 0 <= i < |sp| ==> IsSpace(sp[i])
    ensures Words(sp + s) == Words(s)
  {
    if sp != [] {
      var t := sp + s;
      assert t[0] == sp[0] && t[1..] == sp[1..] + s;
      assert Words(t) == Words(t[1..]);
      WordsSkipSpace(sp[1..], s);
    } else {
      assert sp + s == s;
    }
  }

  /** Splitting words that were joined with single spaces gives them back. */
  lemma {:induction false} WordsOfJoinSpaced(ws: seq<string>)
    requires forall i :: 0 <= i < |ws| ==> IsWord(ws[i])
    ensures Words(JoinSpaced(ws)) == ws
  {
    if ws != [] {
      var rest := JoinSpaced(ws[1..]);
      WordsCons(ws[0], ' ', rest);
      WordsOfJoinSpaced(ws[1..]);
    }
  }

  /** Every character of `s` satisfies `ok`. */
  predicate AllChars(s: string, ok: char -> bool) {
    forall i :: 0 <= i < |s| ==> ok(s[i])
  }

  /** The words of a string are made of its own characters. */
  lemma {:induction false} WordsKeepChars(s: string, ok: char -> bool)
    requires AllChars(s, ok)
    ensures forall i :: 0 <= i < |Words(s)| ==> AllChars(Words(s)[i], ok)
    decreases |s|
  {
    if s != [] {
      if IsSpace(s[0]) {
        WordsKeepChars(s[1..], ok);
      } else {
        var k := WordLen(s);
        WordsKeepChars(s[k..], ok);
        assert Words(s) == [s[..k]] + Words(s[k..]);
      }
    }
  }

  // ---------------------------------------------------------------------
  // str.split(sep) on one character
  // ---------------------------------------------------------------------

  /** Index of the first occurrence of `c` in `s`. */
  function IndexOf(s: string, c: char): (r: Option<nat>)
    ensures r.Some? ==> r.value < |s| && s[r.value] == c && c !in s[..r.value]
    ensures r.None? ==> c !in s
  {
    if s == [] then None
    else if s[0] == c then Some(0)
    else match IndexOf(s[1..], c)
      case None => None
      case Some(i) =>
        assert s[..i + 1] == [s[0]] + s[1..][..i];
        Some(i + 1)
  }

  /** The first `c` after a `c`-free prefix is found right after it. */
  lemma {:induction false} IndexOfAfter(x: string, c: char, y: string)
    requires c !in x
    ensures IndexOf(x + [c] + y, c) == Some(|x|)
  {
    if x != [] {
      assert (x + [c] + y)[1..] == x[1..] + [c] + y;
      IndexOfAfter(x[1..], c, y);
    }
  }

  /** `s.split(c)`: the pieces between occurrences of `c`, always at least one. */
  function SplitOn(s: string, c: char): (ps: seq<string>)
    ensures |ps| >= 1
    ensures forall i :: 0 <= i < |ps| ==> c !in ps[i]
    decreases |s|
  {
    match IndexOf(s, c)
    case None => [s]
    case Some(i) => [s[..i]] + SplitOn(s[i + 1..], c)
  }

  /** `c.join(ps)`. */
  function JoinOn(ps: seq<string>, c: char): string
    requires |ps| >= 1
  {
    if |ps| == 1 then ps[0] else ps[0] + [c] + JoinOn(ps[1..], c)
  }

  /** Joining the pieces of a split with the separator restores the string. */
  lemma {:induction false} JoinOnSplitOn(s: string, c: char)
    ensures JoinOn(SplitOn(s, c), c) == s
    decreases |s|
  {
    match IndexOf(s, c)
    case None =>
    case Some(i) =>
      var ps := SplitOn(s, c);
      var tail := SplitOn(s[i + 1..], c);
      assert ps == [s[..i]] + tail;
      assert ps[1..] == tail;
      assert JoinOn(ps, c) == s[..i] + [c] + JoinOn(tail, c);
      JoinOnSplitOn(s[i + 1..], c);
      assert s == s[..i] + [c] + s[i + 1..];
  }

  /** The pieces of a split hold only characters of the string. */
  lemma {:induction false} SplitOnKeepsChars(s: string, c: char, ok: char -> bool)
    requires AllChars(s, ok)
    ensures forall i :: 0 <= i < |SplitOn(s, c)| ==> AllChars(SplitOn(s, c)[i], ok)
    decreases |s|
  {
    match IndexOf(s, c)
    case None =>
    case Some(i) =>
      var t := s[i + 1..];
      assert AllChars(s[..i], ok) by {
        assert forall j :: 0 <= j < i ==> s[..i][j] == s[j];
      }
      assert AllChars(t, ok) by {
        assert forall j :: 0 <= j < |t| ==> t[j] == s[i + 1 + j];
      }
      SplitOnKeepsChars(t, c, ok);
  }

  // ---------------------------------------------------------------------
  // Substrings
  // ---------------------------------------------------------------------

  predicate OccursAt(s: string, sub: string, i: int) {
    0 <= i && i + |sub| <= |s| && s[i..i + |sub|] == sub
  }

  /** `sub in s`. */
  predicate Contains(s: string, sub: string) {
    exists i :: 0 <= i <= |s| && OccursAt(s, sub, i)
  }

  /** `s.find(sub, k)`: the first occurrence of `sub` at or after `k`. */
  function FindFrom(s: string, sub: string, k: nat): (r: Option<nat>)
    ensures r.Some? ==> k <= r.value && OccursAt(s, sub, r.value)
    ensures r.Some? ==> forall j :: k <= j < r.value ==> !OccursAt(s, sub, j)
    ensures r.None? ==> forall j :: k <= j ==> !OccursAt(s, sub, j)
    decreases |s| - k
  {
    if k + |sub| > |s| then None
    else if s[k..k + |sub|] == sub then Some(k)
    else FindFrom(s, sub, k + 1)
  }

  // ---------------------------------------------------------------------
  // str.strip()
  // ---------------------------------------------------------------------

  /** Drop the leading characters that `k` calls whitespace. */
  function StripLeft(s: string, k: Blanks): (r: string)
    ensures r == [] || !IsBlank(k, r[0])
    ensures |r| <= |s| && r == s[|s| - |r|..]
  {
    if s != [] && IsBlank(k, s[0]) then StripLeft(s[1..], k) else s
  }

  /** Drop the trailing characters that `k` calls whitespace. */
  function StripRight(s: string, k: Blanks): (r: string)
    ensures r == [] || !IsBlank(k, r[|r| - 1])
    ensures r <= s
  {
    if s != [] && IsBlank(k, s[|s| - 1]) then StripRight(s[..|s| - 1], k) else s
  }

  /** Strip with the whitespace class `k`: what is left is one slice of
      `s`, neither end of which is whitespace. */
  function StripBy(s: string, k: Blanks): (r: string)
    ensures r == [] || (!IsBlank(k, r[0]) && !IsBlank(k, r[|r| - 1]))
    ensures |r| <= |s|
    ensures r <= StripLeft(s, k)
  {
    var l := StripLeft(s, k);
    var r := StripRight(l, k);
    StripSlice(s, l, r, k);
    r
  }

  /** A left-stripped suffix, right-stripped, is a slice of the original
      with non-blank ends. */
  lemma StripSlice(s: string, l: string, r: string, k: Blanks)
    requires |l| <= |s| && l == s[|s| - |l|..] && (l == [] || !IsBlank(k, l[0]))
    requires r <= l && (r == [] || !IsBlank(k, r[|r| - 1]))
    ensures r == [] || (!IsBlank(k, r[0]) && !IsBlank(k, r[|r| - 1]))
    ensures var a := |s| - |l|; a + |r| <= |s| && r == s[a..a + |r|]
  {
    SliceOfSuffix(s, l, r);
  }

  /** A prefix of a suffix is a slice, and starts where the suffix does. */
  lemma SliceOfSuffix(s: string, l: string, r: string)
    requires |l| <= |s| && l == s[|s| - |l|..] && r <= l
    ensures var a := |s| - |l|; a + |r| <= |s| && r == s[a..a + |r|]
    ensures r == [] || r[0] == l[0]
  {
    assert r == l[..|r|];
  }

  /** Only whitespace goes at the front. */
  lemma {:induction false} StripLeftMaximal(s: string, k: Blanks)
    ensures forall i :: 0 <= i < |s| - |StripLeft(s, k)| ==> IsBlank(k, s[i])
  {
    if s != [] && IsBlank(k, s[0]) {
      StripLeftMaximal(s[1..], k);
      assert forall i :: 1 <= i < |s| ==> s[i] == s[1..][i - 1];
    }
  }

  /** Only whitespace goes at the back. */
  lemma {:induction false} StripRightMaximal(s: string, k: Blanks)
    ensures forall i :: |StripRight(s, k)| <= i < |s| ==> IsBlank(k, s[i])
  {
    if s != [] && IsBlank(k, s[|s| - 1]) {
      StripRightMaximal(s[..|s| - 1], k);
    }
  }

  /** Stripping removes whitespace only: every character before and after
      the kept slice is whitespace, so the slice is the largest one with
      non-whitespace ends. */
  lemma StripByMaximal(s: string, k: Blanks)
    ensures var a := |s| - |StripLeft(s, k)|;
      var r := StripBy(s, k);
      && (forall i :: 0 <= i < a ==> IsBlank(k, s[i]))
      && (forall i :: a + |r| <= i < |s| ==> IsBlank(k, s[i]))
  {
    var l := StripLeft(s, k);
    var r := StripRight(l, k);
    StripLeftMaximal(s, k);
    StripRightMaximal(l, k);
    SpacedSuffix(s, l, r, k);
  }

  /** Whitespace trailing a suffix of `s` trails `s` too. */
  lemma SpacedSuffix(s: string, l: string, r: string, k: Blanks)
    requires |l| <= |s| && l == s[|s| - |l|..] && r <= l
    requires forall i :: |r| <= i < |l| ==> IsBlank(k, l[i])
    ensures forall i :: |s| - |l| + |r| <= i < |s| ==> IsBlank(k, s[i])
  {
    var a := |s| - |l|;
    forall i | a + |r| <= i < |s|
      ensures IsBlank(k, s[i])
    {
      assert s[i] == l[i - a];
    }
  }

  /** `str.strip()`: neither end of the result is whitespace, and it is
      empty exactly when the whole input is whitespace. */
  function Strip(s: string): (r: string)
    ensures |r| <= |s|
    ensures r == [] || (!IsSpace(r[0]) && !IsSpace(r[|r| - 1]))
    ensures r == [] <==> forall i :: 0 <= i < |s| ==> IsSpace(s[i])
  {
    var r := StripBy(s, StrBlanks);
    StripByMaximal(s, StrBlanks);
    assert r == [] ==> forall i :: 0 <= i < |s| ==> IsSpace(s[i]) by {
      var a := |s| - |StripLeft(s, StrBlanks)|;
      if r == [] {
        forall i | 0 <= i < |s|
          ensures IsSpace(s[i])
        {
          assert i < a || a + |r| <= i;
        }
      }
    }
    assert r != [] ==> !IsSpace(s[|s| - |StripLeft(s, StrBlanks)|]);
    r
  }

  /** Whitespace around a piece with non-whitespace ends is exactly what
      stripping removes. */
  lemma StripOfPadded(a: string, d: string, b: string, k: Blanks)
    requires forall i :: 0 <= i < |a| ==> IsBlank(k, a[i])
    requires forall i :: 0 <= i < |b| ==> IsBlank(k, b[i])
    requires d != [] && !IsBlank(k, d[0]) && !IsBlank(k, d[|d| - 1])
    ensures StripBy(a + d + b, k) == d
  {
    var s := a + d + b;
    PaddedBlanks(a, d, b, k);
    StripBetween(s, |a|, |a| + |d|, k);
    MiddleSlice(a, d, b, s);
  }

  /** When only blanks lie outside `s[lo..hi]` and its ends are not blank,
      stripping keeps exactly that slice. */
  lemma StripBetween(s: string, lo: nat, hi: nat, k: Blanks)
    requires lo < hi <= |s| && !IsBlank(k, s[lo]) && !IsBlank(k, s[hi - 1])
    requires forall i :: 0 <= i < lo ==> IsBlank(k, s[i])
    requires forall i :: hi <= i < |s| ==> IsBlank(k, s[i])
    ensures StripBy(s, k) == s[lo..hi]
  {
    var m := StripEnds(s, lo, hi, k);
    StripByEnds(s, m, k);
  }

  lemma StripByEnds(s: string, m: string, k: Blanks)
    requires StripRight(StripLeft(s, k), k) == m
    ensures StripBy(s, k) == m
  {
  }

  lemma StripEnds(s: string, lo: nat, hi: nat, k: Blanks) returns (m: string)
    requires lo < hi <= |s| && !IsBlank(k, s[lo]) && !IsBlank(k, s[hi - 1])
    requires forall i :: 0 <= i < lo ==> IsBlank(k, s[i])
    requires forall i :: hi <= i < |s| ==> IsBlank(k, s[i])
    ensures m == s[lo..hi] && StripRight(StripLeft(s, k), k) == m
  {
    StripLeftAt(s, lo, k);
    m := RightOfSuffix(s, StripLeft(s, k), lo, hi, k);
  }

  /** Stripping the right of the suffix from `lo` stops at `hi`. */
  lemma RightOfSuffix(s: string, l: string, lo: nat, hi: nat, k: Blanks) returns (m: string)
    requires lo < hi <= |s| && l == s[lo..]
    requires !IsBlank(k, s[hi - 1])
    requires forall i :: hi <= i < |s| ==> IsBlank(k, s[i])
    ensures m == s[lo..hi] && StripRight(l, k) == m
  {
    SuffixBlanks(s, l, lo, hi, k);
    StripRightAt(l, hi - lo, k);
    m := l[..hi - lo];
    assert m == s[lo..hi];
  }

  /** The blanks after `hi`, seen from the suffix starting at `lo`. */
  lemma SuffixBlanks(s: string, l: string, lo: nat, hi: nat, k: Blanks)
    requires lo < hi <= |s| && l == s[lo..]
    requires !IsBlank(k, s[hi - 1])
    requires forall i :: hi <= i < |s| ==> IsBlank(k, s[i])
    ensures 0 < hi - lo <= |l| && !IsBlank(k, l[hi - lo - 1])
    ensures forall i :: hi - lo <= i < |l| ==> IsBlank(k, l[i])
  {
    assert forall i :: hi - lo <= i < |l| ==> l[i] == s[lo + i];
  }

  /** The left strip starts at the first non-blank character. */
  lemma {:induction false} StripLeftAt(s: string, lo: nat, k: Blanks)
    requires lo < |s| && !IsBlank(k, s[lo])
    requires forall i :: 0 <= i < lo ==> IsBlank(k, s[i])
    ensures StripLeft(s, k) == s[lo..]
    decreases lo
  {
    if lo > 0 {
      var t := s[1..];
      assert IsBlank(k, s[0]);
      assert forall i :: 0 <= i < lo - 1 ==> t[i] == s[i + 1];
      StripLeftAt(t, lo - 1, k);
      assert t[lo - 1..] == s[lo..];
    }
  }

  /** The right strip ends after the last non-blank character. */
  lemma {:induction false} StripRightAt(s: string, hi: nat, k: Blanks)
    requires 0 < hi <= |s| && !IsBlank(k, s[hi - 1])
    requires forall i :: hi <= i < |s| ==> IsBlank(k, s[i])
    ensures StripRight(s, k) == s[..hi]
    decreases |s| - hi
  {
    if hi < |s| {
      var t := s[..|s| - 1];
      assert IsBlank(k, s[|s| - 1]);
      StripRightAt(t, hi, k);
      assert t[..hi] == s[..hi];
    } else {
      assert s[..hi] == s;
    }
  }

  /** The blanks of `a + d + b`, seen by index. */
  lemma PaddedBlanks(a: string, d: string, b: string, k: Blanks)
    requires forall i :: 0 <= i < |a| ==> IsBlank(k, a[i])
    requires forall i :: 0 <= i < |b| ==> IsBlank(k, b[i])
    requires d != [] && !IsBlank(k, d[0]) && !IsBlank(k, d[|d| - 1])
    ensures var s := a + d + b;
      && (forall i :: 0 <= i < |a| ==> IsBlank(k, s[i]))
      && (forall i :: |a| + |d| <= i < |s| ==> IsBlank(k, s[i]))
      && !IsBlank(k, s[|a|]) && !IsBlank(k, s[|a| + |d| - 1])
  {
    var s := a + d + b;
    assert forall i :: 0 <= i < |a| ==> s[i] == a[i];
    assert forall i :: |a| + |d| <= i < |s| ==> s[i] == b[i - |a| - |d|];
    assert s[|a|] == d[0] && s[|a| + |d| - 1] == d[|d| - 1];
  }

  lemma MiddleSlice(a: string, d: string, b: string, s: string)
    requires s == a + d + b
    ensures s[|a|..|a| + |d|] == d
  {
    assert s == a + (d + b);
  }

  /** Stripping only removes characters. */
  lemma StripKeepsChars(s: string, ok: char -> bool)
    requires AllChars(s, ok)
    ensures AllChars(Strip(s), ok)
  {
    var l := StripLeft(s, StrBlanks);
    assert AllChars(l, ok) by {
      assert forall i :: 0 <= i < |l| ==> l[i] == s[|s| - |l| + i];
    }
    var r := StripRight(l, StrBlanks);
    assert forall i :: 0 <= i < |r| ==> r[i] == l[i];
  }

  /** A string with no whitespace at either end is its own strip. */
  lemma StripUnchanged(s: string, k: Blanks)
    requires s == [] || (!IsBlank(k, s[0]) && !IsBlank(k, s[|s| - 1]))
    ensures StripBy(s, k) == s
  {
  }

  // ---------------------------------------------------------------------
  // str(int) and int(str)
  // ---------------------------------------------------------------------

  function Digit(d: nat): char
    requires d < 10
  {
    ('0' as int + d) as char
  }

  /** `str(n)` for a natural number: its decimal digits, no leading zero. */
  function NatStr(n: nat): (r: string)
    ensures IsDecimal(r)
    ensures r[0] == '0' ==> n == 0
  {
    if n < 10 then [Digit(n)] else NatStr(n / 10) + [Digit(n % 10)]
  }

  /** `str(i)` for any integer. */
  function IntStr(i: int): (r: string)
    ensures |r| > 0 && !IsSpace(r[0]) && !IsSpace(r[|r| - 1])
    ensures forall k :: 0 <= k < |r| ==> IsDigit(r[k]) || r[k] == '-'
  {
    if i >= 0 then NatStr(i) else "-" + NatStr(-i)
  }

  function DigitValue(c: char): nat
    requires IsDigit(c)
  {
    c as int - '0' as int
  }

  /** The value of a string of decimal digits. */
  function DigitsValue(s: string): nat
    requires forall i :: 0 <= i < |s| ==> IsDigit(s[i])
  {
    if s == [] then 0
    else DigitsValue(s[..|s| - 1]) * 10 + DigitValue(s[|s| - 1])
  }

  lemma {:induction false} DigitsValueOfNatStr(n: nat)
    ensures DigitsValue(NatStr(n)) == n
  {
    if n >= 10 {
      var s := NatStr(n);
      assert s[..|s| - 1] == NatStr(n / 10);
      DigitsValueOfNatStr(n / 10);
    }
  }

  /** Number of decimal digits grows with the number. */
  lemma {:induction false} NatStrLengthMonotone(a: nat, b: nat)
    requires a <= b
    ensures |NatStr(a)| <= |NatStr(b)|
  {
    if a >= 10 {
      NatStrLengthMonotone(a / 10, b / 10);
    }
  }

  /** No two underscores in a row. */
  predicate NoDoubleUnderscore(b: string) {
    |b| < 2 || (!(b[0] == '_' && b[1] == '_') && NoDoubleUnderscore(b[1..]))
  }

  /** Digits and single underscores between digits, as `int()` accepts. */
  predicate IsUnderscoredDigits(b: string) {
    && |b| > 0
    && IsDigit(b[0]) && IsDigit(b[|b| - 1])
    && (forall i :: 0 <= i < |b| ==> IsDigit(b[i]) || b[i] == '_')
    && NoDoubleUnderscore(b)
  }

  function DropUnderscores(b: string): (r: string)
    requires forall i :: 0 <= i < |b| ==> IsDigit(b[i]) || b[i] == '_'
    ensures forall i :: 0 <= i < |r| ==> IsDigit(r[i])
    ensures |r| <= |b|
  {
    if b == [] then []
    else (if b[0] == '_' then [] else [b[0]]) + DropUnderscores(b[1..])
  }

  lemma DigitsAreUnderscored(b: string)
    requires IsDecimal(b)
    ensures IsUnderscoredDigits(b)
    ensures DropUnderscores(b) == b
  {
    if |b| >= 2 {
      DigitsAreUnderscored(b[1..]);
    }
  }

  /** The unsigned part of `int()`: underscored digits and their value. */
  function ParseUnsigned(b: string): Option<nat> {
    if IsUnderscoredDigits(b) then Some(DigitsValue(DropUnderscores(b))) else None
  }

  /** `int()` after stripping: an optional sign and an unsigned part. */
  function ParseSigned(t: string): Option<int> {
    if t != [] && (t[0] == '+' || t[0] == '-') then
      match ParseUnsigned(t[1..])
      case None => None
      case Some(v) =>
        var n: int := v;
        Some(if t[0] == '-' then -n else n)
    else
      match ParseUnsigned(t)
      case None => None
      case Some(v) => Some(v)
  }

  /** `int(s)` in base 10: surrounding whitespace, an optional sign, then
      digits possibly grouped by single underscores. `None` is the
      `ValueError` Python raises. */
  function PyInt(s: string): Option<int> {
    ParseSigned(StripBy(s, IntBlanks))
  }

  /** `int()` needs a digit: a line of whitespace, signs and underscores
      raises, and so does a line of `int()`'s whitespace alone. */
  lemma PyIntHasDigit(s: string)
    ensures PyInt(s).Some? ==> HasDigit(s)
    ensures (forall i :: 0 <= i < |s| ==> IsIntSpace(s[i])) ==> PyInt(s).None?
  {
    if PyInt(s).Some? {
      StrippedDigit(s, StripBy(s, IntBlanks));
    }
  }

  predicate HasDigit(s: string) {
    exists i :: 0 <= i < |s| && IsDigit(s[i])
  }

  /** A digit of the stripped literal is a digit of the line. */
  lemma StrippedDigit(s: string, t: string)
    requires t == StripBy(s, IntBlanks) && ParseSigned(t).Some?
    ensures HasDigit(s)
  {
    var j := SignedDigit(t);
    var a := |s| - |StripLeft(s, IntBlanks)|;
    assert s[a + j] == t[j];
  }

  /** A literal `int()` accepts holds a digit. */
  lemma SignedDigit(t: string) returns (j: nat)
    requires ParseSigned(t).Some?
    ensures j < |t| && IsDigit(t[j])
  {
    if t != [] && (t[0] == '+' || t[0] == '-') {
      assert IsUnderscoredDigits(t[1..]);
      j := 1;
    } else {
      assert IsUnderscoredDigits(t);
      j := 0;
    }
  }

  lemma ParseUnsignedOfDecimal(s: string)
    requires IsDecimal(s)
    ensures ParseUnsigned(s) == Some(DigitsValue(s))
  {
    DigitsAreUnderscored(s);
    var d := DropUnderscores(s);
    assert d == s;
  }

  /** A decimal string parses to the number its digits spell. */
  lemma PyIntOfDecimal(s: string)
    requires IsDecimal(s)
    ensures PyInt(s) == Some(DigitsValue(s))
  {
    assert IsDigit(s[0]) && IsDigit(s[|s| - 1]);
    StripUnchanged(s, IntBlanks);
    ParseSignedOfDecimal(s);
  }

  lemma ParseSignedOfDecimal(s: string)
    requires IsDecimal(s)
    ensures ParseSigned(s) == Some(DigitsValue(s))
  {
    assert IsDigit(s[0]);
    ParseUnsignedOfDecimal(s);
  }

  /** A decimal string with `int()`'s own whitespace around it parses to
      the number its digits spell. */
  lemma PyIntOfPadded(a: string, d: string, b: string)
    requires forall i :: 0 <= i < |a| ==> IsIntSpace(a[i])
    requires forall i :: 0 <= i < |b| ==> IsIntSpace(b[i])
    requires IsDecimal(d)
    ensures PyInt(a + d + b) == Some(DigitsValue(d))
  {
    assert IsDigit(d[0]) && IsDigit(d[|d| - 1]);
    StripOfPadded(a, d, b, IntBlanks);
    PyIntOfDecimal(d);
  }

  /** `int(str(i)) == i`. */
  lemma IntStrRoundTrip(i: int)
    ensures PyInt(IntStr(i)) == Some(i)
  {
    var s := IntStr(i);
    if i >= 0 {
      PyIntOfDecimal(s);
      DigitsValueOfNatStr(i);
    } else {
      StripUnchanged(s, IntBlanks);
      NegativeIntStr(i, s);
    }
  }

  /** The sign and digits of a negative number's `str` parse back. */
  lemma NegativeIntStr(i: int, s: string)
    requires i < 0 && s == IntStr(i)
    ensures ParseSigned(s) == Some(i)
  {
    var d := NatStr(-i);
    assert s[1..] == d;
    DigitsAreUnderscored(d);
    DigitsValueOfNatStr(-i);
    assert ParseUnsigned(d) == Some(-i);
  }
}

=== FILE: scan.dfy ===
/** Explicit scanners for the regular expressions of the markup layer.
    Each pattern has the shape `OPEN (.+?) CLOSE`: a lazy group of at
    least one character other than a line feed, ended by the first
    occurrence of the closing delimiter. `re.sub` applies such a pattern
    left to right, without overlaps. */
module Scan {
  import opened Wrappers
  import opened PyStr

  /** `r[..k]` is a valid lazy `(.+?)` group followed by `close` at `k`:
      it is non-empty, free of line feeds, and no earlier position `j >= 1`
      already starts `close`. This is the regular-expression meaning. */
  predicate LazyClose(r: string, close: string, k: int) {
    && 1 <= k
    && OccursAt(r, close, k)
    && NoNewline(r, 0, k)
    && forall j :: 1 <= j < k ==> !OccursAt(r, close, j)
  }

  /** No line feed among `r[a..b]`. */
  predicate NoNewline(r: string, a: int, b: int) {
    forall i :: a <= i < b && 0 <= i < |r| ==> r[i] != '\n'
  }

  /** The scan behind `FindClose`: tries group lengths `k, k + 1, ...`
      and stops at a line feed. */
  function CloseScan(r: string, close: string, k: nat): (res: Option<nat>)
    requires k >= 1 && |close| >= 1
    ensures res.Some? ==> k <= res.value && res.value + |close| <= |r|
    decreases |r| - k
  {
    if k + |close| > |r| then None
    else if r[k - 1] == '\n' then None
    else if r[k..k + |close|] == close then Some(k)
    else CloseScan(r, close, k + 1)
  }

  /** What the scan from `k` finds: the first delimiter at `k` or later,
      with no line feed before it. */
  lemma {:induction false} CloseScanFound(r: string, close: string, k: nat)
    requires k >= 1 && |close| >= 1
    requires CloseScan(r, close, k).Some?
    ensures var j := CloseScan(r, close, k).value;
      && OccursAt(r, close, j) && NoNewline(r, k - 1, j)
      && forall i :: k <= i < j ==> !OccursAt(r, close, i)
    decreases |r| - k
  {
    if r[k..k + |close|] != close {
      var j := CloseScan(r, close, k + 1).value;
      assert CloseScan(r, close, k) == Some(j);
      CloseScanFound(r, close, k + 1);
      assert r[k - 1] != '\n' && !OccursAt(r, close, k);
    }
  }

  /** When the scan from `k` finds nothing, every delimiter at `k` or later
      has a line feed before it. */
  lemma {:induction false} CloseScanMissing(r: string, close: string, k: nat)
    requires k >= 1 && |close| >= 1
    requires CloseScan(r, close, k).None?
    ensures forall j :: k <= j && OccursAt(r, close, j) ==> !NoNewline(r, k - 1, j)
    decreases |r| - k
  {
    if k + |close| <= |r| && r[k - 1] != '\n' {
      CloseScanMissing(r, close, k + 1);
    }
  }

  /** Length of the lazy group that `(.+?)` followed by `close` matches at
      the start of `r`, if any. */
  function FindClose(r: string, close: string): (res: Option<nat>)
    requires |close| >= 1
    ensures res.Some? ==> 1 <= res.value && res.value + |close| <= |r|
  {
    CloseScan(r, close, 1)
  }

  /** `FindClose` finds exactly the group the regular expression matches,
      and fails exactly when there is none. */
  lemma FindCloseIsLazy(r: string, close: string)
    requires |close| >= 1
    ensures FindClose(r, close).Some? ==> LazyClose(r, close, FindClose(r, close).value)
    ensures FindClose(r, close).None? ==> forall k :: !LazyClose(r, close, k)
  {
    if FindClose(r, close).Some? {
      CloseScanFound(r, close, 1);
    } else {
      CloseScanMissing(r, close, 1);
    }
  }

  /** The scan reaches the delimiter that ends a line-feed-free group with
      no earlier delimiter start. */
  lemma {:induction false} CloseScanAt(c: string, close: string, y: string, k: nat)
    requires 1 <= k <= |c| && |close| >= 1
    requires '\n' !in c && close[0] !in c
    ensures CloseScan(c + close + y, close, k) == Some(|c|)
    decreases |c| - k
  {
    var r := c + close + y;
    assert r[k - 1] == c[k - 1];
    if k < |c| {
      assert r[k..k + |close|][0] == c[k];
      CloseScanAt(c, close, y, k + 1);
    } else {
      assert r[k..k + |close|] == close;
    }
  }

  /** A closing delimiter that ends a line-feed-free group with no earlier
      delimiter start is found there. */
  lemma FindCloseAt(c: string, close: string, y: string)
    requires |c| >= 1 && |close| >= 1
    requires '\n' !in c && close[0] !in c
    ensures FindClose(c + close + y, close) == Some(|c|)
  {
    CloseScanAt(c, close, y, 1);
  }

  // ---------------------------------------------------------------------
  // re.sub for OPEN (.+?) CLOSE  ->  PRE group POST
  // ---------------------------------------------------------------------

  /** Does a whole span `open group close` start at the head of `s`? */
  predicate SpanAtHead(s: string, open: string, close: string)
    requires |close| >= 1
  {
    |open| <= |s| && s[..|open|] == open && FindClose(s[|open|..], close).Some?
  }

  /** `re.sub(OPEN (.+?) CLOSE, PRE + group + POST, s)`. */
  function SubSpans(s: string, open: string, close: string, pre: string, post: string): string
    requires |open| >= 1 && |close| >= 1
    decreases |s|
  {
    if s == [] then []
    else if SpanAtHead(s, open, close) then
      var r := s[|open|..];
      var k := FindClose(r, close).value;
      pre + r[..k] + post + SubSpans(r[k + |close|..], open, close, pre, post)
    else
      [s[0]] + SubSpans(s[1..], open, close, pre, post)
  }

  /** Text that never starts the opening delimiter is copied through. */
  lemma {:induction false} SubSpansPlainPrefix(x: string, y: string, open: string, close: string, pre: string, post: string)
    requires |open| >= 1 && |close| >= 1
    requires open[0] !in x
    ensures SubSpans(x + y, open, close, pre, post) == x + SubSpans(y, open, close, pre, post)
  {
    if x != [] {
      var s := x + y;
      assert s[0] == x[0];
      assert s[1..] == x[1..] + y;
      assert !SpanAtHead(s, open, close) by {
        if |open| <= |s| {
          assert s[..|open|][0] == x[0];
        }
      }
      SubSpansPlainPrefix(x[1..], y, open, close, pre, post);
      assert SubSpans(s, open, close, pre, post) == [s[0]] + SubSpans(s[1..], open, close, pre, post);
      assert x == [x[0]] + x[1..];
    } else {
      assert x + y == y;
    }
  }

  /** A string without the opening delimiter's first character is unchanged. */
  lemma SubSpansPlain(x: string, open: string, close: string, pre: string, post: string)
    requires |open| >= 1 && |close| >= 1
    requires open[0] !in x
    ensures SubSpans(x, open, close, pre, post) == x
  {
    SubSpansPlainPrefix(x, [], open, close, pre, post);
    assert x + [] == x;
  }

  /** One complete span at the head is rewritten, and scanning resumes after it. */
  lemma SubSpansOne(c: string, y: string, open: string, close: string, pre: string, post: string)
    requires |open| >= 1 && |close| >= 1 && |c| >= 1
    requires '\n' !in c && close[0] !in c
    ensures SubSpans(open + c + close + y, open, close, pre, post)
         == pre + c + post + SubSpans(y, open, close, pre, post)
  {
    var s := open + c + close + y;
    var r := s[|open|..];
    assert r == c + close + y;
    FindCloseAt(c, close, y);
    assert s[..|open|] == open;
    assert r[..|c|] == c;
    assert r[|c| + |close|..] == y;
  }
}

=== FILE: spinner.dfy ===
/** The `awaiter` loader with its thread and clock taken out: entering the
    context rewinds the glyph index and starts the loop, each pass of the
    loop prints one frame and advances the index, and leaving the context
    stops the loop. Time is a number of passes. */
module Spinner {
  import opened Wrappers
  import opened Style
  import opened AnsiWidth
  import opened Box

  /** The loader's state: its description, its glyphs, the index of the
      next glyph and the `running` flag the loop polls. */
  datatype Awaiter = Awaiter(desc: string, chars: string, index: nat, running: bool)

  /** The default glyphs of a loader. */
  const DefaultChars: string := "/-\\|"

  /** `awaiter(desc, chars)`: stopped, at the first glyph. */
  function Init(desc: string, chars: string): (a: Awaiter)
    ensures a.desc == desc && a.chars == chars
    ensures !a.running && a.index == 0
  {
    Awaiter(desc, chars, 0, false)
  }

  /** `__enter__`: back to the first glyph, and running. */
  function Enter(a: Awaiter): (r: Awaiter)
    ensures r.desc == a.desc && r.chars == a.chars
    ensures r.running && r.index == 0
  {
    a.(index := 0, running := true)
  }

  /** `__exit__`: stopped, the index left where it was. */
  function Exit(a: Awaiter): (r: Awaiter)
    ensures r.desc == a.desc && r.chars == a.chars && r.index == a.index
    ensures !r.running
  {
    a.(running := false)
  }

  /** The glyph the next pass shows, `chars[index % len(chars)]`. With no
      glyphs the modulo raises and the loop ends: `None`. */
  function Glyph(a: Awaiter): (g: Option<char>)
    ensures g.Some? <==> a.chars != []
    ensures g.Some? ==> g.value in a.chars
  {
    if a.chars == [] then None else Some(a.chars[a.index % |a.chars|])
  }

  /** What one pass prints for glyph `c`: a carriage return, the
      description in the font colour, a space, and the glyph in the border
      colour. */
  function Frame(cfg: Config, desc: string, c: char): (r: string)
    ensures |r| > 0 && r[0] == '\r'
    ensures QuietColors(cfg) && ESC !in desc && c != ESC ==> Visible(r) == "\r" + (desc + " " + [c])
  {
    var body := Ansi(cfg.fontColor) + ((desc + " ") + Framed(cfg.borderColor, [c]));
    assert QuietColors(cfg) && ESC !in desc && c != ESC ==> Visible("\r" + body) == "\r" + (desc + " " + [c]) by {
      if QuietColors(cfg) && ESC !in desc && c != ESC {
        ColoredGlyphVisible(cfg, desc, c);
        CarriageReturnVisible(body);
      }
    }
    "\r" + body
  }

  /** The state after one pass and the glyph whose frame that pass
      printed. */
  datatype Step = Step(state: Awaiter, shown: Option<char>)

  /** One pass of `_run`'s `while self.running` loop. */
  function Tick(a: Awaiter): (r: Step)
    ensures r.state.desc == a.desc && r.state.chars == a.chars && r.state.running == a.running
    ensures r.shown.Some? <==> a.running && a.chars != []
    ensures r.shown.Some? ==> r.shown == Glyph(a) && r.state.index == a.index + 1
    ensures r.shown.None? ==> r.state == a
  {
    if !a.running then Step(a, None)
    else match Glyph(a)
      case None => Step(a, None)
      case Some(c) => Step(a.(index := a.index + 1), Some(c))
  }

  /** The glyphs shown by `n` passes, in order, and the state they leave. */
  datatype Trace = Trace(state: Awaiter, shown: seq<char>)

  function Run(a: Awaiter, n: nat): (t: Trace)
    ensures |t.shown| <= n
    decreases n
  {
    if n == 0 then Trace(a, [])
    else
      var s := Tick(a);
      var t := Run(s.state, n - 1);
      Trace(t.state, (if s.shown.Some? then [s.shown.value] else []) + t.shown)
  }

  /** The frames the passes print, one per glyph shown. */
  function Frames(cfg: Config, desc: string, shown: seq<char>): (r: seq<string>)
    ensures |r| == |shown|
    ensures forall k :: 0 <= k < |shown| ==> r[k] == Frame(cfg, desc, shown[k])
  {
    seq(|shown|, k requires 0 <= k < |shown| => Frame(cfg, desc, shown[k]))
  }

  // ---------------------------------------------------------------------
  // The glyph sequence
  // ---------------------------------------------------------------------

  /** Glyph `i` of the endless cycle through `chars`. */
  function Cycle(chars: string, i: nat): (c: char)
    requires chars != []
    ensures c in chars
  {
    chars[i % |chars|]
  }

  /** Multiplying by a positive `n` keeps a whole number at least `n`
      away from zero. */
  lemma MulSign(k: int, n: int)
    requires n > 0
    ensures k >= 1 ==> k * n >= n
    ensures k <= -1 ==> k * n <= -n
  {
    assert k * n - n == (k - 1) * n;
    assert k * n + n == (k + 1) * n;
  }

  lemma ModShift(i: nat, n: nat)
    requires n > 0
    ensures (i + n) % n == i % n
  {
    var q0, r0 := i / n, i % n;
    var q1, r1 := (i + n) / n, (i + n) % n;
    assert (q1 - q0 - 1) * n == r0 - r1 by {
      assert q1 * n + r1 == q0 * n + r0 + n;
      assert (q1 - q0 - 1) * n == q1 * n - q0 * n - n;
    }
    MulSign(q1 - q0 - 1, n);
  }

  lemma ModSmall(j: nat, n: nat)
    requires j < n
    ensures j % n == j
  {
  }

  lemma CycleShift(chars: string, i: nat)
    requires chars != []
    ensures Cycle(chars, i + |chars|) == Cycle(chars, i)
  {
    ModShift(i, |chars|);
  }

  /** While running, pass `k` shows glyph `index + k` of the cycle, and `n`
      passes advance the index by `n`. */
  lemma {:induction false} RunShows(a: Awaiter, n: nat)
    requires a.running && a.chars != []
    ensures var t := Run(a, n);
      && |t.shown| == n
      && t.state == a.(index := a.index + n)
      && forall k :: 0 <= k < n ==> t.shown[k] == Cycle(a.chars, a.index + k)
    decreases n
  {
    if n > 0 {
      var b := a.(index := a.index + 1);
      assert Tick(a) == Step(b, Some(Cycle(a.chars, a.index)));
      RunShows(b, n - 1);
      var rest := Run(b, n - 1).shown;
      var all := Run(a, n).shown;
      assert all == [Cycle(a.chars, a.index)] + rest;
      forall k | 1 <= k < n
        ensures all[k] == Cycle(a.chars, a.index + k)
      {
        assert all[k] == rest[k - 1];
        assert b.index + (k - 1) == a.index + k;
      }
    }
  }

  /** After entering, pass `k` shows glyph `k % len(chars)`, whatever the
      index was before. */
  lemma EnterRun(a: Awaiter, n: nat)
    requires a.chars != []
    ensures var t := Run(Enter(a), n);
      && |t.shown| == n && t.state.index == n && t.state.running
      && forall k :: 0 <= k < n ==> t.shown[k] == a.chars[k % |a.chars|]
  {
    RunShows(Enter(a), n);
  }

  /** The glyphs repeat with period `len(chars)`. */
  lemma GlyphPeriodic(a: Awaiter)
    ensures Glyph(a.(index := a.index + |a.chars|)) == Glyph(a)
  {
    if a.chars != [] {
      CycleShift(a.chars, a.index);
    }
  }

  /** The first `len(chars)` passes after entering show the glyphs in
      order, each once. */
  lemma EveryGlyphShown(a: Awaiter)
    requires a.chars != []
    ensures Run(Enter(a), |a.chars|).shown == a.chars
  {
    EnterRun(a, |a.chars|);
    var t := Run(Enter(a), |a.chars|);
    forall j | 0 <= j < |a.chars|
      ensures t.shown[j] == a.chars[j]
    {
      ModSmall(j, |a.chars|);
    }
  }

  /** A loader built with the default glyphs spins `/`, `-`, `\`, `|`. */
  lemma DefaultSpin(desc: string)
    ensures Run(Enter(Init(desc, DefaultChars)), 4).shown == DefaultChars
  {
    EveryGlyphShown(Init(desc, DefaultChars));
  }

  /** A stopped loader shows nothing and stays as it is. */
  lemma {:induction false} StoppedRun(a: Awaiter, n: nat)
    requires !a.running
    ensures Run(a, n) == Trace(a, [])
    decreases n
  {
    if n > 0 {
      StoppedRun(a, n - 1);
    }
  }

  /** After leaving the context no pass prints anything. */
  lemma ExitRun(a: Awaiter, n: nat)
    ensures Run(Exit(a), n) == Trace(Exit(a), [])
  {
    StoppedRun(Exit(a), n);
  }

  /** With no glyphs no frame is ever printed. */
  lemma {:induction false} EmptyRun(a: Awaiter, n: nat)
    requires a.chars == []
    ensures Run(a, n) == Trace(a, [])
    decreases n
  {
    if n > 0 {
      EmptyRun(a, n - 1);
    }
  }

  // ---------------------------------------------------------------------
  // What a frame shows
  // ---------------------------------------------------------------------

  /** The coloured part of a frame shows the description, a space and
      the glyph. */
  lemma ColoredGlyphVisible(cfg: Config, desc: string, c: char)
    requires QuietColors(cfg) && ESC !in desc && c != ESC
    ensures Visible(Ansi(cfg.fontColor) + ((desc + " ") + Framed(cfg.borderColor, [c])))
      == desc + " " + [c]
  {
    var spaced := desc + " ";
    var tail := Framed(cfg.borderColor, [c]);
    VisibleFramed(cfg.borderColor, [c]);
    WellEscapedPlain(spaced);
    AnsiLengthOfPlain(spaced);
    VisibleAppend(spaced, tail);
    InvisiblePrefix(cfg.fontColor, spaced + tail);
  }

  lemma CarriageReturnVisible(body: string)
    ensures Visible("\r" + body) == "\r" + Visible(body)
  {
    AnsiLengthPlainPrefix("\r", body);
  }
}

=== FILE: style.dfy ===
/** The style registry and the ANSI encoder: named colour codes (`COLOR`),
    the 256-colour builder (`COLOR.C256`), case-insensitive lookup
    (`COLOR.get`), border glyph presets (`BORDER`) and `_ansi`. */
module Style {
  import opened Wrappers
  import opened PyStr

  /** The escape character that introduces every ANSI sequence. */
  const ESC: char := '\U{001B}'

  // ---------------------------------------------------------------------
  // Colours
  // ---------------------------------------------------------------------

  /** What `_ansi` accepts: an integer SGR code or a string, which may
      already be a complete escape sequence. */
  datatype Code = Num(n: int) | Raw(s: string)

  /** `str(code)`. */
  function CodeStr(c: Code): string {
    match c
    case Num(n) => IntStr(n)
    case Raw(s) => s
  }

  /** `_ansi(code)`: a string already holding an escape character is passed
      through untouched; anything else becomes `ESC [ code m`. */
  function Ansi(c: Code): (r: string)
    ensures ESC in CodeStr(c) ==> r == CodeStr(c)
    ensures ESC !in CodeStr(c) ==> r == [ESC, '['] + CodeStr(c) + "m"
    ensures ESC in r
  {
    if ESC in CodeStr(c) then CodeStr(c) else [ESC, '['] + CodeStr(c) + "m"
  }

  /** `_ansi()` with its default argument. */
  function Reset(): (r: string)
    ensures r == [ESC] + "[0m"
  {
    Ansi(Num(0))
  }

  /** An integer code always becomes `ESC [ digits m`. */
  lemma AnsiOfNum(n: int)
    ensures Ansi(Num(n)) == [ESC, '['] + IntStr(n) + "m"
  {
    var d := IntStr(n);
    assert forall k :: 0 <= k < |d| ==> d[k] != ESC;
  }

  /** Encoding an encoded sequence again changes nothing. */
  lemma AnsiIdempotent(c: Code)
    ensures Ansi(Raw(Ansi(c))) == Ansi(c)
  {
  }

  /** `COLOR.C256(code, mode)`: the extended foreground (`38`) sequence when
      `mode` is `'fg'`, the background (`48`) one for any other mode. */
  function C256(code: int, mode: string): (r: string)
    ensures |r| >= 9 && r[..2] == [ESC, '['] && r[|r| - 1] == 'm'
    ensures r[2..7] == (if mode == "fg" then "38;5;" else "48;5;")
    ensures r[7..|r| - 1] == IntStr(code)
  {
    [ESC, '['] + (if mode == "fg" then "38" else "48") + ";5;" + IntStr(code) + "m"
  }

  /** A 256-colour sequence is passed through `_ansi` unchanged. */
  lemma AnsiOfC256(code: int, mode: string)
    ensures Ansi(Raw(C256(code, mode))) == C256(code, mode)
  {
    assert C256(code, mode)[0] == ESC;
  }

  /** The integer attributes of `COLOR`: the palette offset, the reset code
      and the eight bright colours. */
  const Colors: map<string, int> := map[
    "_OFFSET" := 90,
    "NORMAL"  := 0,
    "GREY"    := 90,
    "RED"     := 91,
    "GREEN"   := 92,
    "YELLOW"  := 93,
    "BLUE"    := 94,
    "MAGENTA" := 95,
    "CYAN"    := 96,
    "WHITE"   := 97
  ]

  /** What `COLOR.get` can hand back: one of the integer attributes, or
      the `C256` builder itself (the only upper-case attribute of `COLOR`
      that is not an integer). */
  datatype Attr = IntAttr(code: int) | C256Builder

  /** `COLOR.get(name)`: the attribute registered under the upper-cased
      name, `None` when there is none. */
  function GetColor(name: string): (r: Option<Attr>)
    ensures r.Some? <==> Upper(name) in Colors || Upper(name) == "C256"
    ensures Upper(name) in Colors ==> r == Some(IntAttr(Colors[Upper(name)]))
    ensures r == Some(C256Builder) <==> Upper(name) == "C256"
  {
    var key := Upper(name);
    if key in Colors then Some(IntAttr(Colors[key]))
    else if key == "C256" then Some(C256Builder)
    else None
  }

  /** Asking for `c256` in any case yields the builder, not a code. */
  lemma GetC256()
    ensures GetColor("c256") == Some(C256Builder)
    ensures GetColor("C256") == Some(C256Builder)
  {
    assert Upper("c256") == "C256";
  }

  lemma UpperIdempotent(s: string)
    ensures Upper(Upper(s)) == Upper(s)
  {
    var u := Upper(s);
    var uu := Upper(u);
    forall i | 0 <= i < |s|
      ensures uu[i] == u[i]
    {
    }
  }

  /** The lookup does not care about letter case. */
  lemma GetColorIgnoresCase(name: string)
    ensures GetColor(Upper(name)) == GetColor(name)
  {
    UpperIdempotent(name);
    assert Upper(Upper(name)) == Upper(name);
  }

  // ---------------------------------------------------------------------
  // Borders
  // ---------------------------------------------------------------------

  /** A border glyph set: horizontal, vertical, top-left, top-right,
      bottom-left, bottom-right. */
  type Border = s: string | |s| == 6 witness "-|++++"

  const Classic: Border := "-|++++"
  const Normal: Border  := "─│┌┐└┘"
  const Heavy: Border   := "━┃┏┓┗┛"
  const Double: Border  := "═║╔╗╚╝"
  const Double1: Border := "═│╒╕╘╛"
  const Double2: Border := "─║╓╖╙╜"
  const Rounded: Border := "─│╭╮╰╯"
  const Block: Border   := "██████"

  const Presets: seq<Border> := [Classic, Normal, Heavy, Double, Double1, Double2, Rounded, Block]

  /** A border whose glyphs are printable: none is an escape character. */
  predicate PlainBorder(b: Border) {
    ESC !in b
  }

  /** Every preset border is plain. */
  lemma PresetsArePlain()
    ensures forall i :: 0 <= i < |Presets| ==> PlainBorder(Presets[i])
  {
  }
}

=== FILE: widgets.dfy ===
/** The interactive widgets of the toolkit with the terminal taken out:
    the `VALIDATOR` predicates, the prompt equalisation shared by `entry`,
    `select_large` and `entry_large`, the rows they draw, the `_input`
    retry loop over a given sequence of typed lines, and the option
    numbering and answer of `select_large`. */
module Widgets {
  import opened Wrappers
  import opened PyStr
  import opened Style
  import opened Justifier
  import opened Markup
  import opened AnsiWidth
  import opened Box

  // ---------------------------------------------------------------------
  // VALIDATOR, as `_input` uses it
  // ---------------------------------------------------------------------

  // `_input` runs `assert validator(res)` inside a bare `try`: a line is
  // accepted when the validator returns a truthy value without raising.

  /** `VALIDATOR.exists`: returns the line, which is truthy unless empty. */
  predicate Exists(s: string) {
    s != []
  }

  /** `VALIDATOR.is_int` as written: `int(s)` must succeed, and the number
      it returns must be truthy, so zero is refused. */
  predicate IsIntAsWritten(s: string): (r: bool)
    ensures r ==> HasDigit(s)
    ensures forall i :: s == IntStr(i) ==> (r <==> i != 0)
  {
    assert forall i :: s == IntStr(i) ==> PyInt(s) == Some(i) by {
      forall i | s == IntStr(i) {
        IntStrRoundTrip(i);
      }
    }
    PyIntHasDigit(s);
    PyInt(s).Some? && PyInt(s).value != 0
  }

  /** `VALIDATOR.is_int` as its name promises: any line `int()` accepts. */
  predicate IsInt(s: string) {
    PyInt(s).Some?
  }

  /** `VALIDATOR.is_bool` as written: `s in '01'` is a substring test. */
  predicate IsBoolAsWritten(s: string): (r: bool)
    ensures r <==> s == "" || s == "0" || s == "1" || s == "01"
  {
    SubstringsOf01(s);
    Contains("01", s)
  }

  /** `VALIDATOR.is_bool` as its name promises: one binary digit. */
  predicate IsBool(s: string) {
    s == "0" || s == "1"
  }

  /** The line `0` is an integer that the validator as written refuses. */
  lemma IsIntRejectsZero()
    ensures PyInt("0") == Some(0)
    ensures !IsIntAsWritten("0") && IsInt("0")
  {
    IntStrRoundTrip(0);
    assert IntStr(0) == "0";
  }

  /** Every integer's decimal form passes the corrected validator; the one
      as written refuses exactly zero among them. */
  lemma IsIntAcceptsIntegers(i: int)
    ensures IsInt(IntStr(i))
    ensures IsIntAsWritten(IntStr(i)) <==> i != 0
  {
    IntStrRoundTrip(i);
  }

  /** The substrings of `01` are the empty string, `0`, `1` and `01`. */
  lemma SubstringsOf01(s: string)
    ensures Contains("01", s) <==> s == "" || s == "0" || s == "1" || s == "01"
  {
    if Contains("01", s) {
      var i :| 0 <= i <= 2 && OccursAt("01", s, i);
      assert s == "01"[i..i + |s|];
    }
    if s == "" {
      assert OccursAt("01", s, 0);
    } else if s == "0" {
      assert OccursAt("01", s, 0);
    } else if s == "1" {
      assert OccursAt("01", s, 1);
    } else if s == "01" {
      assert OccursAt("01", s, 0);
    }
  }

  lemma BlankCharInt(c: char)
    requires IsIntSpace(c)
    ensures PyInt([c]) == None
  {
    assert [c][1..] == [];
    assert StripLeft([c], IntBlanks) == [];
    assert StripBy([c], IntBlanks) == [];
    assert !IsUnderscoredDigits([]);
  }

  lemma OtherCharSigned(c: char)
    requires !IsDigit(c)
    ensures ParseSigned([c]) == None
  {
    var t := [c];
    if c == '+' || c == '-' {
      assert t[1..] == [];
    }
  }

  lemma OtherCharInt(c: char)
    requires !IsIntSpace(c) && !IsDigit(c)
    ensures PyInt([c]) == None
  {
    StripUnchanged([c], IntBlanks);
    OtherCharSigned(c);
  }

  lemma DigitCharInt(c: char)
    requires IsDigit(c)
    ensures PyInt([c]) == Some(DigitValue(c))
  {
    assert IsDecimal([c]);
    PyIntOfDecimal([c]);
    DigitsValueOne(c);
  }

  lemma DigitsValueOne(c: char)
    requires IsDigit(c)
    ensures DigitsValue([c]) == DigitValue(c)
  {
    assert [c][..0] == [];
    assert DigitsValue([c]) == DigitsValue([]) * 10 + DigitValue(c);
  }

  /** A one-character line that `int()` accepts is a digit, worth its
      digit value. */
  lemma SingleCharInt(c: char)
    ensures PyInt([c]).Some? ==> IsDigit(c) && PyInt([c]) == Some(DigitValue(c))
  {
    if IsDigit(c) {
      DigitCharInt(c);
    } else if IsIntSpace(c) {
      BlankCharInt(c);
    } else {
      OtherCharInt(c);
    }
  }

  lemma BinaryDigitsParse()
    ensures PyInt("0") == Some(0) && PyInt("1") == Some(1)
  {
    IntStrRoundTrip(0);
    IntStrRoundTrip(1);
    assert IntStr(0) == "0" && IntStr(1) == "1";
  }

  /** The corrected validator accepts exactly the one-character lines that
      parse as 0 or 1. */
  lemma IsBoolIsBinaryDigit(s: string)
    ensures IsBool(s) <==> |s| == 1 && (PyInt(s) == Some(0) || PyInt(s) == Some(1))
  {
    if |s| == 1 {
      assert s == [s[0]];
      BinaryChar(s[0]);
    }
  }

  /** One character parses as 0 or 1 exactly when it is that digit. */
  lemma BinaryChar(c: char)
    ensures (c == '0' || c == '1') <==> (PyInt([c]) == Some(0) || PyInt([c]) == Some(1))
  {
    SingleCharInt(c);
    BinaryValue(c, PyInt([c]));
    if c == '0' || c == '1' {
      BinaryCharParses(c);
    }
  }

  /** A digit worth 0 or 1 is the digit `0` or `1`. */
  lemma BinaryValue(c: char, v: Option<int>)
    requires v.Some? ==> IsDigit(c) && v == Some(DigitValue(c))
    ensures (v == Some(0) || v == Some(1)) ==> (c == '0' || c == '1')
  {
  }

  /** The digits `0` and `1` parse as themselves. */
  lemma BinaryCharParses(c: char)
    requires c == '0' || c == '1'
    ensures PyInt([c]) == Some(0) || PyInt([c]) == Some(1)
  {
    BinaryDigitsParse();
    if c == '0' {
      assert [c] == "0";
    } else {
      assert [c] == "1";
    }
  }

  /** The substring test lets through every line the corrected validator
      accepts, and also `''` and `01`, neither of which is a binary digit. */
  lemma IsBoolAsWrittenTooWide(s: string)
    ensures IsBool(s) ==> IsBoolAsWritten(s)
    ensures IsBoolAsWritten("") && !IsBool("")
    ensures IsBoolAsWritten("01") && !IsBool("01")
  {
  }

  // ---------------------------------------------------------------------
  // Prompt equalisation
  // ---------------------------------------------------------------------

  /** A prompt and its error prompt, as a widget draws them. */
  datatype Prompts = Prompts(prompt: string, error: string)

  /** `error_prompt` defaults to `'!'`. */
  function ErrorText(error: Option<string>): (e: string)
    ensures error.Some? ==> e == error.value
    ensures error.None? ==> e == "!"
  {
    if error.None? then "!" else error.value
  }

  /** The two prompts centred to a common length: the shorter one is
      `str.center`ed to the length of the longer, which is kept; the
      padding on both sides is spaces. */
  function Equalise(prompt: string, error: Option<string>): (r: Prompts)
    ensures var e := ErrorText(error);
      && |r.prompt| == |r.error| == Max(|prompt|, |e|)
      && (|prompt| > |e| ==> r.prompt == prompt)
      && (|prompt| <= |e| ==> r.error == e)
      && var kp := Offset(Center, |prompt|, |e|);
         var ke := Offset(Center, |e|, |prompt|);
         && r.prompt[kp..kp + |prompt|] == prompt
         && r.error[ke..ke + |e|] == e
         && (forall i :: 0 <= i < kp ==> r.prompt[i] == ' ')
         && (forall i :: kp + |prompt| <= i < |r.prompt| ==> r.prompt[i] == ' ')
         && (forall i :: 0 <= i < ke ==> r.error[i] == ' ')
         && (forall i :: ke + |e| <= i < |r.error| ==> r.error[i] == ' ')
  {
    var e := ErrorText(error);
    if |prompt| > |e| then Prompts(prompt, Justify(Center, e, |prompt|, ' '))
    else Prompts(Justify(Center, prompt, |e|, ' '), e)
  }

  /** Equalising prompts that are already equalised changes nothing. */
  lemma EqualiseIdempotent(prompt: string, error: Option<string>)
    ensures var r := Equalise(prompt, error);
      Equalise(r.prompt, Some(r.error)) == r
  {
  }

  // ---------------------------------------------------------------------
  // The prompt box
  // ---------------------------------------------------------------------

  /** `_ansi(color) + p` with no reset after it. */
  function Colored(c: Code, p: string): string {
    Ansi(c) + p
  }

  lemma VisibleColored(c: Code, p: string)
    requires Invisible(c) && ESC !in p
    ensures Visible(Colored(c, p)) == p
  {
    InvisiblePrefix(c, p);
    AnsiLengthPlainPrefix(p, []);
    assert p + [] == p;
  }

  /** The top of a prompt box: corner, `len(prompt) + 2` border glyphs,
      corner, left in the border colour. */
  function PromptTop(cfg: Config, p: string): (r: string)
    ensures QuietColors(cfg) && PlainBorder(cfg.border) ==>
      Visible(r) == [cfg.border[2]] + Repeat(cfg.border[0], |p| + 2) + [cfg.border[3]]
  {
    var b := cfg.border;
    var top := [b[2]] + Repeat(b[0], |p| + 2) + [b[3]];
    assert QuietColors(cfg) && PlainBorder(b) ==> Visible(Colored(cfg.borderColor, top)) == top by {
      if QuietColors(cfg) && PlainBorder(b) {
        assert ESC !in top;
        VisibleColored(cfg.borderColor, top);
      }
    }
    Colored(cfg.borderColor, top)
  }

  /** The prompt line: `' ' + prompt + ' '` between vertical glyphs. */
  function PromptLine(cfg: Config, p: string): (r: string)
    ensures QuietColors(cfg) && PlainBorder(cfg.border) && ESC !in p ==>
      Visible(r) == [cfg.border[1]] + (" " + p + " ") + [cfg.border[1]]
  {
    var body := " " + p + " ";
    var g := cfg.border[1];
    assert QuietColors(cfg) && PlainBorder(cfg.border) && ESC !in p ==>
      Visible(Cell(cfg.borderColor, cfg.fontColor, g, body)) == [g] + body + [g]
    by {
      if QuietColors(cfg) && PlainBorder(cfg.border) && ESC !in p {
        SpacedPlain(p);
        VisibleCell(cfg.borderColor, cfg.fontColor, g, body);
      }
    }
    Cell(cfg.borderColor, cfg.fontColor, g, body)
  }

  /** The bottom of a prompt box. */
  function PromptBottom(cfg: Config, p: string): (r: string)
    ensures QuietColors(cfg) && PlainBorder(cfg.border) ==>
      Visible(r) == [cfg.border[4]] + Repeat(cfg.border[0], |p| + 2) + [cfg.border[5]]
  {
    var b := cfg.border;
    var bottom := [b[4]] + Repeat(b[0], |p| + 2) + [b[5]];
    assert QuietColors(cfg) && PlainBorder(b) ==> Visible(Framed(cfg.borderColor, bottom)) == bottom by {
      if QuietColors(cfg) && PlainBorder(b) {
        assert ESC !in bottom;
        VisibleFramed(cfg.borderColor, bottom);
      }
    }
    Framed(cfg.borderColor, bottom)
  }

  /** `COLOR.RED`, the colour of the error prompt. */
  const Red: Code := Num(91)

  /** The line `_input` redraws over the prompt line after a rejection. */
  function ErrorLine(cfg: Config, e: string): (r: string)
    ensures QuietColors(cfg) && PlainBorder(cfg.border) && ESC !in e ==>
      Visible(r) == [cfg.border[1]] + (" " + e + " ") + [cfg.border[1]]
  {
    var body := " " + e + " ";
    var g := cfg.border[1];
    assert QuietColors(cfg) && PlainBorder(cfg.border) && ESC !in e ==>
      Visible(Row(cfg.borderColor, Red, g, body)) == [g] + body + [g]
    by {
      if QuietColors(cfg) && PlainBorder(cfg.border) && ESC !in e {
        SpacedPlain(e);
        IntCodeInvisible(91);
        VisibleRow(cfg.borderColor, Red, g, body);
      }
    }
    Row(cfg.borderColor, Red, g, body)
  }

  /** The column `_input` moves the cursor to: `len(prompt) + 5`. */
  function Column(p: string): nat {
    |p| + 5
  }

  /** `' ' + p + ' '` for escape-free `p` is well escaped and shows itself. */
  lemma SpacedPlain(p: string)
    requires ESC !in p
    ensures ESC !in " " + p + " "
    ensures WellEscaped(" " + p + " ") && Visible(" " + p + " ") == " " + p + " "
  {
    var s := " " + p + " ";
    assert forall i :: 1 <= i < |s| - 1 ==> s[i] == p[i - 1];
    WellEscapedPlain(s);
    AnsiLengthPlainPrefix(s, []);
    assert s + [] == s;
  }

  /** The top of a prompt box shows `len(prompt) + 4` columns. */
  lemma PromptTopWidth(cfg: Config, p: string)
    requires QuietColors(cfg) && PlainBorder(cfg.border)
    ensures |Visible(PromptTop(cfg, p))| == |p| + 4
  {
    var b := cfg.border;
    var top := [b[2]] + Repeat(b[0], |p| + 2) + [b[3]];
    assert ESC !in top;
    VisibleColored(cfg.borderColor, top);
  }

  /** So does its bottom. */
  lemma PromptBottomWidth(cfg: Config, p: string)
    requires QuietColors(cfg) && PlainBorder(cfg.border)
    ensures |Visible(PromptBottom(cfg, p))| == |p| + 4
  {
    var b := cfg.border;
    var bottom := [b[4]] + Repeat(b[0], |p| + 2) + [b[5]];
    assert ESC !in bottom;
    VisibleFramed(cfg.borderColor, bottom);
  }

  /** The prompt line shows the prompt between a space and a vertical
      glyph on each side; the cursor lands one column past it. */
  lemma PromptLineVisible(cfg: Config, p: string)
    requires QuietColors(cfg) && PlainBorder(cfg.border) && ESC !in p
    ensures Visible(PromptLine(cfg, p)) == [cfg.border[1]] + (" " + p + " ") + [cfg.border[1]]
    ensures Column(p) == |Visible(PromptLine(cfg, p))| + 1
  {
    SpacedPlain(p);
    VisibleCell(cfg.borderColor, cfg.fontColor, cfg.border[1], " " + p + " ");
  }

  /** The error line shows the error prompt the same way. */
  lemma ErrorLineVisible(cfg: Config, e: string)
    requires QuietColors(cfg) && PlainBorder(cfg.border) && ESC !in e
    ensures Visible(ErrorLine(cfg, e)) == [cfg.border[1]] + (" " + e + " ") + [cfg.border[1]]
  {
    SpacedPlain(e);
    IntCodeInvisible(91);
    VisibleRow(cfg.borderColor, Red, cfg.border[1], " " + e + " ");
  }

  /** Once the prompts are equalised, the three rows of the prompt box and
      the error line drawn over the prompt line all show
      `len(prompt) + 4` columns. */
  lemma PromptBoxAligned(cfg: Config, prompt: string, error: Option<string>)
    requires QuietColors(cfg) && PlainBorder(cfg.border)
    requires ESC !in prompt && (error.Some? ==> ESC !in error.value)
    ensures var q := Equalise(prompt, error);
      var n := |q.prompt| + 4;
      && |Visible(PromptTop(cfg, q.prompt))| == n
      && |Visible(PromptLine(cfg, q.prompt))| == n
      && |Visible(PromptBottom(cfg, q.prompt))| == n
      && |Visible(ErrorLine(cfg, q.error))| == n
  {
    var q := Equalise(prompt, error);
    EqualisePlain(prompt, error);
    PromptTopWidth(cfg, q.prompt);
    PromptLineVisible(cfg, q.prompt);
    PromptBottomWidth(cfg, q.prompt);
    ErrorLineVisible(cfg, q.error);
  }

  /** Centring with spaces adds no escape character. */
  lemma EqualisePlain(prompt: string, error: Option<string>)
    requires ESC !in prompt && (error.Some? ==> ESC !in error.value)
    ensures ESC !in Equalise(prompt, error).prompt && ESC !in Equalise(prompt, error).error
  {
    var e := ErrorText(error);
    if |prompt| > |e| {
      JustifyKeepsChars(Center, e, |prompt|, ' ', ESC);
    } else {
      JustifyKeepsChars(Center, prompt, |e|, ' ', ESC);
    }
  }

  /** The row `select_large` and `entry_large` draw over the banner's
      footer: the left glyph, room for the prompt, then the prompt box's
      top-right corner and border glyphs up to the bottom-right corner. */
  function JoinRow(cfg: Config, w: int, p: string): (r: string)
    ensures QuietColors(cfg) && PlainBorder(cfg.border) ==> Visible(r) == JoinGlyphs(cfg.border, w, p)
  {
    var glyphs := JoinGlyphs(cfg.border, w, p);
    assert QuietColors(cfg) && PlainBorder(cfg.border) ==> Visible(Colored(cfg.borderColor, glyphs)) == glyphs by {
      if QuietColors(cfg) && PlainBorder(cfg.border) {
        VisibleColored(cfg.borderColor, glyphs);
      }
    }
    Colored(cfg.borderColor, glyphs)
  }

  /** The glyphs of the joining row: a vertical glyph, blanks over the
      prompt, the box's top-right corner, border glyphs, the banner's
      bottom-right corner. */
  function JoinGlyphs(b: Border, w: int, p: string): (r: string)
    ensures ESC !in b ==> ESC !in r
  {
    [b[1]] + Repeat(' ', |p| + 2) + [b[2]] + Repeat(b[0], w - |p| - 5) + [b[5]]
  }

  lemma JoinGlyphsShape(b: Border, w: int, p: string)
    requires w >= |p| + 5
    ensures |JoinGlyphs(b, w, p)| == w && JoinGlyphs(b, w, p)[|p| + 3] == b[2]
  {
    var r := JoinGlyphs(b, w, p);
    assert r == ([b[1]] + Repeat(' ', |p| + 2)) + ([b[2]] + Repeat(b[0], w - |p| - 5) + [b[5]]);
  }

  /** The joining row spans the banner when the prompt box fits in it, and
      its corner glyph sits right above the prompt line's right border. */
  lemma JoinRowAligned(cfg: Config, w: int, p: string)
    requires QuietColors(cfg) && PlainBorder(cfg.border) && ESC !in p
    requires w >= |p| + 5
    ensures |Visible(JoinRow(cfg, w, p))| == w
    ensures |Visible(PromptLine(cfg, p))| == |p| + 4
    ensures Visible(JoinRow(cfg, w, p))[|p| + 3] == cfg.border[2]
    ensures Visible(PromptLine(cfg, p))[|p| + 3] == cfg.border[1]
  {
    var b := cfg.border;
    VisibleColored(cfg.borderColor, JoinGlyphs(b, w, p));
    JoinGlyphsShape(b, w, p);
    PromptLineVisible(cfg, p);
    var shown := [b[1]] + (" " + p + " ") + [b[1]];
    assert shown[|p| + 3] == b[1];
  }

  // ---------------------------------------------------------------------
  // _input
  // ---------------------------------------------------------------------

  /** `_input` accepts a line when there is no validator or the validator
      accepts it. */
  predicate Accepts(validator: Option<string -> bool>, s: string) {
    validator.None? || validator.value(s)
  }

  /** The position of the first accepted line, if any. */
  function FirstAccepted(inputs: seq<string>, validator: Option<string -> bool>): (r: Option<nat>)
    ensures r.Some? ==> r.value < |inputs| && Accepts(validator, inputs[r.value])
    ensures r.Some? ==> forall j :: 0 <= j < r.value ==> !Accepts(validator, inputs[j])
    ensures r.None? ==> forall j :: 0 <= j < |inputs| ==> !Accepts(validator, inputs[j])
    decreases |inputs|
  {
    if inputs == [] then None
    else if Accepts(validator, inputs[0]) then Some(0)
    else match FirstAccepted(inputs[1..], validator)
      case None => None
      case Some(k) => Some(k + 1)
  }

  /** What `_input` leaves behind: the accepted line and the error lines it
      drew, one per rejected line before it. */
  datatype Answer = Answer(value: string, redraws: seq<string>)

  /** `_input(col, error_prompt, validator)` reading the lines `inputs` in
      order: the first accepted line, after one redraw of the error line
      per rejected line. `None` when every line is rejected: the loop would
      wait for more input forever. */
  function Input(inputs: seq<string>, errorLine: string, validator: Option<string -> bool>)
    : (r: Option<Answer>)
    ensures r.Some? <==> exists i :: 0 <= i < |inputs| && Accepts(validator, inputs[i])
    ensures r.Some? ==>
      var k := |r.value.redraws|;
      && k < |inputs| && r.value.value == inputs[k]
      && Accepts(validator, inputs[k])
      && (forall j :: 0 <= j < k ==> !Accepts(validator, inputs[j]))
      && (forall j :: 0 <= j < k ==> r.value.redraws[j] == errorLine)
  {
    match FirstAccepted(inputs, validator)
    case None => None
    case Some(k) => Some(Answer(inputs[k], seq(k, _ => errorLine)))
  }

  /** Prepending rejected lines only adds redraws. */
  lemma InputSkipsRejected(bad: seq<string>, inputs: seq<string>, errorLine: string,
                           validator: Option<string -> bool>)
    requires forall j :: 0 <= j < |bad| ==> !Accepts(validator, bad[j])
    ensures Input(bad + inputs, errorLine, validator).Some? <==> Input(inputs, errorLine, validator).Some?
    ensures Input(inputs, errorLine, validator).Some? ==>
      var a := Input(inputs, errorLine, validator).value;
      Input(bad + inputs, errorLine, validator)
        == Some(Answer(a.value, Repeat1(errorLine, |bad|) + a.redraws))
  {
    var s := bad + inputs;
    var r := Input(s, errorLine, validator);
    var q := Input(inputs, errorLine, validator);
    assert forall j :: 0 <= j < |bad| ==> s[j] == bad[j];
    assert forall j :: |bad| <= j < |s| ==> s[j] == inputs[j - |bad|];
    if q.Some? {
      var k := |q.value.redraws|;
      assert Accepts(validator, s[|bad| + k]);
      assert |r.value.redraws| == |bad| + k;
      assert r.value.redraws == Repeat1(errorLine, |bad|) + q.value.redraws;
    }
  }

  /** `[x] * n`. */
  function Repeat1(x: string, n: nat): (r: seq<string>)
    ensures |r| == n && forall j :: 0 <= j < n ==> r[j] == x
  {
    seq(n, _ => x)
  }

  // ---------------------------------------------------------------------
  // select_large
  // ---------------------------------------------------------------------

  /** `f'{i + 1: >{index_space}}. {opt}'` with `index_space =
      len(str(len(options)))`: the 1-based number right-aligned in the
      width of the largest one, a dot and a space, the option. */
  function OptionLabel(i: nat, n: nat, opt: string): (r: string)
    requires i < n
    ensures var pad := |NatStr(n)|;
      var num := NatStr(i + 1);
      && |r| == pad + 2 + |opt| && |num| <= pad
      && r[pad - |num|..pad] == num
      && (forall j :: 0 <= j < pad - |num| ==> r[j] == ' ')
      && r[pad..pad + 2] == ". "
      && r[pad + 2..] == opt
  {
    NatStrLengthMonotone(i + 1, n);
    var num := Justify(Right, NatStr(i + 1), |NatStr(n)|, ' ');
    var r := num + ". " + opt;
    assert r[..|num|] == num;
    r
  }

  /** The option labels of `select_large`, numbered from 1. */
  function Labels(options: seq<string>): (r: seq<string>)
    ensures |r| == |options|
    ensures forall i :: 0 <= i < |options| ==> r[i] == OptionLabel(i, |options|, options[i])
  {
    seq(|options|, i requires 0 <= i < |options| => OptionLabel(i, |options|, options[i]))
  }

  /** `lambda i: 0 < int(i) < len(options) + 1`. */
  predicate SelectAccepts(n: nat, s: string) {
    PyInt(s).Some? && 0 < PyInt(s).value < n + 1
  }

  /** `int(answer) - 1`, the 0-based index `select_large` returns. */
  function SelectIndex(n: nat, s: string): (k: nat)
    requires SelectAccepts(n, s)
    ensures k < n
    ensures PyInt(s) == Some(k + 1)
  {
    PyInt(s).value - 1
  }

  /** The validator accepts exactly the lines worth one of the numbers
      shown on the labels. */
  lemma SelectAcceptsLabelNumbers(n: nat, s: string)
    ensures SelectAccepts(n, s) <==> exists i: nat :: 1 <= i <= n && PyInt(s) == PyInt(NatStr(i))
  {
    if SelectAccepts(n, s) {
      var i: nat := PyInt(s).value;
      IntStrRoundTrip(i);
      assert IntStr(i) == NatStr(i);
    }
    if exists i: nat :: 1 <= i <= n && PyInt(s) == PyInt(NatStr(i)) {
      var i: nat :| 1 <= i <= n && PyInt(s) == PyInt(NatStr(i));
      IntStrRoundTrip(i);
      assert IntStr(i) == NatStr(i);
    }
  }

  /** Typing the number shown on a label selects that option. */
  lemma SelectByLabel(n: nat, i: nat)
    requires i < n
    ensures SelectAccepts(n, NatStr(i + 1)) && SelectIndex(n, NatStr(i + 1)) == i
  {
    IntStrRoundTrip(i + 1);
    assert IntStr(i + 1) == NatStr(i + 1);
  }

  /** What a widget leaves on the screen and what it returns: the rows
      drawn, the error line, the cursor column and the answer. */
  datatype Screen<T> = Screen(rows: seq<string>, errorLine: string, column: nat, answer: Option<T>)

  /** The first valid number among the typed lines, as the 0-based index
      `select_large` returns. */
  function SelectAnswer(n: nat, inputs: seq<string>): (r: Option<nat>)
    ensures r.Some? ==> r.value < n
    ensures r.Some? ==>
      exists k {:trigger NoneSelectable(n, inputs, k)} ::
        0 <= k < |inputs| && PyInt(inputs[k]) == Some(r.value + 1) && NoneSelectable(n, inputs, k)
    ensures r.None? ==> NoneSelectable(n, inputs, |inputs|)
  {
    var k := FirstSelection(n, inputs);
    if k.Some? then
      var i := SelectIndex(n, inputs[k.value]);
      assert PyInt(inputs[k.value]) == Some(i + 1) && NoneSelectable(n, inputs, k.value);
      Some(i)
    else None
  }

  /** The line `_input` stops at under the validator of `select_large`:
      the first one worth an option number. */
  function FirstSelection(n: nat, inputs: seq<string>): (k: Option<nat>)
    ensures k.Some? ==> k.value < |inputs| && SelectAccepts(n, inputs[k.value])
    ensures k.Some? ==> NoneSelectable(n, inputs, k.value)
    ensures k.None? ==> NoneSelectable(n, inputs, |inputs|)
  {
    var ok := (s: string) => SelectAccepts(n, s);
    var k := FirstAccepted(inputs, Some(ok));
    FirstSelectable(n, inputs, ok, k);
    k
  }

  /** None of the first `m` lines is worth an option number. */
  predicate NoneSelectable(n: nat, inputs: seq<string>, m: nat)
    requires m <= |inputs|
  {
    forall j :: 0 <= j < m ==> !SelectAccepts(n, inputs[j])
  }

  /** `_input` with the validator of `select_large` stops at the first line
      worth one of the option numbers. */
  lemma FirstSelectable(n: nat, inputs: seq<string>, ok: string -> bool, k: Option<nat>)
    requires forall s :: ok(s) == SelectAccepts(n, s)
    requires k == FirstAccepted(inputs, Some(ok))
    ensures k.Some? ==> k.value < |inputs| && SelectAccepts(n, inputs[k.value])
    ensures k.Some? ==> NoneSelectable(n, inputs, k.value)
    ensures k.None? ==> NoneSelectable(n, inputs, |inputs|)
  {
  }

  /** The first line the validator accepts, as `entry` returns it. */
  function EntryAnswer(validator: string -> bool, inputs: seq<string>): (r: Option<string>)
    ensures r.Some? ==> validator(r.value)
    ensures r.Some? ==>
      exists k :: 0 <= k < |inputs| && inputs[k] == r.value
        && forall j :: 0 <= j < k ==> !validator(inputs[j])
    ensures r.None? ==> forall j :: 0 <= j < |inputs| ==> !validator(inputs[j])
  {
    match FirstAccepted(inputs, Some(validator))
    case None => None
    case Some(k) => Some(inputs[k])
  }

  /** The rows under the prompt: the prompt line and the box's bottom. */
  function PromptRows(cfg: Config, q: Prompts): seq<string> {
    [PromptLine(cfg, q.prompt), PromptBottom(cfg, q.prompt)]
  }

  /** A banner whose footer is replaced by the joining row, followed by the
      prompt line and the prompt box's bottom. */
  function Joined(cfg: Config, w: int, banner: seq<string>, q: Prompts): (r: seq<string>)
    ensures |banner| >= 1 ==> |r| == |banner| + 2 && r[..|banner| - 1] == banner[..|banner| - 1]
    ensures var n := if banner == [] then 0 else |banner| - 1;
      && |r| == n + 3
      && r[n] == JoinRow(cfg, w, q.prompt)
      && r[n + 1] == PromptLine(cfg, q.prompt)
      && r[n + 2] == PromptBottom(cfg, q.prompt)
  {
    (if banner == [] then [] else banner[..|banner| - 1])
      + [JoinRow(cfg, w, q.prompt)] + PromptRows(cfg, q)
  }

  /** `select_large(options, prompt, error_prompt, justify, title,
      justify_title, wrap_lines)` answering the lines `inputs`: the option
      banner joined to the prompt box, then the 0-based index of the first
      valid number typed. The banner's format error is raised. */
  function SelectLarge(cfg: Config, columns: int, options: seq<string>, prompt: string,
                       error: Option<string>, mode: Mode, title: Option<string>,
                       titleMode: Mode, wrapLines: bool, inputs: seq<string>)
    : (r: Result<Screen<nat>, MarkupError>)
    ensures r.Success? ==> r.value.answer == SelectAnswer(|options|, inputs)
    ensures r.Success? ==> r.value.column == Column(Equalise(prompt, error).prompt)
  {
    var q := Equalise(prompt, error);
    var rows :- Banner(cfg, columns, Lines(Labels(options)), mode, title, titleMode, wrapLines);
    Success(Screen(Joined(cfg, Width(cfg, columns), rows, q), ErrorLine(cfg, q.error),
                   Column(q.prompt), SelectAnswer(|options|, inputs)))
  }

  /** With the default validator `entry` returns the first non-empty line,
      and has no answer only when every line is empty. */
  lemma EntryDefault(inputs: seq<string>)
    ensures var r := EntryAnswer(Exists, inputs);
      && (r.None? <==> forall j :: 0 <= j < |inputs| ==> inputs[j] == [])
      && (r.Some? ==> r.value != [])
  {
  }

  /** `entry(prompt, error_prompt, validator)` answering the lines `inputs`:
      the prompt box, then the first accepted line. */
  function Entry(cfg: Config, prompt: string, error: Option<string>,
                 validator: string -> bool, inputs: seq<string>): (r: Screen<string>)
    ensures |r.rows| == 3 && r.answer == EntryAnswer(validator, inputs)
  {
    var q := Equalise(prompt, error);
    Screen([PromptTop(cfg, q.prompt)] + PromptRows(cfg, q), ErrorLine(cfg, q.error),
           Column(q.prompt), EntryAnswer(validator, inputs))
  }

  /** `entry_large(text, prompt, error_prompt, justify, title,
      justify_title, validator, wrap_lines)` answering the lines `inputs`:
      the text banner joined to the prompt box, then the first accepted
      line. */
  function EntryLarge(cfg: Config, columns: int, text: Text, prompt: string,
                      error: Option<string>, mode: Mode, title: Option<string>,
                      titleMode: Mode, validator: string -> bool, wrapLines: bool,
                      inputs: seq<string>)
    : (r: Result<Screen<string>, MarkupError>)
    ensures r.Success? ==> r.value.answer == EntryAnswer(validator, inputs)
  {
    var q := Equalise(prompt, error);
    var rows :- Banner(cfg, columns, text, mode, title, titleMode, wrapLines);
    Success(Screen(Joined(cfg, Width(cfg, columns), rows, q), ErrorLine(cfg, q.error),
                   Column(q.prompt), EntryAnswer(validator, inputs)))
  }
}

=== FILE: wrap.dfy ===
/** The text wrapper `_wrap(text, width)`: a greedy packer over the
    whitespace-separated words of one line. Over-long words are cut and
    hyphenated, every sub-line keeps one trailing space, and empty
    sub-lines are dropped. */
module TextWrap {
  import opened PyStr

  /** `word[:width - 2] + '-'` when the word is longer than `width - 1`,
      the word itself otherwise. */
  function Truncate(word: string, width: int): (r: string)
    ensures IsWord(word) ==> IsWord(r)
    ensures width >= 2 ==> |r| <= width - 1
    ensures |word| <= width - 1 ==> r == word
    ensures width >= 2 && |word| > width - 1 ==>
      |r| == width - 1 && r[..width - 2] == word[..width - 2] && r[width - 2] == '-'
  {
    if |word| > width - 1 then PyPrefix(word, width - 2) + "-" else word
  }

  /** Every word of `ws` passed through `Truncate`. */
  function TruncateAll(ws: seq<string>, width: int): (r: seq<string>)
    ensures |r| == |ws|
    ensures forall i :: 0 <= i < |ws| ==> r[i] == Truncate(ws[i], width)
  {
    seq(|ws|, i requires 0 <= i < |ws| => Truncate(ws[i], width))
  }

  /** One packing step: append `word + ' '` to the current sub-line when
      `len(current) + len(word) + 1 < width`, else start a new sub-line. */
  function Step(res: seq<string>, word: string, width: int): (r: seq<string>)
    requires |res| >= 1
    ensures |r| >= 1
  {
    var last := res[|res| - 1];
    if |last| + |word| + 1 < width then res[..|res| - 1] + [last + word + " "]
    else res + [word + " "]
  }

  /** The packing loop over the words, left to right. */
  function Pack(res: seq<string>, ws: seq<string>, width: int): (r: seq<string>)
    requires |res| >= 1
    ensures |r| >= 1
    decreases |ws|
  {
    if ws == [] then res else Pack(Step(res, ws[0], width), ws[1..], width)
  }

  /** `[l for l in res if l]`. */
  function NonEmpty(ls: seq<string>): (r: seq<string>)
    ensures forall i :: 0 <= i < |r| ==> r[i] != [] && r[i] in ls
    ensures (forall i :: 0 <= i < |ls| ==> ls[i] == []) ==> r == []
  {
    if ls == [] then []
    else (if ls[0] == [] then [] else [ls[0]]) + NonEmpty(ls[1..])
  }

  /** The sub-lines concatenated. */
  function Concat(ls: seq<string>): string {
    if ls == [] then [] else ls[0] + Concat(ls[1..])
  }

  /** A sub-line as the wrapper emits it: at most `width` long, ending in
      exactly one space that follows a word character. */
  predicate WellFormedLine(l: string, width: int) {
    2 <= |l| <= width && l[|l| - 1] == ' ' && !IsSpace(l[|l| - 2])
  }

  /** Greedy packing: the first word of each sub-line would not have fitted
      on the sub-line before it, because `len(line) + len(word) + 1 < width`
      fails for it. */
  predicate Greedy(ls: seq<string>, width: int) {
    forall i :: 0 <= i < |ls| - 1 ==> |ls[i]| + WordLen(ls[i + 1]) + 1 >= width
  }

  /** A word joins a sub-line only while `len(line) + len(word) + 1 < width`,
      so a sub-line holding more than one word is shorter than `width`. */
  predicate Packed(ls: seq<string>, width: int) {
    forall i :: 0 <= i < |ls| && WordLen(ls[i]) + 1 < |ls[i]| ==> |ls[i]| < width
  }

  /** `_wrap(text, width)`. */
  function Wrap(text: string, width: int): (r: seq<string>)
    ensures text == [] ==> r == [""]
    ensures text != [] && (forall i :: 0 <= i < |text| ==> IsSpace(text[i])) ==> r == []
    ensures text != [] ==> Concat(r) == JoinSpaced(TruncateAll(Words(text), width))
    ensures text != [] && width >= 2 ==>
      forall i :: 0 <= i < |r| ==> WellFormedLine(r[i], width)
    ensures text != [] ==> Greedy(r, width)
    ensures text != [] ==> Packed(r, width)
  {
    if text == [] then [""]
    else
      var ws := TruncateAll(Words(text), width);
      var packed := Pack([""], ws, width);
      PackConcat([""], ws, width);
      NonEmptyConcat(packed);
      assert width >= 2 ==> forall i :: 0 <= i < |NonEmpty(packed)| ==>
          WellFormedLine(NonEmpty(packed)[i], width) by {
        if width >= 2 {
          PackLines([""], ws, width);
        }
      }
      PackGreedy([""], ws, width);
      NonEmptyHeaded(packed, width);
      PackPacked([""], ws, width);
      NonEmptyPacked(packed, width);
      NonEmpty(packed)
  }

  // ---------------------------------------------------------------------
  // Content: nothing is lost, duplicated or reordered
  // ---------------------------------------------------------------------

  lemma {:induction false} ConcatAppend(ls: seq<string>, x: string)
    ensures Concat(ls + [x]) == Concat(ls) + x
  {
    if ls != [] {
      assert (ls + [x])[1..] == ls[1..] + [x];
      ConcatAppend(ls[1..], x);
    }
  }

  lemma ConcatExtendLast(init: seq<string>, last: string, w: string)
    ensures Concat(init + [last + w]) == Concat(init + [last]) + w
  {
    ConcatAppend(init, last + w);
    ConcatAppend(init, last);
  }

  /** The two outcomes of a step, with the new text grouped as one piece. */
  lemma StepCases(res: seq<string>, word: string, width: int)
    requires |res| >= 1
    ensures var init := res[..|res| - 1];
      var last := res[|res| - 1];
      && res == init + [last]
      && (|last| + |word| + 1 < width ==> Step(res, word, width) == init + [last + (word + " ")])
      && (|last| + |word| + 1 >= width ==> Step(res, word, width) == res + [word + " "])
  {
    var last := res[|res| - 1];
    ConcatAssoc(last, word, " ");
  }

  lemma StepConcat(res: seq<string>, word: string, width: int)
    requires |res| >= 1
    ensures Concat(Step(res, word, width)) == Concat(res) + word + " "
  {
    var init := res[..|res| - 1];
    var last := res[|res| - 1];
    var w := word + " ";
    StepCases(res, word, width);
    ConcatAppend(init, last);
    if |last| + |word| + 1 < width {
      ConcatAppend(init, last + w);
      ConcatAssoc(Concat(init), last, w);
    } else {
      ConcatAppend(res, w);
    }
    ConcatAssoc(Concat(res), word, " ");
  }

  lemma {:induction false} PackConcat(res: seq<string>, ws: seq<string>, width: int)
    requires |res| >= 1
    ensures Concat(Pack(res, ws, width)) == Concat(res) + JoinSpaced(ws)
    decreases |ws|
  {
    if ws != [] {
      StepConcat(res, ws[0], width);
      PackConcat(Step(res, ws[0], width), ws[1..], width);
    }
  }

  lemma {:induction false} NonEmptyConcat(ls: seq<string>)
    ensures Concat(NonEmpty(ls)) == Concat(ls)
  {
    if ls != [] {
      var rest := NonEmpty(ls[1..]);
      NonEmptyConcat(ls[1..]);
      if ls[0] == [] {
        assert NonEmpty(ls) == rest;
      } else {
        assert NonEmpty(ls) == [ls[0]] + rest;
        assert ([ls[0]] + rest)[1..] == rest;
      }
    }
  }

  /** Splitting the wrapped sub-lines again yields the words of the input,
      each truncated as `_wrap` does, in their original order. */
  lemma WrapKeepsWords(text: string, width: int)
    requires text != []
    ensures Words(Concat(Wrap(text, width))) == TruncateAll(Words(text), width)
  {
    var ws := TruncateAll(Words(text), width);
    assert forall i :: 0 <= i < |ws| ==> IsWord(ws[i]);
    WordsOfJoinSpaced(ws);
  }

  // ---------------------------------------------------------------------
  // Shape: every sub-line is well formed
  // ---------------------------------------------------------------------

  /** The lines built so far: only the seed line may still be empty. */
  predicate GoodLines(res: seq<string>, width: int) {
    && |res| >= 1
    && (res[0] == [] || WellFormedLine(res[0], width))
    && forall i :: 1 <= i < |res| ==> WellFormedLine(res[i], width)
  }

  lemma StepLines(res: seq<string>, word: string, width: int)
    requires GoodLines(res, width)
    requires IsWord(word) && |word| <= width - 1
    ensures GoodLines(Step(res, word, width), width)
  {
    var last := res[|res| - 1];
    var r := Step(res, word, width);
    if |last| + |word| + 1 < width {
      var l := last + word + " ";
      assert l[|l| - 2] == word[|word| - 1];
      assert r[|r| - 1] == l;
      forall i | 0 <= i < |r| - 1
        ensures r[i] == res[i]
      {
      }
    } else {
      var l := word + " ";
      assert l[|l| - 2] == word[|word| - 1];
    }
  }

  lemma {:induction false} PackLines(res: seq<string>, ws: seq<string>, width: int)
    requires GoodLines(res, width)
    requires forall i :: 0 <= i < |ws| ==> IsWord(ws[i]) && |ws[i]| <= width - 1
    ensures forall i :: 0 <= i < |NonEmpty(Pack(res, ws, width))| ==>
      WellFormedLine(NonEmpty(Pack(res, ws, width))[i], width)
    decreases |ws|
  {
    if ws == [] {
      var r := NonEmpty(res);
      forall i | 0 <= i < |r|
        ensures WellFormedLine(r[i], width)
      {
        assert r[i] in res;
      }
    } else {
      StepLines(res, ws[0], width);
      PackLines(Step(res, ws[0], width), ws[1..], width);
    }
  }

  // ---------------------------------------------------------------------
  // Greed: a sub-line is only closed when the next word does not fit
  // ---------------------------------------------------------------------

  /** The lines built so far: each is empty or ends in a space, and only the
      seed line may be empty. */
  predicate Headed(res: seq<string>) {
    && |res| >= 1
    && (forall i :: 0 <= i < |res| ==> res[i] == [] || res[i][|res[i]| - 1] == ' ')
    && (forall i :: 1 <= i < |res| ==> res[i] != [])
  }

  /** Text appended after the first whitespace does not move the end of the
      first word. */
  lemma {:induction false} WordLenExtend(a: string, b: string)
    requires WordLen(a) < |a|
    ensures WordLen(a + b) == WordLen(a)
  {
    if !IsSpace(a[0]) {
      assert (a + b)[1..] == a[1..] + b;
      WordLenExtend(a[1..], b);
    }
  }

  lemma StepGreedy(res: seq<string>, word: string, width: int)
    requires Headed(res) && Greedy(res, width) && IsWord(word)
    ensures Headed(Step(res, word, width)) && Greedy(Step(res, word, width), width)
  {
    var last := res[|res| - 1];
    var r := Step(res, word, width);
    WordLenOfWord(word, ' ', []);
    assert word + [' '] + [] == word + " ";
    if |last| + |word| + 1 < width {
      var l := last + word + " ";
      assert r == res[..|res| - 1] + [l];
      if last != [] {
        assert WordLen(last) < |last| by {
          assert last[|last| - 1] == ' ';
        }
        assert l == last + (word + " ");
        WordLenExtend(last, word + " ");
      }
      forall i | 0 <= i < |r| - 1
        ensures r[i] == res[i]
      {
      }
    } else {
      assert r == res + [word + " "];
    }
  }

  lemma {:induction false} PackGreedy(res: seq<string>, ws: seq<string>, width: int)
    requires Headed(res) && Greedy(res, width)
    requires forall i :: 0 <= i < |ws| ==> IsWord(ws[i])
    ensures Headed(Pack(res, ws, width)) && Greedy(Pack(res, ws, width), width)
    decreases |ws|
  {
    if ws != [] {
      StepGreedy(res, ws[0], width);
      PackGreedy(Step(res, ws[0], width), ws[1..], width);
    }
  }

  lemma {:induction false} NonEmptyAll(ls: seq<string>)
    requires forall i :: 0 <= i < |ls| ==> ls[i] != []
    ensures NonEmpty(ls) == ls
  {
    if ls != [] {
      NonEmptyAll(ls[1..]);
    }
  }

  /** Only the seed line can be dropped, so the greedy rule survives the
      final filter. */
  lemma NonEmptyHeaded(res: seq<string>, width: int)
    requires Headed(res) && Greedy(res, width)
    ensures Greedy(NonEmpty(res), width)
  {
    NonEmptyAll(res[1..]);
    if res[0] != [] {
      NonEmptyAll(res);
    } else {
      assert NonEmpty(res) == NonEmpty(res[1..]);
      GreedyTail(res, width);
    }
  }

  lemma GreedyTail(ls: seq<string>, width: int)
    requires |ls| >= 1 && Greedy(ls, width)
    ensures Greedy(ls[1..], width)
  {
    var t := ls[1..];
    forall i | 0 <= i < |t| - 1
      ensures |t[i]| + WordLen(t[i + 1]) + 1 >= width
    {
      assert t[i] == ls[i + 1] && t[i + 1] == ls[i + 2];
    }
  }

  // ---------------------------------------------------------------------
  // Packing: a word joins a sub-line only while it fits
  // ---------------------------------------------------------------------

  lemma StepPacked(res: seq<string>, word: string, width: int)
    requires |res| >= 1 && Packed(res, width) && IsWord(word)
    ensures Packed(Step(res, word, width), width)
  {
    var last := res[|res| - 1];
    var r := Step(res, word, width);
    assert forall i :: 0 <= i < |r| - 1 ==> r[i] == res[i];
    if |last| + |word| + 1 >= width {
      WordLenOfWord(word, ' ', []);
      assert word + [' '] + [] == word + " ";
      assert r[|r| - 1] == word + " ";
    }
  }

  lemma {:induction false} PackPacked(res: seq<string>, ws: seq<string>, width: int)
    requires |res| >= 1 && Packed(res, width)
    requires forall i :: 0 <= i < |ws| ==> IsWord(ws[i])
    ensures Packed(Pack(res, ws, width), width)
    decreases |ws|
  {
    if ws != [] {
      StepPacked(res, ws[0], width);
      PackPacked(Step(res, ws[0], width), ws[1..], width);
    }
  }

  lemma NonEmptyPacked(ls: seq<string>, width: int)
    requires Packed(ls, width)
    ensures Packed(NonEmpty(ls), width)
  {
    var r := NonEmpty(ls);
    forall i | 0 <= i < |r| && WordLen(r[i]) + 1 < |r[i]|
      ensures |r[i]| < width
    {
      assert r[i] in ls;
    }
  }

  /** A word longer than `width - 1` comes out as its first `width - 2`
      characters and a hyphen, exactly `width - 1` long. */
  lemma TruncateLongWord(word: string, width: int)
    requires width >= 2 && |word| > width - 1
    ensures Truncate(word, width) == word[..width - 2] + "-"
  {
  }

  // ---------------------------------------------------------------------
  // Alphabet: only the input's characters, spaces and hyphens appear
  // ---------------------------------------------------------------------

  predicate LinesChars(ls: seq<string>, ok: char -> bool) {
    forall i :: 0 <= i < |ls| ==> AllChars(ls[i], ok)
  }

  lemma StepChars(res: seq<string>, word: string, width: int, ok: char -> bool)
    requires |res| >= 1 && ok(' ')
    requires LinesChars(res, ok) && AllChars(word, ok)
    ensures LinesChars(Step(res, word, width), ok)
  {
    var last := res[|res| - 1];
    assert AllChars(last, ok);
    var r := Step(res, word, width);
    if |last| + |word| + 1 < width {
      assert r[|r| - 1] == last + word + " ";
      assert forall i :: 0 <= i < |r| - 1 ==> r[i] == res[i];
    } else {
      assert r[|r| - 1] == word + " ";
      assert forall i :: 0 <= i < |r| - 1 ==> r[i] == res[i];
    }
  }

  lemma {:induction false} PackChars(res: seq<string>, ws: seq<string>, width: int, ok: char -> bool)
    requires |res| >= 1 && ok(' ')
    requires LinesChars(res, ok) && LinesChars(ws, ok)
    ensures LinesChars(Pack(res, ws, width), ok)
    decreases |ws|
  {
    if ws != [] {
      StepChars(res, ws[0], width, ok);
      PackChars(Step(res, ws[0], width), ws[1..], width, ok);
    }
  }

  /** A wrapped sub-line holds only characters of the text, spaces, and
      the hyphens of cut words. */
  lemma WrapKeepsChars(text: string, width: int, ok: char -> bool)
    requires ok(' ') && ok('-') && AllChars(text, ok)
    ensures LinesChars(Wrap(text, width), ok)
  {
    if text != [] {
      var words := Words(text);
      WordsKeepChars(text, ok);
      var ws := TruncateAll(words, width);
      forall i | 0 <= i < |ws|
        ensures AllChars(ws[i], ok)
      {
        assert AllChars(words[i], ok);
        var p := PyPrefix(words[i], width - 2);
        assert forall j :: 0 <= j < |p| ==> p[j] == words[i][j];
      }
      PackChars([""], ws, width, ok);
    }
  }
}

=== FILE: wrappers.dfy ===
/** Failure-carrying values used throughout the model in place of Python's
    `None` returns and raised exceptions. */
module Wrappers {

  /** A value that may be missing (Python `None`). */
  datatype Option<+T> = None | Some(value: T) {
    predicate IsFailure() {
      None?
    }

    function PropagateFailure<U>(): Option<U>
      requires None?
    {
      None
    }

    function Extract(): T
      requires Some?
    {
      value
    }
  }

  /** Either a computed value or the error that Python would have raised. */
  datatype Result<+R, +E> = Success(value: R) | Failure(error: E) {
    predicate IsFailure() {
      Failure?
    }

    function PropagateFailure<U>(): Result<U, E>
      requires Failure?
    {
      Failure(error)
    }

    function Extract(): R
      requires Success?
    {
      value
    }
  }
}
